=== FILE: README.md ===
# ccfoundation backend core, modelled in Dafny

ccfoundation is a desktop front end for the `claude` command-line tool. Its Rust backend does six jobs:

- It starts `claude` processes and keeps them in a key → child-process registry.
- It turns the CLI's newline-delimited JSON output into UI stream events.
- It reads Claude Code's session transcripts.
- It normalises model names.
- It stores chat sessions as JSON files.
- It edits the user's `~/.claude/settings.json`: configuration stores, the app's hooks, and per-project clean-up.

This project models that backend and proves properties about it.

The model has one module per source file, plus a few shared helper modules:

- `Wrappers`: Option and Result.
- `Json`: the serde value, and JSONL lines that carry their parse result.
- `Text`: the `str` methods the source uses.
- `Sorting`: an insertion sort, largest key first.
- `Registry`: the process map, the host that spawns and kills, and the UI event log.
- `Streams`: the reading loop both stream readers share, folded over the lines with the per-line step as a parameter, and the channel tag on emitted events.

Each module follows its source file's form:

- State the source mutates in place is a `class`. The process map, the chat-session directory, the app's config files and the project files are classes whose methods state their new state.
- Loops are `method`s with invariants. Each is proved equal to a fold or filter function, and the properties are lemmas about that function.
- Pure code is functions and lemmas.

Things outside the program are inputs:

- the file system's answers (missing, unreadable, unparsable or present);
- the spawn outcome, the kill result and whether an emit fails;
- the clock, UUIDs and the directory order.

## Model

| member | source | states |
|---|---|---|
| Registry.ProcessMap.Insert | src-tauri/src/sessions/resume.rs:94 | inserting a key maps it to the handle, overwriting a present entry |
| Registry.ProcessMap.Remove | src-tauri/src/sessions/resume.rs:427 | removal returns the handle that was registered, if any, and the key is gone afterwards |
| Resume.ParseStreamEvent | src-tauri/src/sessions/resume.rs:159-260 | a line without an event leaves the state alone, except that an `assistant` line starts a message when none is current; a start resets the text; a delta extends the text (wrapped schema) or replaces it (verbose schema); a completion reports the state accumulated before the line; the normaliser never emits SessionIdUpdated itself |
| Resume.IgnoredLines | src-tauri/src/sessions/resume.rs:164-200 | `system`, unknown types, a missing `type`, and start/delta/stop lines of the wrong shape emit nothing and leave the state untouched |
| Resume.MessageStartResets | src-tauri/src/sessions/resume.rs:173-178 | `message_start` with id m gives state (m, "") and MessageStart{m} |
| Resume.AssistantOverwrites | src-tauri/src/sessions/resume.rs:202-230 | an `assistant` line's first text block replaces the accumulated text and is emitted under the line's own id |
| Resume.ResultAndError | src-tauri/src/sessions/resume.rs:232-257 | `result` completes the current message and clears the state; `error` reports the `error` field or "Unknown error" |
| Resume.FoldAppend | src-tauri/src/sessions/resume.rs:121-146 | folding a concatenation of lines is folding the second part from the state the first part left |
| Resume.SkippedLinesInvisible | src-tauri/src/sessions/resume.rs:121-145 | blank or non-JSON lines can be removed from anywhere in a stream without changing its events or final state |
| Resume.WrappedMessageCompletes | src-tauri/src/sessions/resume.rs:168-193 | start, n deltas, stop yields MessageStart, the n deltas in order, and one MessageComplete whose content is their concatenation |
| Resume.Preflight | src-tauri/src/sessions/resume.rs:271-284 | the CLI must be installed, the path must exist and must canonicalise, checked in that order, each with its own error |
| Resume.CreateSession | src-tauri/src/sessions/resume.rs:263-328 | on success exactly one entry is added, under "temp-" + uuid, which is returned; on any earlier failure the registry is unchanged; a spawn without stdout kills the child |
| Resume.Rekey | src-tauri/src/sessions/resume.rs:367-374 | the child under the temp key moves to the real id with the same handle, every other key is untouched, and nothing happens when the temp key is gone |
| Resume.FeedLine | src-tauri/src/sessions/resume.rs:352-407 | one iteration of the create stream loop does to the registry and the event log what the fold step `FeedCreated` says |
| Resume.CreateStreamTask | src-tauri/src/sessions/resume.rs:344-415 | the create stream task ends with the registry and log of the fold over all lines, minus the active key; there is no end-of-stream flush |
| Resume.Reconciliation | src-tauri/src/sessions/resume.rs:362-390 | a `system` line with id X moves the temp entry to X, announces SessionIdUpdated{temp, X} on both channels, and makes X the active key |
| Resume.FeedAfterReal | src-tauri/src/sessions/resume.rs:389-401 | a line without a session id keeps the real id and publishes its event on that id's channel |
| Resume.LaterEventsOnRealChannel | src-tauri/src/sessions/resume.rs:352-407 | once the real id is known, every later event goes to the real id's channel |
| Resume.ResumeSession | src-tauri/src/sessions/resume.rs:30-96 | resume registers the child under the session id itself, or changes nothing on failure |
| Resume.ResumeStreamTask | src-tauri/src/sessions/resume.rs:114-153 | every event of the stream is published on the session's channel in order, then the session id is deregistered |
| Resume.CancelSession | src-tauri/src/sessions/resume.rs:421-437 | a present key is killed and removed; an absent key gives "Session is not running" and changes nothing |
| ClaudeCli.ParseClaudeMessage | src-tauri/src/chat/claude_cli.rs:209-257 | only `stream_event` lines produce events; no event means no state change; start, delta and completion carry the state as in the session normaliser |
| ClaudeCli.AgreesOnWrapped | src-tauri/src/chat/claude_cli.rs:209-257 | on a `stream_event` line the chat parser gives the session normaliser's event and state |
| ClaudeCli.FoldAgrees | src-tauri/src/chat/claude_cli.rs:156-181 | on a stream of wrapped lines the chat loop yields exactly the session loop's events and state |
| ClaudeCli.WrappedMessageCompletes | src-tauri/src/chat/claude_cli.rs:156-181 | start, deltas, stop yields one start, the deltas in order and one completion with their concatenation |
| ClaudeCli.Flush | src-tauri/src/chat/claude_cli.rs:185-195 | the end-of-stream flush emits one completion iff both the message id and the content are non-empty |
| ClaudeCli.DoubleCompletion | src-tauri/src/chat/claude_cli.rs:185-195 | a message completed by `message_stop` is completed a second time by the flush, because the stop does not clear the state |
| ClaudeCli.ValidateModel | src-tauri/src/chat/claude_cli.rs:54-58 | every model name is accepted |
| ClaudeCli.ValidateProjectPath | src-tauri/src/chat/claude_cli.rs:61-80 | a relative path fails with "Project path must be absolute"; success requires the path to exist and to canonicalise, and returns the canonical path |
| ClaudeCli.ReadLoop | src-tauri/src/chat/claude_cli.rs:156-181 | without a failing emit every event of the fold is logged on the channel; the first failing emit stops the loop after exactly the events before it |
| ClaudeCli.SpawnClaudeStream | src-tauri/src/chat/claude_cli.rs:83-206 | launches `claude` with the normalised model in the canonical directory, registers the child under the session id, logs the fold's events plus the flush, and deregisters; a failed emit returns an error and leaves the child registered |
| ClaudeCli.CancelStream | src-tauri/src/chat/claude_cli.rs:260-269 | the session id is deregistered; with nothing running the result is Ok, which is what `chat_cancel_stream` returns |
| Discovery.EncodeProjectPath | src-tauri/src/sessions/discovery.rs:13-17 | every '/' becomes '-', every other character is kept, so the result has no '/' |
| Discovery.DecodeProjectPath | src-tauri/src/sessions/discovery.rs:20-26 | as written: a leading '-' is dropped and every other '-' becomes '/' |
| Discovery.DecodeEncodeAsWritten | src-tauri/src/sessions/discovery.rs:20-26 | decoding an encoded absolute path gives the path without its leading '/' |
| Discovery.DecodeJoinedAsWritten | src-tauri/src/sessions/discovery.rs:20-26 | a directory name of '-'-separated segments decodes to the segments joined by '/', with no leading '/' |
| Discovery.DecodeExampleAsWritten | src-tauri/src/sessions/discovery.rs:108-114 | the test's input "-Users-huutri-code-ccmate" decodes to "Users/huutri/code/ccmate", not the expected "/Users/huutri/code/ccmate" |
| Discovery.DecodeProjectPathFixed | src-tauri/src/sessions/discovery.rs:20-26 | the corrected decoder: a leading '-' stands for the leading '/' |
| Discovery.DecodeJoinedFixed | src-tauri/src/sessions/discovery.rs:20-26 | the corrected decoder turns '-'-separated segments into the absolute path "/" plus the segments joined by '/' |
| Discovery.DecodeExampleFixed | src-tauri/src/sessions/discovery.rs:108-114 | the corrected decoder meets the test's expectation: "-Users-huutri-code-ccmate" decodes to "/Users/huutri/code/ccmate" |
| Discovery.DecodeEncode | src-tauri/src/sessions/discovery.rs:13-26 | the corrected decoder undoes encoding for every absolute path without '-' |
| Discovery.HyphenLost | src-tauri/src/sessions/discovery.rs:13-26 | even the corrected decoder cannot restore a '-' that was part of a directory name |
| Discovery.ProjectSessionsDir | src-tauri/src/sessions/discovery.rs:29-33 | the project's session directory is `~/.claude/projects/` plus the encoded path; no home directory is an error |
| Discovery.Extension | src-tauri/src/sessions/discovery.rs:56 | `Path::extension`: the text after the last '.', when there is a non-empty stem before it |
| Discovery.JsonlExtension | src-tauri/src/sessions/discovery.rs:56 | the extension is "jsonl" exactly when the name ends in ".jsonl" after a non-empty stem |
| Discovery.SessionFiles | src-tauri/src/sessions/discovery.rs:51-66 | keeps exactly the `.jsonl` entries whose name does not start with "agent-" |
| Discovery.CollectSessionFiles | src-tauri/src/sessions/discovery.rs:51-66 | the filtering loop computes `SessionFiles` |
| Discovery.ListSessionFiles | src-tauri/src/sessions/discovery.rs:36-78 | a missing directory gives no files, an unreadable one an error, otherwise the session files sorted newest first |
| Discovery.ListedFilesAreSessions | src-tauri/src/sessions/discovery.rs:36-78 | the listing is sorted by modification time, newest first, and is a permutation of the session files |
| Discovery.ExtractSessionId | src-tauri/src/sessions/discovery.rs:81-86 | there is no id exactly when the path has no file name ("", "." or ".."); otherwise the id is a non-empty prefix of the name, and a `.jsonl` name is the id plus ".jsonl" |
| Sorting.SortDescCorrect | src-tauri/src/chat/storage.rs:107-108 | the descending sort is ordered by key and is a permutation of its input |
| SessionTypes.ParseMessageType | src-tauri/src/sessions/types.rs:68-74 | "user", "assistant" and "summary" map to their variants, every other string to Other |
| SessionTypes.OptStr | src-tauri/src/sessions/types.rs:28-63 | an optional string field is absent when missing or null, present when a string, and the decode fails otherwise |
| SessionTypes.DecodeSessionMessage | src-tauri/src/sessions/types.rs:28-63 | a message decodes only from an object with string `sessionId`, `timestamp` and `type`, and carries those values |
| SessionTypes.BlockTexts | src-tauri/src/sessions/types.rs:110-121 | the texts of the content blocks that have one, in order; empty iff no block has a text |
| SessionTypes.TextContent | src-tauri/src/sessions/types.rs:99-125 | string content is returned as is; array content gives the block texts joined with "\n", or None when there are none |
| SessionTypes.GetTextContent | src-tauri/src/sessions/types.rs:99-125 | the collecting loop computes `TextContent` |
| SessionParser.MessagesFromLines | src-tauri/src/sessions/parser.rs:16-43 | every parsed message comes from a line, and every line that decodes contributes its message |
| SessionParser.GarbageGivesNothing | src-tauri/src/sessions/parser.rs:16-43 | a file none of whose lines decodes gives no messages and no error |
| SessionParser.ParseSessionFile | src-tauri/src/sessions/parser.rs:7-46 | an unreadable file is an error; otherwise the decodable lines' messages in order |
| SessionParser.Valid | src-tauri/src/sessions/parser.rs:55-59 | keeps exactly the messages whose type is not Other |
| SessionParser.ValidAppend | src-tauri/src/sessions/parser.rs:55-68 | the filter keeps order and multiplicity: filtering a concatenation is concatenating the filtered parts, which fixes the count, the first and the last message |
| SessionParser.FirstOf | src-tauri/src/sessions/parser.rs:71-74 | the first message of the given type, None iff there is none |
| SessionParser.LastOf | src-tauri/src/sessions/parser.rs:91-94 | the last message of the given type, None iff there is none |
| SessionParser.TruncateTitle | src-tauri/src/sessions/parser.rs:77-82 | titles over 100 characters become their first 97 plus "...", so they are never longer than 100 |
| SessionParser.ExtractSessionMetadata | src-tauri/src/sessions/parser.rs:49-108 | fails with "Session has no valid messages" iff every message is Other; otherwise id, path, times, title, model and count come from the valid messages |
| SessionParser.TitleFromFirstUser | src-tauri/src/sessions/parser.rs:71-82 | the title is the truncated text of the first user message, or "Untitled Session" when that message has no text |
| SessionParser.NoUserUntitled | src-tauri/src/sessions/parser.rs:71-75 | without a user message the title is "Untitled Session" |
| SessionParser.ModelFromLastAssistant | src-tauri/src/sessions/parser.rs:90-96 | the model is the normalised model of the last assistant message |
| SessionParser.NoAssistantNoModel | src-tauri/src/sessions/parser.rs:90-96 | without an assistant message there is no model |
| ModelConfig.LoadConfig | src-tauri/src/models/config.rs:33-52 | the parsed table, or the fallback with version "1.0", default "claude-sonnet-4-5-20250929" and no models |
| ModelConfig.InsertModel | src-tauri/src/models/config.rs:62-67 | the inner loop inserts the lowercased id, then each lowercased alias, all mapping to the id |
| ModelConfig.BuildAliasMap | src-tauri/src/models/config.rs:55-73 | the outer loop computes `AliasMap` of the model list |
| ModelConfig.AliasMapDomain | src-tauri/src/models/config.rs:55-73 | the keys are exactly the lowercased ids and aliases |
| ModelConfig.AliasMapLastWins | src-tauri/src/models/config.rs:55-73 | on a shared key the model listed last wins, as repeated `insert` does |
| ModelConfig.IdMapsToItself | src-tauri/src/models/config.rs:62 | the lowercased id maps to the id unless a later model claims it |
| ModelConfig.AliasMapsToModel | src-tauri/src/models/config.rs:64-66 | each lowercased alias maps to its model's id unless a later model claims it |
| ModelConfig.AliasMapValues | src-tauri/src/models/config.rs:55-73 | every value is the id of a model that claims the key |
| ModelConfig.FallbackHasNoAliases | src-tauri/src/models/config.rs:33-52 | the fallback table yields an empty alias map |
| ModelConfig.GetAllModels | src-tauri/src/models/config.rs:76-78 | the models of the parsed table, in order, and none when the table did not parse |
| ModelConfig.ListedModelsKnown | src-tauri/src/models/config.rs:55-78 | every model offered to the frontend has its lower-cased id in the alias map built from the same table |
| ModelConfig.GetDefaultModel | src-tauri/src/models/config.rs:81-83 | the parsed table's default model, or "claude-sonnet-4-5-20250929" when the table did not parse |
| ModelNormalize.NormalizeModelName | src-tauri/src/models/normalize.rs:10-29 | a known lowercased name maps to its id; an unknown name passes through unchanged, case included |
| ModelNormalize.NormalizeModelOption | src-tauri/src/models/normalize.rs:32-34 | None stays None; a name is normalised |
| ModelNormalize.CaseInsensitive | src-tauri/src/models/normalize.rs:70-79 | names differing only in ASCII case normalise alike |
| ModelNormalize.UnknownPassesThrough | src-tauri/src/models/normalize.rs:82-88 | an unknown name is returned as given |
| ModelNormalize.KnownNameToId | src-tauri/src/models/normalize.rs:41-58 | an alias or short name normalises to its model's id |
| ModelNormalize.FullIdToItself | src-tauri/src/models/normalize.rs:61-67 | a full id written exactly as configured normalises to itself |
| ModelNormalize.FullIdAnyCase | src-tauri/src/models/normalize.rs:10-29 | a full id written in any case normalises to the id as configured |
| ModelNormalize.Idempotent | src-tauri/src/models/normalize.rs:10-29 | with disjoint keys, normalising twice is normalising once |
| Migrate.MigrateModelField | src-tauri/src/sessions/migrate.rs:62-79 | a string `model` field is rewritten iff normalisation changes it, and the flag says so |
| Migrate.MigrateValue | src-tauri/src/sessions/migrate.rs:61-103 | the top-level and `message.model` fields are migrated, non-objects and all other keys are unchanged; the flag is set exactly when the top-level or the nested `model` was replaced |
| Migrate.TopLevelModel | src-tauri/src/sessions/migrate.rs:63-79 | a top-level string model becomes its normalised name |
| Migrate.NestedModel | src-tauri/src/sessions/migrate.rs:82-102 | a `message.model` string becomes its normalised name |
| Migrate.NoModelNoChange | src-tauri/src/sessions/migrate.rs:61-103 | a value without model fields is unchanged and not flagged |
| Migrate.MigrationIdempotent | src-tauri/src/sessions/migrate.rs:61-103 | with disjoint keys, migrating a migrated value changes nothing |
| Migrate.NewLines | src-tauri/src/sessions/migrate.rs:52-115 | one output line per input line; blank and unparsable lines are kept verbatim |
| Migrate.AnyChangedMeans | src-tauri/src/sessions/migrate.rs:49-117 | the file is modified iff some line's migration changed a model |
| Migrate.MigrateSessionFile | src-tauri/src/sessions/migrate.rs:45-128 | an unreadable file is an error; the file is rewritten with the lines joined by "\n" and true returned iff a model changed, otherwise nothing is written |
| Migrate.CandidateIsSessionFile | src-tauri/src/sessions/migrate.rs:25-34 | the files visited are exactly the session files of the listing |
| Migrate.CountsRewrittenFiles | src-tauri/src/sessions/migrate.rs:16-41 | with every candidate readable, the count is the number of rewritten files and one write happens per count |
| Migrate.WritesAreRewrites | src-tauri/src/sessions/migrate.rs:16-41 | every write is the rewrite of a candidate whose models changed |
| Migrate.RunStaysFailed | src-tauri/src/sessions/migrate.rs:36 | the first unreadable candidate ends the run with its error |
| Migrate.MigrateSessionModels | src-tauri/src/sessions/migrate.rs:6-42 | a missing directory gives 0, an unreadable one an error, otherwise the fold over the entries |
| ChatStorage.NewSession | src-tauri/src/chat/session.rs:82-96 | a new session has the given id, path, title and time and a count of 0 |
| ChatStorage.NewMessage | src-tauri/src/chat/session.rs:100-113 | a new message has the given id, session, role, content and time, and no tool use or metadata |
| ChatStorage.ValidateSessionId | src-tauri/src/chat/storage.rs:21-32 | ids with "..", '/' or '\\' fail with the traversal error before the UUID check |
| ChatStorage.ValidIffUuid | src-tauri/src/chat/storage.rs:21-32 | an id passes iff it is a UUID, and a passing id contains no '/' and no ".." |
| ChatStorage.FileName | src-tauri/src/chat/storage.rs:40 | the file of an id is the id plus ".json" |
| ChatStorage.SessionsDir | src-tauri/src/chat/storage.rs:8-18 | `~/.ccconfig/chat-sessions`; no home directory is an error |
| ChatStorage.SessionPath | src-tauri/src/chat/storage.rs:35-41 | a valid id's file in the sessions directory; validation errors come first |
| ChatStorage.Load | src-tauri/src/chat/storage.rs:69-83 | a missing file gives "Session not found: " + id; otherwise the stored session and messages, or a read or parse error |
| ChatStorage.Collected | src-tauri/src/chat/storage.rs:91-105 | only sessions of the given project are collected |
| ChatStorage.CollectedFinds | src-tauri/src/chat/storage.rs:91-105 | every readable stored session of the project is collected |
| ChatStorage.ListCorrect | src-tauri/src/chat/storage.rs:86-111 | the listing is sorted by `updated_at`, newest first, and holds exactly the project's sessions |
| ChatStorage.ChatStore.Save | src-tauri/src/chat/storage.rs:51-66 | the file named by the session's own id now holds the session and messages; an invalid id changes nothing |
| ChatStorage.ChatStore.Delete | src-tauri/src/chat/storage.rs:114-123 | the file is gone afterwards, whether or not it existed |
| ChatStorage.ChatStore.UpdateMetadata | src-tauri/src/chat/storage.rs:126-129 | the stored messages are kept and the session record replaced |
| ChatStorage.ChatStore.List | src-tauri/src/chat/storage.rs:86-111 | the listing loop returns the collected sessions sorted newest first |
| ChatStorage.LoadAfterSave | src-tauri/src/chat/storage.rs:51-83 | loading a saved session gives back exactly what was saved |
| ChatStorage.LoadAfterDelete | src-tauri/src/chat/storage.rs:69-123 | loading a deleted session gives "Session not found" |
| ChatStorage.StoreKeepsCounts | src-tauri/src/chat/storage.rs:51-66 | storing a session whose count equals its number of messages keeps every count consistent |
| ChatCommands.CreateSession | src-tauri/src/chat/commands.rs:17-28 | the new empty session, titled "New Chat" by default, is saved and returned |
| ChatCommands.CreateKeepsCounts | src-tauri/src/chat/commands.rs:17-28 | a new session keeps every stored count consistent |
| ChatCommands.GetMessages | src-tauri/src/chat/commands.rs:38-41 | exactly the stored messages, or the load error |
| ChatCommands.Appended | src-tauri/src/chat/commands.rs:64-74 | the message is pushed last, the count becomes the new length, the time is stamped |
| ChatCommands.AppendKeepsCounts | src-tauri/src/chat/commands.rs:116-129 | appending keeps counts consistent and raises the session's count by one |
| ChatCommands.ModelOf | src-tauri/src/chat/commands.rs:80-81 | the configured model, "sonnet" without a configuration |
| ChatCommands.SendMessage | src-tauri/src/chat/commands.rs:51-99 | a load failure or an invalid id changes nothing and returns that error; otherwise the user message is saved first; an invalid project path then fails with nothing launched, registered or emitted; otherwise `claude` is launched in the canonical project directory with the normalised model, and the result, the process map and the emitted events are those of the stream (`ClaudeCli.Streamed`): a spawn failure leaves both alone, an emit failure returns "Failed to emit event" after the events before it, and a finished stream deregisters the session and emits every event and the flush |
| ChatCommands.SaveAssistantMessage | src-tauri/src/chat/commands.rs:112-132 | the reply is appended as an Assistant message and counts stay consistent |
| ChatCommands.UpdateSessionTitle | src-tauri/src/chat/commands.rs:136-147 | only the title and time change; the messages are kept |
| ChatCommands.RetitleKeepsCounts | src-tauri/src/chat/commands.rs:140-146 | retitling keeps the messages and the count |
| ConfigStores.Merge | src-tauri/src/commands.rs:363-377 | when both are objects every new key takes its new value and every other existing key is kept; otherwise the new settings |
| ConfigStores.MergeSettings | src-tauri/src/commands.rs:506-520 | the key-inserting loop computes `Merge` |
| ConfigStores.MergeIntoEmpty | src-tauri/src/commands.rs:363-377 | merging into an empty object gives the new settings |
| ConfigStores.MergeIdempotent | src-tauri/src/commands.rs:687-701 | merging the same settings twice is merging once |
| ConfigStores.ExistingSettings | src-tauri/src/commands.rs:497-505 | a missing settings file reads as {}; read and parse failures are errors |
| ConfigStores.ReadStores | src-tauri/src/commands.rs:458-468 | a missing stores file is "Stores file does not exist"; the context field is not read |
| ConfigStores.Without | src-tauri/src/commands.rs:434-440 | removes exactly the stores with the id and keeps every other store |
| ConfigStores.WithoutAppend | src-tauri/src/commands.rs:434-440 | `retain` keeps order: removing from a concatenation is concatenating the two removals |
| ConfigStores.Selected | src-tauri/src/commands.rs:470-484 | exactly the stores with the id are in use, the rest not, order and other fields unchanged |
| ConfigStores.LastSettings | src-tauri/src/commands.rs:470-484 | the settings of the last store with the id, present iff there is one |
| ConfigStores.ExactlyOneInUse | src-tauri/src/commands.rs:470-484 | with distinct ids exactly one store is in use after selection |
| ConfigStores.GlobalContext | src-tauri/src/commands.rs:535-540 | the active context names the global store and has a null project path |
| ConfigStores.AppFiles.CreateConfig | src-tauri/src/commands.rs:284-415 | the new store is appended last, in use iff there were no stores; in that case existing settings first become an "Original Config" store that is not in use, stamped with its own clock reading |
| ConfigStores.AppFiles.DeleteConfig | src-tauri/src/commands.rs:418-450 | removes every store with the id, "Store not found" iff none matched |
| ConfigStores.AppFiles.SetUsingConfig | src-tauri/src/commands.rs:453-549 | an unknown id fails and changes nothing; otherwise the flags are set, the last match's settings merged into settings.json, and the global context recorded |
| ConfigStores.AppFiles.UpdateConfig | src-tauri/src/commands.rs:628-724 | title and settings replaced for the first match; merged into settings.json only when that store is in use |
| Hooks.LatestHook | src-tauri/src/commands.rs:1642-1656 | the current hook carries the marker, type "command" and the platform's command |
| Hooks.RefreshHook | src-tauri/src/commands.rs:1677-1692 | a marker hook with a stale string command gets the current command and nothing else changes; any other hook is untouched |
| Hooks.RefreshEntry | src-tauri/src/commands.rs:1674-1696 | every hook of an entry's hooks array is refreshed, the array keeps its length |
| Hooks.RefreshEvent | src-tauri/src/commands.rs:1671-1698 | one event's entries are refreshed, nothing else changes, and without a stale hook the map is untouched |
| Hooks.UpdateExistingNeverAdds | src-tauri/src/commands.rs:1659-1701 | the update adds no event and no entry, keeps every array's length and leaves non-arrays alone; without the flag nothing changed |
| Hooks.UpdateExistingHooks | src-tauri/src/commands.rs:1659-1701 | the event loop computes `UpdateExisting` and its flag |
| Hooks.ReplaceHook | src-tauri/src/commands.rs:1716-1724 | a marker hook with a different command becomes the latest hook; other hooks are untouched |
| Hooks.ReplacedIsCurrent | src-tauri/src/commands.rs:1714-1726 | after replacement every marker hook carries the current command |
| Hooks.AddEvent | src-tauri/src/commands.rs:1712-1756 | one event ends as an array; only that key is added or changed |
| Hooks.AddEventInstalls | src-tauri/src/commands.rs:1712-1756 | afterwards the event holds a marker hook with the current command |
| Hooks.AddAllInstalls | src-tauri/src/commands.rs:1704-1760 | afterwards every listed event holds a marker hook with the current command |
| Hooks.UpdateOrAddHooks | src-tauri/src/commands.rs:1704-1760 | the event loop computes `AddAll` |
| Hooks.WithoutMarkers | src-tauri/src/commands.rs:1886-1890 | keeps exactly the hooks without the marker |
| Hooks.StripEntries | src-tauri/src/commands.rs:1883-1903 | entries left without hooks are dropped, entries without a hooks array kept, an entry with user hooks survives holding exactly its user hooks, and no kept array holds a marker hook |
| Hooks.WithoutMarkersAppend | src-tauri/src/commands.rs:1886-1890 | the hook filter keeps order: filtering a concatenation is concatenating the filtered parts |
| Hooks.StripEntriesAppend | src-tauri/src/commands.rs:1883-1903 | the entry filter keeps order: stripping a concatenation is concatenating the stripped parts |
| Hooks.RemoveEvent | src-tauri/src/commands.rs:1880-1909 | an event array is stripped and stays exactly when something is left of it; other keys are untouched |
| Hooks.RemoveAllCleans | src-tauri/src/commands.rs:1879-1910 | after removal no listed event holds a marker hook or an empty array |
| Hooks.RemoveHooks | src-tauri/src/commands.rs:1876-1916 | the `hooks` object is cleaned and removed when left empty; settings without a hooks object are unchanged |
| Hooks.UserHooksKept | src-tauri/src/commands.rs:1876-1916 | removal keeps the user's hooks: an entry with user hooks stays in its event's array with just those hooks, and an entry without a hooks array stays as it was |
| Hooks.RemovedEverywhere | src-tauri/src/commands.rs:1876-1916 | after removal none of Notification, Stop and PreToolUse holds a marker hook, and no empty `hooks` object remains |
| Hooks.HooksOf | src-tauri/src/commands.rs:1829-1836 | the hooks object, {} when absent; a non-object settings or hooks value is where the source's `unwrap` panics |
| Hooks.ReadSettings | src-tauri/src/commands.rs:1819-1827 | a missing settings.json reads as {}; read and parse failures carry their messages |
| Hooks.AddClaudeCodeHook | src-tauri/src/commands.rs:1815-1857 | settings.json is written with every event's hooks updated or added |
| Hooks.AddInstallsAll | src-tauri/src/commands.rs:1815-1857 | after a successful add every event holds the current hook |
| Hooks.UpdateClaudeCodeHook | src-tauri/src/commands.rs:1763-1812 | without a settings file the hooks are added; otherwise stale commands are refreshed and the file is written only if one changed |
| Hooks.RemoveClaudeCodeHook | src-tauri/src/commands.rs:1860-1927 | without a file nothing happens; otherwise the stripped settings are always written back |
| ProjectCleanup.SanitizeProjectPath | src-tauri/src/commands.rs:2516-2518 | every '/' becomes '-', the same encoding the session discovery uses |
| ProjectCleanup.IdsOfMeans | src-tauri/src/commands.rs:2550-2567 | an id is listed iff its `.jsonl` file is in the directory and does not start with "agent-" |
| ProjectCleanup.ProjectSessionIds | src-tauri/src/commands.rs:2550-2567 | an unreadable directory gives no ids; otherwise the loop yields the session-file stems in listing order |
| ProjectCleanup.Kept | src-tauri/src/commands.rs:2623-2637 | keeps exactly the lines that do not parse to a value whose string `project` is the path |
| ProjectCleanup.KeptAppend | src-tauri/src/commands.rs:2623-2637 | filtering distributes over concatenation, so the kept lines stay in order |
| ProjectCleanup.KeptPlusRemoved | src-tauri/src/commands.rs:2622-2637 | every line is either kept or counted as removed |
| ProjectCleanup.NothingToRemove | src-tauri/src/commands.rs:2623-2637 | a file with no line for the project is kept whole |
| ProjectCleanup.HistoryContent | src-tauri/src/commands.rs:2639-2643 | the kept lines joined with "\n" plus a final "\n", or "" when none is kept |
| ProjectCleanup.AllDroppedMeans | src-tauri/src/commands.rs:2639-2643 | nothing is kept iff every line is the project's |
| ProjectCleanup.FilterHistoryFile | src-tauri/src/commands.rs:2612-2653 | a missing file is Ok and untouched; an unreadable one an error; otherwise the kept lines are written, and the file becomes empty iff every line was the project's |
| ProjectCleanup.ReadRegistry | src-tauri/src/commands.rs:2147-2180 | a missing registry is empty; the array format and the old map format both read; otherwise a read or parse error |
| ProjectCleanup.FindProject | src-tauri/src/commands.rs:2197 | the first entry for the path, None iff there is none |
| ProjectCleanup.Upsert | src-tauri/src/commands.rs:2197-2201 | the first entry for the path is replaced, everything else kept; without one the entry is appended |
| ProjectCleanup.UpsertFinds | src-tauri/src/commands.rs:2182-2211 | the written entry is found for its path, a second write changes nothing, and one entry per path stays one |
| ProjectCleanup.Forget | src-tauri/src/commands.rs:2665 | keeps exactly the entries for other paths |
| ProjectCleanup.ForgetRemovesAll | src-tauri/src/commands.rs:2664-2665 | afterwards no entry for the path is found, and forgetting again changes nothing |
| ProjectCleanup.RemoveFromClaudeJson | src-tauri/src/commands.rs:2521-2547 | a missing file is left alone; otherwise the path's key leaves `projects` when that is an object, and the file is written back |
| ProjectCleanup.ProjectFiles.WriteRegistryEntry | src-tauri/src/commands.rs:2182-2211 | the registry is written in the array format with the entry upserted, or unchanged on a read error |
| ProjectCleanup.ProjectFiles.DeleteProjectConfig | src-tauri/src/commands.rs:2658-2709 | the registry forgets the project (its errors abort); `.claude.json`, the sessions directory and the history are then cleaned, each failure ignored; the directory's session ids are returned |

## Left out

- Concurrency is out of scope: tokio tasks, the `Mutex` around the process map, and stderr draining. Each method is one critical section, and a stream is a given sequence of lines processed in order.
- The following are parameters rather than modelled behaviour: process spawning, kill and wait, `which`/`--version` checks, `exists` and `canonicalize`.
- JSON parsing and printing, including `to_string_pretty`, are outside the model. A line carries its parse result, and serialisation is a function parameter in the migration.
- UUID and nanoid generation and the clock are parameters. `uuid::Uuid::parse_str` is modelled only by the four textual UUID forms (simple, hyphenated, braced, urn).
- Telemetry (`track`, PostHog), the tray, the updater, `open_config_path`, platform queries and `get_or_create_distinct_id` are out of scope.
- `ChatConfig.temperature` (an f32) is not modelled.
- Strings are character sequences. Byte-index slicing such as `&title[..97]` and `to_lowercase` are modelled for ASCII only.
- Error messages are modelled by their fixed prefix. The OS error text appended after it is not part of the model.
- `SessionMessage.usage` and other pass-through fields are not decoded.
- Directory-entry read errors are not modelled: `read_dir` entries that fail, and `flatten()` skipping them. Directory order is an input.
- Home-directory lookup, `create_dir_all` and write failures are not modelled for the config stores, the hooks and the project files. Each write is assumed to succeed.
- ChatStorage.SessionsDir: the `create_dir_all` failure "Failed to create sessions directory" (storage.rs:12-15) is not modelled; the directory is assumed creatable.
- ChatStorage.ChatStore.Save: the serialisation failure and the write failure (storage.rs:59-63) are not modelled; a save with a valid id always succeeds.
- ChatStorage.ChatStore.Delete: the `remove_file` failure "Failed to delete session file" (storage.rs:118-119) is not modelled; an existing file is always removed.
- ChatCommands.SendMessage: because a save never fails in the model, a valid session id always goes on to the path check and the spawn; the source returns the write error there instead.
- Migrate.MigrateSessionFile: the write failure "Failed to write file" (migrate.rs:120-121) is not modelled, and so neither is its abort of `migrate_session_models` through `?`; every migrated file is written.
- Migrate.MigrateSessionFile: the file is given as its lines. `lines()` followed by `join("\n")` (migrate.rs:52, 119) drops a final newline and the '\r' of CRLF line endings; that loss is not modelled.
- ConfigStores.AppFiles.CreateConfig: the call to `unlock_cc_ext` after the stores are written (commands.rs:409-412, 977-1031) is not modelled. It adds `"primaryApiKey": "xxx"` to `~/.claude/config.json` and its errors are only logged.
- ConfigStores.AppFiles.UpdateConfig: the same `unlock_cc_ext` call (commands.rs:718-721) is not modelled.
- ClaudeCli.ValidateProjectPath: absoluteness is Unix's, a leading '/'. Windows `Path::is_absolute` (a drive letter with a separator, or a UNC prefix) is not modelled, so on Windows the model rejects paths the source accepts.
- ClaudeCli.IsAbsolute: the Unix test only, for the same reason.
- `reset_to_original_config`, `get_stores`, `get_current_store` and `get_store` are not modelled. They are reads or a restore that add no property beyond `ReadStores` and `Merge`.
- `chat_check_claude_installed`, `chat_get_sessions` and `chat_delete_session` are thin wrappers. They are modelled by `ChatStore.List` and `ChatStore.Delete`.
- `cleanup_session_data` and the other directory walks are not modelled. `DeleteProjectConfig` returns the session ids it would be given.
- The Windows hook command is modelled only as a constant selected by a flag. Building for a platform is not modelled.
- Sorting.SortDesc: stability of `sort_by` is not proved, only order and permutation.
- ClaudeCli.SpawnClaudeStream: the flush emit's failure is ignored by the source (`.ok()`), and the model treats that emit as always delivered.
- Hooks.UpdateExistingHooks: the flag is proved only in one direction. No flag means nothing changed; that a set flag means something changed is not proved.
- Hooks.AddClaudeCodeHook: the `unwrap` panics on a non-object settings value or `hooks` value are modelled as a `Failure("panic")` that leaves the file untouched.
- ProjectCleanup.DeleteProjectConfig: `remove_dir_all` failures on the sessions directory are not modelled; the directory is always removed.

Behaviour as written that a reader might not expect, which the model keeps:

- `resume.rs` has no end-of-stream flush.
- The chat stream's flush needs both the message id and the content non-empty, so a stopped message is completed twice (`ClaudeCli.DoubleCompletion`).
- `create_session` passes no `--model` and does no absoluteness check.
- A verbose `assistant` line overwrites the accumulated content rather than appending.
- `cancel_session` fails on an absent key, while `cancel_stream` succeeds.
- The chat save writes to the file named by the id stored inside the session record.
- `create_config`, `delete_config` and `update_config` drop the active context, because their stores type has no such field.
- `set_using_config` merges the settings of the last matching store.

## Findings

| source | as written | input that shows it | evidently intended | confidence | as-written member | corrected member |
|---|---|---|---|---|---|---|
| src-tauri/src/sessions/discovery.rs:20-26 | `decode_project_path` drops the leading '-' and never restores the leading '/' | "-Users-huutri-code-ccmate" decodes to "Users/huutri/code/ccmate", while the test at discovery.rs:108-114 expects "/Users/huutri/code/ccmate" | the leading '-' decodes to '/', so decoding undoes `encode_project_path` for absolute paths without '-' | not executed | Discovery.DecodeEncodeAsWritten | Discovery.DecodeEncode |

=== FILE: chat_commands.dfy ===
/**
 * chat/commands.rs: the chat commands the front end invokes. Each loads
 * the session file, changes it and saves it back; sending a message also
 * starts the `claude` stream for the session.
 */
module ChatCommands {
  import opened Wrappers
  import opened Json
  import opened Registry
  import opened ChatStorage
  import ClaudeCli
  import Resume
  import ModelNormalize

  const DefaultTitle := "New Chat"

  /** `chat_create_session`: a new empty session, saved before it is returned. */
  method CreateSession(store: ChatStore, projectPath: string, title: Option<string>, id: string, now: nat)
    returns (r: Result<ChatSession>)
    modifies store
    ensures var session := NewSession(id, projectPath, if title.Some? then title.value else DefaultTitle, now);
            && (SessionPath(store.home, id).Success? ==>
                  r == Success(session) && store.files == old(store.files)[FileName(id) := Stored(session, [])])
            && (SessionPath(store.home, id).Failure? ==>
                  r == Failure(SessionPath(store.home, id).error) && store.files == old(store.files))
  {
    var session := NewSession(id, projectPath, if title.Some? then title.value else DefaultTitle, now);
    var saved := store.Save(session, []);
    if saved.Failure? {
      return Failure(saved.error);
    }
    r := Success(session);
  }

  /** A new session is stored with a count of zero messages, so consistency is kept. */
  lemma CreateKeepsCounts(files: map<string, StoredFile>, id: string, projectPath: string, title: string, now: nat)
    requires CountsConsistent(files)
    ensures CountsConsistent(files[FileName(id) := Stored(NewSession(id, projectPath, title, now), [])])
  {
    StoreKeepsCounts(files, FileName(id), NewSession(id, projectPath, title, now), []);
  }

  /** `chat_get_messages`. */
  function GetMessages(home: Option<string>, files: map<string, StoredFile>, id: string): (r: Result<seq<ChatMessage>>)
    ensures Load(home, files, id).Failure? ==> r == Failure(Load(home, files, id).error)
    ensures r.Success? ==> FileName(id) in files && files[FileName(id)].Stored? &&
                           r.value == files[FileName(id)].messages
  {
    var loaded := Load(home, files, id);
    if loaded.Failure? then Failure(loaded.error) else Success(loaded.value.1)
  }

  /**
   * The update both `chat_send_message` and `chat_save_assistant_message`
   * make: push the message, set the count to the new length, stamp the time.
   */
  function Appended(session: ChatSession, messages: seq<ChatMessage>, m: ChatMessage, now: nat)
    : (r: (ChatSession, seq<ChatMessage>))
    ensures |r.1| == |messages| + 1 && r.1[..|messages|] == messages && r.1[|messages|] == m
    ensures r.0 == session.(messageCount := |r.1|, updatedAt := now)
  {
    var ms := messages + [m];
    (session.(messageCount := |ms|, updatedAt := now), ms)
  }

  /**
   * Appending keeps every stored count equal to its number of messages, and
   * raises the appended session's count by one.
   */
  lemma AppendKeepsCounts(files: map<string, StoredFile>, name: string, session: ChatSession,
                          messages: seq<ChatMessage>, m: ChatMessage, now: nat)
    requires CountsConsistent(files)
    ensures var (s, ms) := Appended(session, messages, m, now);
            CountsConsistent(files[name := Stored(s, ms)])
    ensures name in files && files[name] == Stored(session, messages) ==>
              Appended(session, messages, m, now).0.messageCount == session.messageCount + 1
  {
    var (s, ms) := Appended(session, messages, m, now);
    StoreKeepsCounts(files, name, s, ms);
  }

  /** The model a send uses: the configured one, "sonnet" without a configuration. */
  function ModelOf(config: Option<ChatConfig>): (r: string)
    ensures config.None? ==> r == "sonnet"
    ensures config.Some? ==> r == config.value.model
  {
    if config.Some? then config.value.model else DefaultConfig.model
  }

  /**
   * `chat_send_message`: record the user's message in the session file,
   * then start the stream in the session's project directory.
   */
  method SendMessage(store: ChatStore, registry: ProcessMap, host: Host, sink: EventSink<ClaudeCli.StreamEvent>,
                     aliases: map<string, string>, env: Environment, sessionId: string, message: string,
                     config: Option<ChatConfig>, messageId: string, now: nat,
                     lines: seq<Line>, failingEmit: Option<nat>)
    returns (r: Result<()>)
    modifies store, registry, host, sink
    ensures Load(store.home, old(store.files), sessionId).Failure? ==>
              r == Failure(Load(store.home, old(store.files), sessionId).error) &&
              store.files == old(store.files) && host.launched == old(host.launched) &&
              registry.procs == old(registry.procs) && sink.log == old(sink.log)
    ensures Load(store.home, old(store.files), sessionId).Success? ==>
              var (session, messages) := Load(store.home, old(store.files), sessionId).value;
              var (s, ms) := Appended(session, messages, NewMessage(messageId, sessionId, User, message, now), now);
              var cwd := ClaudeCli.ValidateProjectPath(session.projectPath, env);
              && (SessionPath(store.home, session.id).Failure? ==>
                    r == Failure(SessionPath(store.home, session.id).error) && store.files == old(store.files) &&
                    host.launched == old(host.launched) && registry.procs == old(registry.procs) &&
                    sink.log == old(sink.log))
              && (SessionPath(store.home, session.id).Success? ==>
                    store.files == old(store.files)[FileName(session.id) := Stored(s, ms)])
              && (SessionPath(store.home, session.id).Success? && cwd.Failure? ==>
                    r == Failure(cwd.error) && host.launched == old(host.launched) &&
                    registry.procs == old(registry.procs) && sink.log == old(sink.log))
              && (SessionPath(store.home, session.id).Success? && cwd.Success? ==>
                    host.launched == old(host.launched) +
                      [Command("claude", ClaudeCli.SpawnArgs(ModelNormalize.NormalizeModelName(aliases, ModelOf(config)), message),
                               cwd.value)] &&
                    ClaudeCli.Streamed(r, old(registry.procs), registry.procs, old(sink.log), sink.log,
                                       sessionId, env.spawn, lines, failingEmit))
    ensures CountsConsistent(old(store.files)) ==> CountsConsistent(store.files)
  {
    var loaded := Load(store.home, store.files, sessionId);
    if loaded.Failure? {
      return Failure(loaded.error);
    }
    var (session, messages) := loaded.value;
    var user := NewMessage(messageId, sessionId, User, message, now);
    var (s, ms) := Appended(session, messages, user, now);
    if CountsConsistent(store.files) {
      AppendKeepsCounts(store.files, FileName(session.id), session, messages, user, now);
    }
    var saved := store.Save(s, ms);
    if saved.Failure? {
      return Failure(saved.error);
    }
    var model := ModelOf(config);
    r := ClaudeCli.SpawnClaudeStream(registry, host, sink, aliases, env, sessionId, message, s.projectPath, model,
                                     lines, failingEmit);
  }

  /** `chat_save_assistant_message`: append the streamed reply to the session. */
  method SaveAssistantMessage(store: ChatStore, sessionId: string, content: string, messageId: string, now: nat)
    returns (r: Result<()>)
    modifies store
    ensures Load(store.home, old(store.files), sessionId).Failure? ==>
              r == Failure(Load(store.home, old(store.files), sessionId).error) && store.files == old(store.files)
    ensures Load(store.home, old(store.files), sessionId).Success? ==>
              var (session, messages) := Load(store.home, old(store.files), sessionId).value;
              var (s, ms) := Appended(session, messages, NewMessage(messageId, sessionId, Assistant, content, now), now);
              (SessionPath(store.home, session.id).Failure? ==>
                 r == Failure(SessionPath(store.home, session.id).error) && store.files == old(store.files)) &&
              (SessionPath(store.home, session.id).Success? ==>
                 r == Success(()) && store.files == old(store.files)[FileName(session.id) := Stored(s, ms)])
    ensures CountsConsistent(old(store.files)) ==> CountsConsistent(store.files)
  {
    var loaded := Load(store.home, store.files, sessionId);
    if loaded.Failure? {
      return Failure(loaded.error);
    }
    var (session, messages) := loaded.value;
    var reply := NewMessage(messageId, sessionId, Assistant, content, now);
    var (s, ms) := Appended(session, messages, reply, now);
    if CountsConsistent(store.files) {
      AppendKeepsCounts(store.files, FileName(session.id), session, messages, reply, now);
    }
    r := store.Save(s, ms);
  }

  /**
   * `chat_update_session_title`: new title and time. The metadata update
   * loads the file of the id recorded inside the session again, keeps its
   * messages and writes the new record there. Only when that id is the
   * file's own does the stored count still match the messages.
   */
  method UpdateSessionTitle(store: ChatStore, sessionId: string, title: string, now: nat) returns (r: Result<()>)
    modifies store
    ensures Load(store.home, old(store.files), sessionId).Failure? ==>
              r == Failure(Load(store.home, old(store.files), sessionId).error) && store.files == old(store.files)
    ensures Load(store.home, old(store.files), sessionId).Success? ==>
              var s := Load(store.home, old(store.files), sessionId).value.0.(title := title, updatedAt := now);
              var again := Load(store.home, old(store.files), s.id);
              && (again.Failure? ==> r == Failure(again.error) && store.files == old(store.files))
              && (again.Success? ==> r == Success(()) &&
                                     store.files == old(store.files)[FileName(s.id) := Stored(s, again.value.1)])
    ensures CountsConsistent(old(store.files)) && Load(store.home, old(store.files), sessionId).Success? &&
            Load(store.home, old(store.files), sessionId).value.0.id == sessionId ==>
              CountsConsistent(store.files)
  {
    var loaded := Load(store.home, store.files, sessionId);
    if loaded.Failure? {
      return Failure(loaded.error);
    }
    var session := loaded.value.0.(title := title, updatedAt := now);
    r := store.UpdateMetadata(session);
    if CountsConsistent(old(store.files)) && loaded.value.0.id == sessionId {
      RetitleKeepsCounts(old(store.files), store.home, sessionId, title, now);
    }
  }

  /** When the file holds its own id, retitling keeps the messages and the count. */
  lemma RetitleKeepsCounts(files: map<string, StoredFile>, home: Option<string>, id: string, title: string, now: nat)
    requires CountsConsistent(files) && Load(home, files, id).Success? && Load(home, files, id).value.0.id == id
    ensures var (session, messages) := Load(home, files, id).value;
            CountsConsistent(files[FileName(id) := Stored(session.(title := title, updatedAt := now), messages)])
  {
    var (session, messages) := Load(home, files, id).value;
    StoreKeepsCounts(files, FileName(id), session.(title := title, updatedAt := now), messages);
  }
}

=== FILE: chat_storage.dfy ===
/**
 * chat/session.rs and chat/storage.rs: chat sessions and their messages,
 * kept one JSON file per session in `~/.ccconfig/chat-sessions`.
 * The directory is modelled as a map from file name to what reading and
 * parsing that file yields; clocks and UUID generation are parameters.
 */
module ChatStorage {
  import opened Wrappers
  import opened Json
  import opened Text
  import opened Sorting

  datatype MessageRole = User | Assistant | System | Tool

  datatype ToolUse = ToolUse(toolName: string, input: Json, output: Option<string>)

  datatype ChatSession = ChatSession(id: string, projectPath: string, title: string,
                                     createdAt: nat, updatedAt: nat, messageCount: nat)

  datatype ChatMessage = ChatMessage(id: string, sessionId: string, role: MessageRole, content: string,
                                     timestamp: nat, toolUse: Option<ToolUse>, metadata: Option<Json>)

  datatype PermissionMode = Default | AcceptEdits | BypassPermissions | Plan

  /** `ChatConfig` without its floating-point `temperature`. */
  datatype ChatConfig = ChatConfig(model: string, permissionMode: PermissionMode, maxTokens: Option<nat>)

  const DefaultConfig := ChatConfig("sonnet", Default, None)

  /** `ChatSession::new`, with the fresh UUID and the current time given. */
  function NewSession(id: string, projectPath: string, title: string, now: nat): (r: ChatSession)
    ensures r.id == id && r.projectPath == projectPath && r.title == title
    ensures r.messageCount == 0 && r.createdAt == now && r.updatedAt == now
  {
    ChatSession(id, projectPath, title, now, now, 0)
  }

  /** `ChatMessage::new`: no tool use, no metadata. */
  function NewMessage(id: string, sessionId: string, role: MessageRole, content: string, now: nat): (r: ChatMessage)
    ensures r.id == id && r.sessionId == sessionId && r.role == role && r.content == content && r.timestamp == now
    ensures r.toolUse.None? && r.metadata.None?
  {
    ChatMessage(id, sessionId, role, content, now, None, None)
  }

  // ---------------------------------------------------------------------------
  // Session ids

  predicate IsHex(c: char) {
    ('0' <= c <= '9') || ('a' <= c <= 'f') || ('A' <= c <= 'F')
  }

  predicate AllHex(s: string) {
    forall i :: 0 <= i < |s| ==> IsHex(s[i])
  }

  /** The 8-4-4-4-12 form. */
  predicate Hyphenated(s: string) {
    |s| == 36 &&
    forall i :: 0 <= i < 36 ==> if i == 8 || i == 13 || i == 18 || i == 23 then s[i] == '-' else IsHex(s[i])
  }

  /**
   * What `Uuid::parse_str` accepts: the simple (32 hex digits), hyphenated,
   * braced and URN forms.
   */
  predicate IsUuid(s: string) {
    (|s| == 32 && AllHex(s)) ||
    Hyphenated(s) ||
    (|s| == 38 && s[0] == '{' && s[37] == '}' && Hyphenated(s[1..37])) ||
    (|s| == 45 && s[..9] == "urn:uuid:" && Hyphenated(s[9..]))
  }

  /** `validate_session_id`: path traversal characters first, then the UUID syntax. */
  function ValidateSessionId(id: string): (r: Result<()>)
    ensures r.Failure? ==> r.error == "Invalid session ID: contains path traversal characters" ||
                           r.error == "Invalid session ID: must be a valid UUID"
    ensures Contains(id, "..") || ContainsChar(id, '/') || ContainsChar(id, '\\') ==>
              r == Failure("Invalid session ID: contains path traversal characters")
  {
    if Contains(id, "..") || ContainsChar(id, '/') || ContainsChar(id, '\\') then
      Failure("Invalid session ID: contains path traversal characters")
    else if !IsUuid(id) then Failure("Invalid session ID: must be a valid UUID")
    else Success(())
  }

  lemma NoDotNoDoubleDot(s: string)
    requires !ContainsChar(s, '.')
    ensures !Contains(s, "..")
  {
    forall i | 0 <= i <= |s|
      ensures !StartsWith(s[i..], "..")
    {
      if i < |s| {
        assert s[i..][0] == s[i];
      }
    }
  }

  lemma HyphenatedSafe(s: string)
    requires Hyphenated(s)
    ensures !ContainsChar(s, '.') && !ContainsChar(s, '/') && !ContainsChar(s, '\\')
  {
    forall i | 0 <= i < |s|
      ensures s[i] != '.' && s[i] != '/' && s[i] != '\\'
    {
      assert if i == 8 || i == 13 || i == 18 || i == 23 then s[i] == '-' else IsHex(s[i]);
    }
  }

  /** Every accepted UUID form is free of '.', '/' and '\'. */
  lemma UuidSafe(s: string)
    requires IsUuid(s)
    ensures !ContainsChar(s, '.') && !ContainsChar(s, '/') && !ContainsChar(s, '\\')
  {
    if Hyphenated(s) {
      HyphenatedSafe(s);
    } else if |s| == 38 && s[0] == '{' && s[37] == '}' && Hyphenated(s[1..37]) {
      HyphenatedSafe(s[1..37]);
      forall i | 0 <= i < |s|
        ensures s[i] != '.' && s[i] != '/' && s[i] != '\\'
      {
        if 1 <= i < 37 {
          assert s[i] == s[1..37][i - 1];
        }
      }
    } else if |s| == 45 && s[..9] == "urn:uuid:" && Hyphenated(s[9..]) {
      HyphenatedSafe(s[9..]);
      forall i | 0 <= i < |s|
        ensures s[i] != '.' && s[i] != '/' && s[i] != '\\'
      {
        if i < 9 {
          assert s[i] == "urn:uuid:"[i];
        } else {
          assert s[i] == s[9..][i - 9];
        }
      }
    } else {
      assert AllHex(s);
      forall i | 0 <= i < |s|
        ensures s[i] != '.' && s[i] != '/' && s[i] != '\\'
      {
        assert IsHex(s[i]);
      }
    }
  }

  /**
   * The traversal test never rejects a UUID, so an id is accepted exactly
   * when it is a UUID; and an accepted id cannot leave the sessions directory.
   */
  lemma ValidIffUuid(id: string)
    ensures ValidateSessionId(id).Success? <==> IsUuid(id)
    ensures ValidateSessionId(id).Success? ==> !ContainsChar(id, '/') && !Contains(id, "..")
  {
    if IsUuid(id) {
      UuidSafe(id);
      NoDotNoDoubleDot(id);
    }
  }

  // ---------------------------------------------------------------------------
  // The sessions directory

  const SessionsSubdir := ".ccconfig/chat-sessions"

  /** What reading and parsing one file of the directory yields. */
  datatype StoredFile = Stored(session: ChatSession, messages: seq<ChatMessage>) | Unreadable | Malformed

  /** The file name of a session inside the sessions directory. */
  function FileName(id: string): (r: string)
    ensures EndsWith(r, ".json") && |r| == |id| + 5 && r[..|id|] == id
  {
    id + ".json"
  }

  /** `get_sessions_dir`. */
  function SessionsDir(home: Option<string>): (r: Result<string>)
    ensures home.None? <==> r == Failure("Could not find home directory")
    ensures home.Some? ==> r == Success(home.value + "/" + SessionsSubdir)
  {
    if home.None? then Failure("Could not find home directory") else Success(home.value + "/" + SessionsSubdir)
  }

  /** `get_session_path`: the id is validated before the home directory is looked up. */
  function SessionPath(home: Option<string>, id: string): (r: Result<string>)
    ensures ValidateSessionId(id).Failure? ==> r == Failure(ValidateSessionId(id).error)
    ensures ValidateSessionId(id).Success? && home.None? ==> r == Failure("Could not find home directory")
    ensures r.Success? ==> IsUuid(id) && home.Some? && r.value == home.value + "/" + SessionsSubdir + "/" + FileName(id)
  {
    ValidIffUuid(id);
    var valid := ValidateSessionId(id);
    if valid.Failure? then Failure(valid.error)
    else
      var dir := SessionsDir(home);
      if dir.Failure? then Failure(dir.error) else Success(dir.value + "/" + FileName(id))
  }

  /** `load_session`. */
  function Load(home: Option<string>, files: map<string, StoredFile>, id: string)
    : (r: Result<(ChatSession, seq<ChatMessage>)>)
    ensures SessionPath(home, id).Failure? ==> r == Failure(SessionPath(home, id).error)
    ensures SessionPath(home, id).Success? && FileName(id) !in files ==> r == Failure("Session not found: " + id)
    ensures r.Success? ==> FileName(id) in files && files[FileName(id)] == Stored(r.value.0, r.value.1)
  {
    var path := SessionPath(home, id);
    if path.Failure? then Failure(path.error)
    else if FileName(id) !in files then Failure("Session not found: " + id)
    else
      match files[FileName(id)]
      case Unreadable => Failure("Failed to read session file: ")
      case Malformed => Failure("Failed to parse session file: ")
      case Stored(session, messages) => Success((session, messages))
  }

  /** The sessions of one project, in directory order: `.json` files that parse and match. */
  function Collected(files: map<string, StoredFile>, order: seq<string>, projectPath: string): (r: seq<ChatSession>)
    ensures forall s :: s in r ==> s.projectPath == projectPath
    ensures |r| <= |order|
  {
    if order == [] then []
    else
      var name := order[|order| - 1];
      Collected(files, order[..|order| - 1], projectPath) +
        (if name in files && EndsWith(name, ".json") && files[name].Stored? &&
            files[name].session.projectPath == projectPath
         then [files[name].session] else [])
  }

  function UpdatedKey(s: ChatSession): int {
    s.updatedAt
  }

  /** Every session stored for the project under a `.json` name the listing visits is listed. */
  lemma {:induction false} CollectedFinds(files: map<string, StoredFile>, order: seq<string>, projectPath: string, name: string)
    requires name in order && name in files && EndsWith(name, ".json") && files[name].Stored?
    requires files[name].session.projectPath == projectPath
    ensures files[name].session in Collected(files, order, projectPath)
  {
    if order[|order| - 1] != name {
      assert name in order[..|order| - 1] by {
        var k :| 0 <= k < |order| && order[k] == name;
        assert order[..|order| - 1][k] == name;
      }
      CollectedFinds(files, order[..|order| - 1], projectPath, name);
    }
  }

  /** Listing sorts the project's sessions newest first and loses none. */
  lemma ListCorrect(files: map<string, StoredFile>, order: seq<string>, projectPath: string)
    ensures var r := SortDesc(Collected(files, order, projectPath), UpdatedKey);
            SortedDesc(r, UpdatedKey) &&
            multiset(r) == multiset(Collected(files, order, projectPath)) &&
            forall s :: s in r ==> s.projectPath == projectPath
  {
    var c := Collected(files, order, projectPath);
    SortDescCorrect(c, UpdatedKey);
    var r := SortDesc(c, UpdatedKey);
    forall s | s in r
      ensures s.projectPath == projectPath
    {
      assert s in multiset(r);
      assert s in multiset(c);
    }
  }

  /** The chat sessions directory: its files, and whether a home directory is known. */
  class ChatStore {
    const home: Option<string>
    var files: map<string, StoredFile>

    constructor (home: Option<string>, files: map<string, StoredFile>)
      ensures this.home == home && this.files == files
    {
      this.home := home;
      this.files := files;
    }

    /** `save_session`: writes (or overwrites) the session's file with the session and its messages. */
    method Save(session: ChatSession, messages: seq<ChatMessage>) returns (r: Result<()>)
      modifies this
      ensures SessionPath(home, session.id).Failure? ==>
                r == Failure(SessionPath(home, session.id).error) && files == old(files)
      ensures SessionPath(home, session.id).Success? ==>
                r == Success(()) && files == old(files)[FileName(session.id) := Stored(session, messages)]
    {
      var path := SessionPath(home, session.id);
      if path.Failure? {
        return Failure(path.error);
      }
      files := files[FileName(session.id) := Stored(session, messages)];
      r := Success(());
    }

    /** `delete_session`: removing a session that is not there succeeds. */
    method Delete(id: string) returns (r: Result<()>)
      modifies this
      ensures SessionPath(home, id).Failure? ==> r == Failure(SessionPath(home, id).error) && files == old(files)
      ensures SessionPath(home, id).Success? ==> r == Success(()) && files == old(files) - {FileName(id)}
    {
      var path := SessionPath(home, id);
      if path.Failure? {
        return Failure(path.error);
      }
      if FileName(id) in files {
        files := files - {FileName(id)};
      }
      r := Success(());
    }

    /** `update_session_metadata`: replace the session record, keeping the stored messages. */
    method UpdateMetadata(session: ChatSession) returns (r: Result<()>)
      modifies this
      ensures Load(home, old(files), session.id).Failure? ==>
                r == Failure(Load(home, old(files), session.id).error) && files == old(files)
      ensures Load(home, old(files), session.id).Success? ==>
                r == Success(()) &&
                files == old(files)[FileName(session.id) := Stored(session, Load(home, old(files), session.id).value.1)]
    {
      var loaded := Load(home, files, session.id);
      if loaded.Failure? {
        return Failure(loaded.error);
      }
      r := Save(session, loaded.value.1);
    }

    /**
     * `list_sessions`: visit the directory entries in `order` (the order the
     * directory yields them), keep the sessions of the project, newest first.
     */
    method List(order: seq<string>, projectPath: string) returns (r: Result<seq<ChatSession>>)
      ensures home.None? ==> r == Failure("Could not find home directory")
      ensures home.Some? ==> r == Success(SortDesc(Collected(files, order, projectPath), UpdatedKey))
    {
      var dir := SessionsDir(home);
      if dir.Failure? {
        return Failure(dir.error);
      }
      var sessions: seq<ChatSession> := [];
      var i := 0;
      while i < |order|
        invariant 0 <= i <= |order|
        invariant sessions == Collected(files, order[..i], projectPath)
      {
        var name := order[i];
        assert order[..i + 1][..i] == order[..i];
        if name in files && EndsWith(name, ".json") {
          var file := files[name];
          if file.Stored? && file.session.projectPath == projectPath {
            sessions := sessions + [file.session];
          }
        }
        i := i + 1;
      }
      assert order[..i] == order;
      r := Success(SortDesc(sessions, UpdatedKey));
    }
  }

  /** Loading a session just saved gives back what was saved. */
  lemma LoadAfterSave(home: Option<string>, files: map<string, StoredFile>, session: ChatSession,
                      messages: seq<ChatMessage>)
    requires SessionPath(home, session.id).Success?
    ensures Load(home, files[FileName(session.id) := Stored(session, messages)], session.id) == Success((session, messages))
  {
  }

  /** Saving one session does not change what loading another gives. */
  lemma SaveLeavesOthers(home: Option<string>, files: map<string, StoredFile>, session: ChatSession,
                         messages: seq<ChatMessage>, other: string)
    requires other != session.id
    ensures Load(home, files[FileName(session.id) := Stored(session, messages)], other) == Load(home, files, other)
  {
  }

  /** After a delete, loading the session reports it missing. */
  lemma LoadAfterDelete(home: Option<string>, files: map<string, StoredFile>, id: string)
    requires SessionPath(home, id).Success?
    ensures Load(home, files - {FileName(id)}, id) == Failure("Session not found: " + id)
  {
  }

  /** A directory where every session's count matches its messages. */
  predicate CountsConsistent(files: map<string, StoredFile>) {
    forall name :: name in files && files[name].Stored? ==>
      files[name].session.messageCount == |files[name].messages|
  }

  /** Storing a session whose count matches its messages keeps the directory consistent. */
  lemma StoreKeepsCounts(files: map<string, StoredFile>, name: string, session: ChatSession, messages: seq<ChatMessage>)
    requires CountsConsistent(files) && session.messageCount == |messages|
    ensures CountsConsistent(files[name := Stored(session, messages)])
  {
  }
}

=== FILE: claude_cli.dfy ===
/**
 * chat/claude_cli.rs: the chat interface's own streaming of `claude` output.
 *
 * Its normaliser `ParseClaudeMessage` understands only the wrapped
 * `stream_event` schema; the stream loop publishes on `chat-stream:<id>`,
 * stops at the first failed emit, and after a normal end flushes one more
 * `MessageComplete` when both parse-state fields are non-empty.
 */
module ClaudeCli {
  import opened Wrappers
  import opened Json
  import opened Text
  import opened Registry
  import opened Streams
  import Resume
  import opened ModelNormalize

  /** The chat stream's payloads; `ToolUse` and `ToolResult` are declared but never produced. */
  datatype StreamEvent =
    | MessageStart(messageId: string)
    | ContentDelta(messageId: string, delta: string)
    | MessageComplete(messageId: string, content: string)
    | ToolUse(messageId: string, toolName: string, input: Json)
    | ToolResult(messageId: string, toolName: string, output: string)
    | Error(error: string)

  type ParseState = Resume.ParseState

  /** `parse_claude_message`: only `stream_event` lines produce anything. */
  function ParseClaudeMessage(json: Json, st: ParseState): (r: Step<ParseState, StreamEvent>)
    ensures Resume.TopType(json) != Some("stream_event") ==> r == Step(None, st)
    ensures r.event.None? ==> r.state == st
    ensures r.event.Some? && r.event.value.MessageStart? ==>
              r.state == Resume.ParseState(r.event.value.messageId, "")
    ensures r.event.Some? && r.event.value.ContentDelta? ==>
              r.event.value.messageId == st.currentMessageId &&
              r.state == st.(accumulatedContent := st.accumulatedContent + r.event.value.delta)
    ensures r.event.Some? && r.event.value.MessageComplete? ==>
              r == Step(Some(MessageComplete(st.currentMessageId, st.accumulatedContent)), st)
    ensures r.event.Some? ==> r.event.value.MessageStart? || r.event.value.ContentDelta? ||
                              r.event.value.MessageComplete?
  {
    if Resume.TopType(json) != Some("stream_event") then Step(None, st)
    else
      match Get(json, "event")
      case None => Step(None, st)
      case Some(event) =>
        var kind := GetStr(event, "type");
        if kind == Some("message_start") then
          match GetIn(event, "message", "id")
          case Some(id) => Step(Some(MessageStart(id)), Resume.ParseState(id, ""))
          case None => Step(None, st)
        else if kind == Some("content_block_delta") then
          match GetIn(event, "delta", "text")
          case Some(delta) =>
            Step(Some(ContentDelta(st.currentMessageId, delta)),
                 st.(accumulatedContent := st.accumulatedContent + delta))
          case None => Step(None, st)
        else if kind == Some("message_stop") then
          Step(Some(MessageComplete(st.currentMessageId, st.accumulatedContent)), st)
        else
          Step(None, st)
  }

  /** The session normaliser's events, as the chat stream spells them. */
  function FromSession(e: Resume.StreamEvent): StreamEvent {
    match e
    case MessageStart(m) => MessageStart(m)
    case ContentDelta(m, d) => ContentDelta(m, d)
    case MessageComplete(m, c) => MessageComplete(m, c)
    case Error(err) => Error(err)
    case SessionIdUpdated(t, x) => Error("")  // never produced by the session normaliser
  }

  function FromSessionAll(es: seq<Resume.StreamEvent>): (r: seq<StreamEvent>)
    ensures |r| == |es|
  {
    if es == [] then [] else [FromSession(es[0])] + FromSessionAll(es[1..])
  }

  /**
   * On the wrapped schema the two normalisers agree: the chat one is the
   * session one restricted to `stream_event` lines.
   */
  lemma AgreesOnWrapped(json: Json, st: ParseState)
    requires Resume.TopType(json) == Some("stream_event")
    ensures var a := ParseClaudeMessage(json, st);
            var b := Resume.ParseStreamEvent(json, st);
            a.state == b.state && a.event.Some? == b.event.Some? &&
            (a.event.Some? ==> a.event.value == FromSession(b.event.value))
  {
  }

  function StepLine(line: Line, st: ParseState): Step<ParseState, StreamEvent> {
    if Resume.Skipped(line) then Step(None, st) else ParseClaudeMessage(line.json.value, st)
  }

  /** The reading loop of `spawn_claude_stream` over all lines, when no emit fails. */
  function Fold(lines: seq<Line>, st: ParseState): (r: Trace<ParseState, StreamEvent>)
    ensures |r.events| <= |lines|
  {
    FoldWith(StepLine, lines, st)
  }

  /** Reading a concatenation is reading the second part from where the first ended. */
  lemma {:induction false} FoldAppend(a: seq<Line>, b: seq<Line>, st: ParseState)
    ensures Fold(a + b, st) ==
              Trace(Fold(a, st).events + Fold(b, Fold(a, st).state).events, Fold(b, Fold(a, st).state).state)
  {
    FoldWithAppend(StepLine, a, b, st);
  }

  /** A stream of one line yields that line's event and state. */
  lemma FoldOne(line: Line, st: ParseState)
    ensures Fold([line], st) == Trace(Events(StepLine(line, st).event), StepLine(line, st).state)
  {
    assert [line][1..] == [];
    assert FoldWith(StepLine, [line][1..], StepLine(line, st).state) == Trace([], StepLine(line, st).state);
  }

  predicate AllWrapped(lines: seq<Line>) {
    forall i :: 0 <= i < |lines| && !Resume.Skipped(lines[i]) ==>
      Resume.TopType(lines[i].json.value) == Some("stream_event")
  }

  /** On an all-wrapped stream the chat loop sees what the session loop sees. */
  lemma {:induction false} FoldAgrees(lines: seq<Line>, st: ParseState)
    requires AllWrapped(lines)
    ensures Fold(lines, st).events == FromSessionAll(Resume.Fold(lines, st).events)
    ensures Fold(lines, st).state == Resume.Fold(lines, st).state
  {
    if lines != [] {
      if !Resume.Skipped(lines[0]) {
        AgreesOnWrapped(lines[0].json.value, st);
      }
      assert AllWrapped(lines[1..]) by {
        forall i | 0 <= i < |lines[1..]| && !Resume.Skipped(lines[1..][i])
          ensures Resume.TopType(lines[1..][i].json.value) == Some("stream_event")
        {
          assert lines[1..][i] == lines[i + 1];
        }
      }
      var s := StepLine(lines[0], st);
      FoldAgrees(lines[1..], s.state);
      FromSessionAppend(Events(Resume.StepLine(lines[0], st).event),
                        Resume.Fold(lines[1..], s.state).events);
    }
  }

  lemma {:induction false} FromSessionAppend(a: seq<Resume.StreamEvent>, b: seq<Resume.StreamEvent>)
    ensures FromSessionAll(a + b) == FromSessionAll(a) + FromSessionAll(b)
  {
    if a == [] {
      assert a + b == b;
    } else {
      assert (a + b)[1..] == a[1..] + b;
      FromSessionAppend(a[1..], b);
    }
  }

  lemma FromSessionOne(e: Resume.StreamEvent)
    ensures FromSessionAll([e]) == [FromSession(e)]
  {
    assert [e][1..] == [];
  }

  function DeltaEvents(id: string, parts: seq<string>): (r: seq<StreamEvent>)
    ensures |r| == |parts|
    ensures r == FromSessionAll(Resume.DeltaEvents(id, parts))
  {
    if parts == [] then [] else [ContentDelta(id, parts[0])] + DeltaEvents(id, parts[1..])
  }

  /** Every line of a wrapped message is a `stream_event` line. */
  lemma WrappedMessageIsWrapped(lines: seq<Line>, id: string, parts: seq<string>)
    requires Resume.WrappedMessage(lines, id, parts)
    ensures AllWrapped(lines)
  {
    forall i | 0 <= i < |lines| && !Resume.Skipped(lines[i])
      ensures Resume.TopType(lines[i].json.value) == Some("stream_event")
    {
      if i == 0 {
        assert Resume.StartLine(lines[0], id);
      } else if i <= |parts| {
        assert Resume.DeltaLine(lines[(i - 1) + 1], parts[i - 1]);
      } else {
        assert Resume.StopLine(lines[|parts| + 1]);
      }
    }
  }

  /** start, deltas, stop: one start, the deltas in order, and a completion with their concatenation. */
  lemma WrappedMessageCompletes(lines: seq<Line>, id: string, parts: seq<string>, st: ParseState)
    requires Resume.WrappedMessage(lines, id, parts)
    ensures Fold(lines, st).events ==
              [MessageStart(id)] + DeltaEvents(id, parts) + [MessageComplete(id, Resume.Concat(parts))]
    ensures Fold(lines, st).state == Resume.ParseState(id, Resume.Concat(parts))
  {
    Resume.WrappedMessageCompletes(lines, id, parts, st);
    WrappedMessageIsWrapped(lines, id, parts);
    FoldAgrees(lines, st);
    var start, rs, stop := [Resume.MessageStart(id)], Resume.DeltaEvents(id, parts),
                           [Resume.MessageComplete(id, Resume.Concat(parts))];
    assert Resume.Fold(lines, st).events == start + rs + stop;
    FromSessionAppend(start + rs, stop);
    FromSessionAppend(start, rs);
    FromSessionOne(start[0]);
    FromSessionOne(stop[0]);
    assert FromSessionAll(start + rs + stop) == FromSessionAll(start) + FromSessionAll(rs) + FromSessionAll(stop);
  }

  /** The end-of-stream flush: one more completion iff both fields are non-empty. */
  function Flush(st: ParseState): (r: seq<StreamEvent>)
    ensures |r| <= 1
    ensures |r| == 1 <==> st.currentMessageId != "" && st.accumulatedContent != ""
    ensures |r| == 1 ==> r[0] == MessageComplete(st.currentMessageId, st.accumulatedContent)
  {
    if st.currentMessageId != "" && st.accumulatedContent != "" then
      [MessageComplete(st.currentMessageId, st.accumulatedContent)]
    else []
  }

  /**
   * A well-formed wrapped message with non-empty content is completed twice:
   * once by `message_stop` and once more by the end-of-stream flush.
   */
  lemma DoubleCompletion(lines: seq<Line>, id: string, parts: seq<string>)
    requires Resume.WrappedMessage(lines, id, parts)
    requires id != "" && Resume.Concat(parts) != ""
    ensures var t := Fold(lines, Resume.Initial);
            var all := t.events + Flush(t.state);
            |all| == |parts| + 3 &&
            all[|parts| + 1] == MessageComplete(id, Resume.Concat(parts)) &&
            all[|parts| + 2] == MessageComplete(id, Resume.Concat(parts))
  {
    WrappedMessageCompletes(lines, id, parts, Resume.Initial);
    var t := Fold(lines, Resume.Initial);
    var done := MessageComplete(id, Resume.Concat(parts));
    var events := [MessageStart(id)] + DeltaEvents(id, parts) + [done];
    assert |events| == |parts| + 2 && events[|parts| + 1] == done;
    assert Flush(t.state) == [done];
    assert t.events + Flush(t.state) == events + [done];
  }

  function Channel(sessionId: string): string {
    "chat-stream:" + sessionId
  }

  /** `validate_model`: every model name is accepted; unknown names were passed through by normalisation. */
  function ValidateModel(model: string): (r: Result<()>)
    ensures r.Success?
  {
    Success(())
  }

  /** `Path::is_absolute` on Unix. */
  predicate IsAbsolute(path: string) {
    StartsWith(path, "/")
  }

  /** `validate_project_path`: absoluteness first, then existence, then canonicalisation. */
  function ValidateProjectPath(path: string, env: Environment): (r: Result<string>)
    ensures !IsAbsolute(path) ==> r == Failure("Project path must be absolute")
    ensures r.Success? <==> IsAbsolute(path) && env.pathExists && env.canonical.Some?
    ensures r.Success? ==> r.value == env.canonical.value
  {
    if !IsAbsolute(path) then Failure("Project path must be absolute")
    else if !env.pathExists then Failure("Project path does not exist: " + path)
    else if env.canonical.None? then Failure("Failed to canonicalize path: ")
    else Success(env.canonical.value)
  }

  function SpawnArgs(model: string, message: string): seq<string> {
    ["-p", "--verbose", "--output-format", "stream-json", "--include-partial-messages", "--model", model, message]
  }

  /** Folding one more line onto a prefix. */
  lemma FoldSnoc(a: seq<Line>, line: Line, st: ParseState)
    ensures var s := StepLine(line, Fold(a, st).state);
            Fold(a + [line], st) == Trace(Fold(a, st).events + Events(s.event), s.state)
  {
    FoldAppend(a, [line], st);
    FoldOne(line, Fold(a, st).state);
  }

  /** The events of a prefix of the stream are a prefix of the stream's events. */
  lemma FoldPrefix(lines: seq<Line>, i: nat, st: ParseState)
    requires i <= |lines|
    ensures var pre := Fold(lines[..i], st).events;
            |pre| <= |Fold(lines, st).events| && Fold(lines, st).events[..|pre|] == pre
  {
    FoldAppend(lines[..i], lines[i..], st);
    assert lines[..i] + lines[i..] == lines;
  }

  /**
   * The reading loop. `failingEmit` is the ordinal of the first emit the UI
   * rejects, if any; that emit ends the loop with an error.
   */
  method ReadLoop(sink: EventSink<StreamEvent>, channel: string, lines: seq<Line>, failingEmit: Option<nat>)
    returns (ok: bool, st: ParseState)
    modifies sink
    ensures Fails(lines, failingEmit) ==>
              !ok && sink.log == old(sink.log) + Tagged(channel, Fold(lines, Resume.Initial).events[..failingEmit.value])
    ensures !Fails(lines, failingEmit) ==>
              ok && st == Fold(lines, Resume.Initial).state &&
              sink.log == old(sink.log) + Tagged(channel, Fold(lines, Resume.Initial).events)
  {
    ghost var at;
    ok, st, at := ReadLines(sink, channel, lines, failingEmit);
    if !ok {
      EmitReached(lines, at);
    }
  }

  /**
   * The loop itself, stated on the prefix read so far: either every line is
   * read, or the line at `at` produced the rejected emit.
   */
  method ReadLines(sink: EventSink<StreamEvent>, channel: string, lines: seq<Line>, failingEmit: Option<nat>)
    returns (ok: bool, st: ParseState, ghost at: nat)
    modifies sink
    ensures ok ==> st == Fold(lines, Resume.Initial).state &&
                   (failingEmit.None? || failingEmit.value >= |Fold(lines, Resume.Initial).events|) &&
                   sink.log == old(sink.log) + Tagged(channel, Fold(lines, Resume.Initial).events)
    ensures !ok ==> at < |lines| &&
                    StepLine(lines[at], Fold(lines[..at], Resume.Initial).state).event.Some? &&
                    failingEmit == Some(|Fold(lines[..at], Resume.Initial).events|) &&
                    sink.log == old(sink.log) + Tagged(channel, Fold(lines[..at], Resume.Initial).events)
  {
    st := Resume.Initial;
    at := 0;
    var i, emitted := 0, 0;
    ghost var trace := Fold(lines[..0], Resume.Initial);
    while i < |lines|
      invariant 0 <= i <= |lines|
      invariant trace == Fold(lines[..i], Resume.Initial)
      invariant emitted == |trace.events| && st == trace.state
      invariant failingEmit.None? || failingEmit.value >= emitted
      invariant sink.log == old(sink.log) + Tagged(channel, trace.events)
    {
      var s := StepLine(lines[i], st);
      if s.event.Some? && failingEmit == Some(emitted) {
        return false, st, i;
      }
      LoopStep(lines, i, Resume.Initial);
      Deliver(sink, channel, s.event);
      TaggedAppend(channel, trace.events, Events(s.event));
      if s.event.Some? {
        emitted := emitted + 1;
      }
      st := s.state;
      trace := Trace(trace.events + Events(s.event), s.state);
      i := i + 1;
    }
    assert lines[..i] == lines;
    ok := true;
  }

  /** Whether the emit numbered `failingEmit` is reached. */
  predicate Fails(lines: seq<Line>, failingEmit: Option<nat>) {
    failingEmit.Some? && failingEmit.value < |Fold(lines, Resume.Initial).events|
  }

  /** One step of the loop, stated on prefixes of the stream. */
  lemma LoopStep(lines: seq<Line>, i: nat, st: ParseState)
    requires i < |lines|
    ensures var s := StepLine(lines[i], Fold(lines[..i], st).state);
            Fold(lines[..i + 1], st) == Trace(Fold(lines[..i], st).events + Events(s.event), s.state)
  {
    FoldSnoc(lines[..i], lines[i], st);
    assert lines[..i + 1] == lines[..i] + [lines[i]];
  }

  /**
   * A line with an event, at position `i`, is emitted with number
   * `|events so far|`, which therefore is an event of the whole stream.
   */
  lemma EmitReached(lines: seq<Line>, i: nat)
    requires i < |lines|
    requires StepLine(lines[i], Fold(lines[..i], Resume.Initial).state).event.Some?
    ensures var done := Fold(lines[..i], Resume.Initial).events;
            |done| < |Fold(lines, Resume.Initial).events| && Fold(lines, Resume.Initial).events[..|done|] == done
  {
    LoopStep(lines, i, Resume.Initial);
    FoldPrefix(lines, i + 1, Resume.Initial);
  }

  /** Emit the event of one line, if it has one (skipped lines never have one). */
  method Deliver(sink: EventSink<StreamEvent>, channel: string, e: Option<StreamEvent>)
    modifies sink
    ensures sink.log == old(sink.log) + Tagged(channel, Events(e))
  {
    if e.Some? {
      sink.Emit(channel, e.value);
    }
  }

  /**
   * What `spawn_claude_stream` returns and leaves in the registry and the
   * event log once the project path is valid: without a spawned child
   * nothing changes; otherwise the child is registered, the stream's events
   * are emitted up to the first rejected emit, and a stream read to its end
   * is flushed and deregistered.
   */
  predicate Streamed(r: Result<()>, procs0: map<string, Handle>, procs: map<string, Handle>,
                     log0: seq<(string, StreamEvent)>, log: seq<(string, StreamEvent)>,
                     sessionId: string, spawn: SpawnOutcome, lines: seq<Line>, failingEmit: Option<nat>)
  {
    var events := Fold(lines, Resume.Initial).events;
    && (!spawn.Spawned? ==> r.Failure? && procs == procs0 && log == log0)
    && (spawn.Spawned? && Fails(lines, failingEmit) ==>
          r == Failure("Failed to emit event: ") &&
          procs == procs0[sessionId := spawn.child] &&
          log == log0 + Tagged(Channel(sessionId), events[..failingEmit.value]))
    && (spawn.Spawned? && !Fails(lines, failingEmit) ==>
          r == Success(()) &&
          procs == procs0[sessionId := spawn.child] - {sessionId} &&
          log == log0 + Tagged(Channel(sessionId), events + Flush(Fold(lines, Resume.Initial).state)))
  }

  /**
   * `spawn_claude_stream`: normalise the model, validate the path, spawn,
   * register under the session id, read the stream, flush, deregister.
   */
  method SpawnClaudeStream(registry: ProcessMap, host: Host, sink: EventSink<StreamEvent>,
                           aliases: map<string, string>, env: Environment,
                           sessionId: string, message: string, projectPath: string, model: string,
                           lines: seq<Line>, failingEmit: Option<nat>)
    returns (r: Result<()>)
    modifies registry, host, sink
    ensures ValidateProjectPath(projectPath, env).Failure? ==>
              r == Failure(ValidateProjectPath(projectPath, env).error) && host.launched == old(host.launched)
    ensures ValidateProjectPath(projectPath, env).Success? ==>
              host.launched == old(host.launched) +
                [Command("claude", SpawnArgs(NormalizeModelName(aliases, model), message),
                         ValidateProjectPath(projectPath, env).value)]
    ensures host.killed == old(host.killed) +
              (if ValidateProjectPath(projectPath, env).Success? && env.spawn.NoStdout? then [env.spawn.child] else [])
    ensures ValidateProjectPath(projectPath, env).Failure? ==>
              registry.procs == old(registry.procs) && sink.log == old(sink.log)
    ensures ValidateProjectPath(projectPath, env).Success? ==>
              Streamed(r, old(registry.procs), registry.procs, old(sink.log), sink.log,
                       sessionId, env.spawn, lines, failingEmit)
  {
    var normalized := NormalizeModelName(aliases, model);
    var valid := ValidateModel(normalized);
    var checked := ValidateProjectPath(projectPath, env);
    if checked.Failure? {
      return Failure(checked.error);
    }
    var child := host.Spawn(Command("claude", SpawnArgs(normalized, message), checked.value), env.spawn);
    match child
    case SpawnError =>
      r := Failure("Failed to spawn Claude CLI: ");
    case NoStdout(h) =>
      var _ := host.Kill(h, true);
      r := Failure("Failed to get stdout");
    case Spawned(h) =>
      registry.Insert(sessionId, h);
      var channel := Channel(sessionId);
      var ok, st := ReadLoop(sink, channel, lines, failingEmit);
      if !ok {
        return Failure("Failed to emit event: ");
      }
      ghost var beforeFlush := sink.log;
      if st.currentMessageId != "" && st.accumulatedContent != "" {
        sink.Emit(channel, MessageComplete(st.currentMessageId, st.accumulatedContent));
      }
      assert sink.log == beforeFlush + Tagged(channel, Flush(st));
      TaggedAppend(channel, Fold(lines, Resume.Initial).events, Flush(st));
      var _ := registry.Remove(sessionId);
      r := Success(());
  }

  /** `cancel_stream`: kill and deregister if running; succeed either way unless the kill fails. */
  method CancelStream(registry: ProcessMap, host: Host, sessionId: string, killOk: bool)
    returns (r: Result<()>)
    modifies registry, host
    ensures registry.procs == old(registry.procs) - {sessionId}
    ensures sessionId !in old(registry.procs) ==> r == Success(()) && host.killed == old(host.killed)
    ensures sessionId in old(registry.procs) ==>
              host.killed == old(host.killed) + [old(registry.procs)[sessionId]] &&
              r == (if killOk then Success(()) else Failure("Failed to kill process: "))
    ensures host.launched == old(host.launched)
  {
    var child := registry.Remove(sessionId);
    r := Success(());
    if child.Some? {
      var ok := host.Kill(child.value, killOk);
      if !ok {
        r := Failure("Failed to kill process: ");
      }
    }
  }
}

=== FILE: config_stores.dfy ===
/**
 * commands.rs, configuration stores: named sets of Claude Code settings kept
 * in `~/.ccconfig/stores.json`, of which the one in use is merged into
 * `~/.claude/settings.json`. Each file is modelled by what reading and
 * parsing it yields; writes are modelled as succeeding.
 */
module ConfigStores {
  import opened Wrappers
  import opened Json

  datatype ConfigStore = ConfigStore(id: string, title: string, createdAt: nat, settings: Json, using: bool)

  /**
   * The contents of stores.json. `activeContext` is not a field of the
   * struct the commands parse into, so only `set_using_config` writes it
   * and every other command drops it.
   */
  datatype StoresFile = StoresFile(configs: seq<ConfigStore>, distinctId: Option<string>, activeContext: Option<Json>)

  /** What reading and parsing one file yields. */
  datatype Doc<T> = Missing | Unreadable | Unparsable | Present(value: T)

  // ---------------------------------------------------------------------------
  // The partial settings update

  /**
   * When both are objects, every key of the new settings takes its new value
   * and every other existing key is kept; otherwise the new settings replace
   * the old ones entirely.
   */
  function Merge(existing: Json, settings: Json): (r: Json)
    ensures !(settings.JObj? && existing.JObj?) ==> r == settings
    ensures settings.JObj? && existing.JObj? ==>
              && r.JObj?
              && (forall k :: k in r.fields <==> k in existing.fields || k in settings.fields)
              && (forall k :: k in settings.fields ==> r.fields[k] == settings.fields[k])
              && (forall k :: k in existing.fields && k !in settings.fields ==> r.fields[k] == existing.fields[k])
  {
    if settings.JObj? && existing.JObj? then JObj(existing.fields + settings.fields) else settings
  }

  /** The merge loop: insert each key of the new settings into the existing object. */
  method MergeSettings(existing: Json, settings: Json) returns (r: Json)
    ensures r == Merge(existing, settings)
  {
    if !(settings.JObj? && existing.JObj?) {
      return settings;
    }
    var acc := existing.fields;
    var pending := settings.fields.Keys;
    while pending != {}
      invariant pending <= settings.fields.Keys
      invariant forall k :: k in acc <==> k in existing.fields || (k in settings.fields && k !in pending)
      invariant forall k :: k in acc && k in settings.fields && k !in pending ==> acc[k] == settings.fields[k]
      invariant forall k :: k in acc && (k !in settings.fields || k in pending) ==> acc[k] == existing.fields[k]
      decreases pending
    {
      var key :| key in pending;
      acc := acc[key := settings.fields[key]];
      pending := pending - {key};
    }
    assert acc == existing.fields + settings.fields;
    r := JObj(acc);
  }

  /** Merging into no settings at all (an empty object) gives the new settings. */
  lemma MergeIntoEmpty(settings: Json)
    ensures Merge(JObj(map[]), settings) == settings
  {
    if settings.JObj? {
      assert map[] + settings.fields == settings.fields;
    }
  }

  /** Merging the same settings twice is merging them once. */
  lemma MergeIdempotent(existing: Json, settings: Json)
    ensures Merge(Merge(existing, settings), settings) == Merge(existing, settings)
  {
    if settings.JObj? && existing.JObj? {
      assert existing.fields + settings.fields + settings.fields == existing.fields + settings.fields;
    }
  }

  /** The existing user settings: a missing file counts as an empty object. */
  function ExistingSettings(doc: Doc<Json>): (r: Result<Json>)
    ensures doc.Missing? ==> r == Success(JObj(map[]))
    ensures doc.Present? ==> r == Success(doc.value)
    ensures r.Failure? <==> doc.Unreadable? || doc.Unparsable?
  {
    match doc
    case Missing => Success(JObj(map[]))
    case Unreadable => Failure("Failed to read existing settings: ")
    case Unparsable => Failure("Failed to parse existing settings: ")
    case Present(v) => Success(v)
  }

  /** The stores file as the delete, select and update commands read it. */
  function ReadStores(doc: Doc<StoresFile>): (r: Result<StoresFile>)
    ensures doc.Missing? ==> r == Failure("Stores file does not exist")
    ensures doc.Present? ==> r == Success(doc.value.(activeContext := None))
    ensures r.Failure? <==> !doc.Present?
  {
    match doc
    case Missing => Failure("Stores file does not exist")
    case Unreadable => Failure("Failed to read stores file: ")
    case Unparsable => Failure("Failed to parse stores file: ")
    case Present(f) => Success(f.(activeContext := None))
  }

  // ---------------------------------------------------------------------------
  // Store list operations

  predicate HasStore(configs: seq<ConfigStore>, id: string) {
    exists i :: 0 <= i < |configs| && configs[i].id == id
  }

  /** `retain(|store| store.id != id)`. */
  function Without(configs: seq<ConfigStore>, id: string): (r: seq<ConfigStore>)
    ensures |r| <= |configs|
    ensures forall s :: s in r <==> s in configs && s.id != id
    ensures |r| == |configs| <==> !HasStore(configs, id)
  {
    if configs == [] then []
    else
      var rest := Without(configs[1..], id);
      assert forall s :: s in configs <==> s == configs[0] || s in configs[1..];
      assert HasStore(configs, id) <==> configs[0].id == id || HasStore(configs[1..], id) by {
        if HasStore(configs[1..], id) {
          var i :| 0 <= i < |configs[1..]| && configs[1..][i].id == id;
          assert configs[i + 1].id == id;
        }
        if HasStore(configs, id) && configs[0].id != id {
          var i :| 0 <= i < |configs| && configs[i].id == id;
          assert configs[1..][i - 1].id == id;
        }
      }
      if configs[0].id == id then rest else [configs[0]] + rest
  }

  /** Filtering distributes over concatenation, so the remaining stores keep their order. */
  lemma {:induction false} WithoutAppend(a: seq<ConfigStore>, b: seq<ConfigStore>, id: string)
    ensures Without(a + b, id) == Without(a, id) + Without(b, id)
  {
    if a == [] {
      assert a + b == b;
    } else {
      assert (a + b)[0] == a[0] && (a + b)[1..] == a[1..] + b;
      WithoutAppend(a[1..], b, id);
      var head := if a[0].id != id then [a[0]] else [];
      assert head + (Without(a[1..], id) + Without(b, id)) == (head + Without(a[1..], id)) + Without(b, id);
    }
  }

  /** Every store with the id is in use, every other store is not; nothing else changes. */
  function Selected(configs: seq<ConfigStore>, id: string): (r: seq<ConfigStore>)
    ensures |r| == |configs|
    ensures forall i :: 0 <= i < |configs| ==> r[i] == configs[i].(using := configs[i].id == id)
  {
    seq(|configs|, i requires 0 <= i < |configs| => configs[i].(using := configs[i].id == id))
  }

  lemma SelectedSnoc(configs: seq<ConfigStore>, id: string, i: nat)
    requires i < |configs|
    ensures Selected(configs[..i + 1], id) == Selected(configs[..i], id) + [configs[i].(using := configs[i].id == id)]
  {
    assert configs[..i + 1][..i] == configs[..i];
  }

  /** The settings of the last store with the id: the flag loop overwrites its choice on every match. */
  function LastSettings(configs: seq<ConfigStore>, id: string): (r: Option<Json>)
    ensures r.Some? <==> HasStore(configs, id)
  {
    if configs == [] then None
    else if configs[|configs| - 1].id == id then Some(configs[|configs| - 1].settings)
    else
      var r := LastSettings(configs[..|configs| - 1], id);
      assert HasStore(configs, id) <==> HasStore(configs[..|configs| - 1], id) by {
        if HasStore(configs[..|configs| - 1], id) {
          var i :| 0 <= i < |configs| - 1 && configs[..|configs| - 1][i].id == id;
          assert configs[i].id == id;
        }
        if HasStore(configs, id) {
          var i :| 0 <= i < |configs| && configs[i].id == id;
          assert configs[..|configs| - 1][i].id == id;
        }
      }
      r
  }

  /** `position(|store| store.id == id)`. */
  function FirstIndex(configs: seq<ConfigStore>, id: string): (r: Option<nat>)
    ensures r.Some? ==> r.value < |configs| && configs[r.value].id == id &&
                        forall j :: 0 <= j < r.value ==> configs[j].id != id
    ensures r.None? <==> !HasStore(configs, id)
  {
    if configs == [] then None
    else if configs[0].id == id then Some(0)
    else
      var r := FirstIndex(configs[1..], id);
      assert forall j :: 1 <= j < |configs| ==> configs[j] == configs[1..][j - 1];
      if r.Some? then Some(r.value + 1) else None
  }

  predicate DistinctIds(configs: seq<ConfigStore>) {
    forall i, j :: 0 <= i < j < |configs| ==> configs[i].id != configs[j].id
  }

  /** With distinct ids, selecting a present store leaves exactly that one in use. */
  lemma ExactlyOneInUse(configs: seq<ConfigStore>, id: string)
    requires DistinctIds(configs) && HasStore(configs, id)
    ensures var r := Selected(configs, id);
            exists i :: 0 <= i < |r| && r[i].using && r[i].id == id &&
                        forall j :: 0 <= j < |r| && j != i ==> !r[j].using
  {
    var r := Selected(configs, id);
    var i :| 0 <= i < |configs| && configs[i].id == id;
    assert r[i].using;
  }

  /** The value written as `activeContext` when a store is selected. */
  function GlobalContext(id: string): (r: Json)
    ensures GetStr(r, "type") == Some("global") && GetStr(r, "id") == Some(id)
    ensures Get(r, "projectPath") == Some(JNull)
  {
    JObj(map["type" := JStr("global"), "id" := JStr(id), "projectPath" := JNull])
  }

  const OriginalTitle := "Original Config"

  /** The two files the store commands read and write. */
  class AppFiles {
    var stores: Doc<StoresFile>
    var settings: Doc<Json>

    constructor (stores: Doc<StoresFile>, settings: Doc<Json>)
      ensures this.stores == stores && this.settings == settings
    {
      this.stores := stores;
      this.settings := settings;
    }

    /** Merge the chosen store's settings into the user's settings.json. */
    method ApplySettings(selected: Json) returns (r: Result<()>)
      modifies this
      ensures stores == old(stores)
      ensures ExistingSettings(old(settings)).Failure? ==>
                r == Failure(ExistingSettings(old(settings)).error) && settings == old(settings)
      ensures ExistingSettings(old(settings)).Success? ==>
                r == Success(()) && settings == Present(Merge(ExistingSettings(old(settings)).value, selected))
    {
      var existing := ExistingSettings(settings);
      if existing.Failure? {
        return Failure(existing.error);
      }
      var merged := MergeSettings(existing.value, selected);
      settings := Present(merged);
      r := Success(());
    }

    /**
     * `create_config`: the new store goes last and is in use exactly when
     * there were no stores; in that case an existing settings.json is first
     * kept as an "Original Config" store that is not in use, and the new
     * settings are merged into settings.json. The original store and the
     * new one each take their own clock reading.
     */
    method CreateConfig(id: string, title: string, newSettings: Json, originalNow: nat, now: nat, originalId: string)
      returns (r: Result<ConfigStore>)
      modifies this
      ensures old(stores).Unreadable? || old(stores).Unparsable? ==>
                r == Failure(if old(stores).Unreadable? then "Failed to read stores file: " else "Failed to parse stores file: ")
      ensures old(stores).Unreadable? || old(stores).Unparsable? ==> stores == old(stores) && settings == old(settings)
      ensures var before := if old(stores).Present? then old(stores).value.configs else [];
              var first := before == [];
              && ((old(stores).Missing? || old(stores).Present?) && first &&
                  (old(settings).Unreadable? || old(settings).Unparsable?) ==>
                    r.Failure? && stores == old(stores) && settings == old(settings))
              && ((old(stores).Missing? || old(stores).Present?) && !(first && (old(settings).Unreadable? || old(settings).Unparsable?)) ==>
                    && r == Success(ConfigStore(id, title, now, newSettings, first))
                    && stores == Present(StoresFile(
                         before +
                           (if first && old(settings).Present?
                            then [ConfigStore(originalId, OriginalTitle, originalNow, old(settings).value, false)] else []) +
                           [r.value],
                         if old(stores).Present? then old(stores).value.distinctId else None,
                         None))
                    && (first ==> settings == Present(Merge(ExistingSettings(old(settings)).value, newSettings)))
                    && (!first ==> settings == old(settings)))
    {
      var data: StoresFile;
      match stores {
        case Missing => data := StoresFile([], None, None);
        case Unreadable => return Failure("Failed to read stores file: ");
        case Unparsable => return Failure("Failed to parse stores file: ");
        case Present(f) => data := f.(activeContext := None);
      }
      var first := data.configs == [];
      var original: seq<ConfigStore> := [];
      if first {
        match settings {
          case Missing =>
          case Unreadable => return Failure("Failed to read existing Claude settings: ");
          case Unparsable => return Failure("Failed to parse existing Claude settings: ");
          case Present(existing) =>
            original := [ConfigStore(originalId, OriginalTitle, originalNow, existing, false)];
        }
        // settings.json was read successfully just above, so this merge cannot fail
        var applied := ApplySettings(newSettings);
      }
      var store := ConfigStore(id, title, now, newSettings, first);
      stores := Present(StoresFile(data.configs + original + [store], data.distinctId, None));
      r := Success(store);
    }

    /** `delete_config`: removes every store with the id; none is an error. */
    method DeleteConfig(id: string) returns (r: Result<()>)
      modifies this
      ensures settings == old(settings)
      ensures ReadStores(old(stores)).Failure? ==> r == Failure(ReadStores(old(stores)).error) && stores == old(stores)
      ensures ReadStores(old(stores)).Success? && !HasStore(old(stores).value.configs, id) ==>
                r == Failure("Store not found") && stores == old(stores)
      ensures ReadStores(old(stores)).Success? && HasStore(old(stores).value.configs, id) ==>
                var f := old(stores).value;
                r == Success(()) && stores == Present(StoresFile(Without(f.configs, id), f.distinctId, None))
    {
      var data := ReadStores(stores);
      if data.Failure? {
        return Failure(data.error);
      }
      var kept := Without(data.value.configs, id);
      if |kept| == |data.value.configs| {
        return Failure("Store not found");
      }
      stores := Present(StoresFile(kept, data.value.distinctId, None));
      r := Success(());
    }

    /**
     * `set_using_config`: flag the chosen store in use and all others not,
     * merge its settings into settings.json, and record it as the active
     * global context.
     */
    method SetUsingConfig(id: string) returns (r: Result<()>)
      modifies this
      ensures ReadStores(old(stores)).Failure? ==>
                r == Failure(ReadStores(old(stores)).error) && stores == old(stores) && settings == old(settings)
      ensures ReadStores(old(stores)).Success? && !HasStore(old(stores).value.configs, id) ==>
                r == Failure("Store not found") && stores == old(stores) && settings == old(settings)
      ensures ReadStores(old(stores)).Success? && HasStore(old(stores).value.configs, id) &&
              ExistingSettings(old(settings)).Failure? ==>
                r == Failure(ExistingSettings(old(settings)).error) && stores == old(stores) && settings == old(settings)
      ensures ReadStores(old(stores)).Success? && HasStore(old(stores).value.configs, id) &&
              ExistingSettings(old(settings)).Success? ==>
                var f := old(stores).value;
                && r == Success(())
                && settings == Present(Merge(ExistingSettings(old(settings)).value, LastSettings(f.configs, id).value))
                && stores == Present(StoresFile(Selected(f.configs, id), f.distinctId, Some(GlobalContext(id))))
    {
      var data := ReadStores(stores);
      if data.Failure? {
        return Failure(data.error);
      }
      var configs := data.value.configs;
      if !HasStore(configs, id) {
        return Failure("Store not found");
      }
      var flagged: seq<ConfigStore> := [];
      var selected: Option<Json> := None;
      var i := 0;
      while i < |configs|
        invariant 0 <= i <= |configs|
        invariant flagged == Selected(configs[..i], id)
        invariant selected == LastSettings(configs[..i], id)
        invariant unchanged(this)
      {
        assert configs[..i + 1][..i] == configs[..i];
        SelectedSnoc(configs, id, i);
        if configs[i].id == id {
          flagged := flagged + [configs[i].(using := true)];
          selected := Some(configs[i].settings);
        } else {
          flagged := flagged + [configs[i].(using := false)];
        }
        i := i + 1;
      }
      assert configs[..i] == configs;
      if selected.Some? {
        var applied := ApplySettings(selected.value);
        if applied.Failure? {
          return applied;
        }
      }
      stores := Present(StoresFile(flagged, data.value.distinctId, Some(GlobalContext(id))));
      r := Success(());
    }

    /**
     * `update_config`: new title and settings for the first store with the
     * id; when that store is in use its settings are merged into settings.json.
     */
    method UpdateConfig(id: string, title: string, newSettings: Json) returns (r: Result<ConfigStore>)
      modifies this
      ensures ReadStores(old(stores)).Failure? ==>
                r == Failure(ReadStores(old(stores)).error) && stores == old(stores) && settings == old(settings)
      ensures ReadStores(old(stores)).Success? && !HasStore(old(stores).value.configs, id) ==>
                r == Failure("Store with id '" + id + "' not found") && stores == old(stores) && settings == old(settings)
      ensures ReadStores(old(stores)).Success? && HasStore(old(stores).value.configs, id) ==>
                var f := old(stores).value;
                var k := FirstIndex(f.configs, id).value;
                var updated := f.configs[k].(title := title, settings := newSettings);
                && (f.configs[k].using && ExistingSettings(old(settings)).Failure? ==>
                      r == Failure(ExistingSettings(old(settings)).error) && stores == old(stores) && settings == old(settings))
                && (f.configs[k].using && ExistingSettings(old(settings)).Success? ==>
                      settings == Present(Merge(ExistingSettings(old(settings)).value, newSettings)))
                && (!f.configs[k].using ==> settings == old(settings))
                && (!f.configs[k].using || ExistingSettings(old(settings)).Success? ==>
                      r == Success(updated) &&
                      stores == Present(StoresFile(f.configs[k := updated], f.distinctId, None)))
    {
      var data := ReadStores(stores);
      if data.Failure? {
        return Failure(data.error);
      }
      var configs := data.value.configs;
      var k := FirstIndex(configs, id);
      if k.None? {
        return Failure("Store with id '" + id + "' not found");
      }
      var updated := configs[k.value].(title := title, settings := newSettings);
      configs := configs[k.value := updated];
      if updated.using {
        var applied := ApplySettings(newSettings);
        if applied.Failure? {
          return Failure(applied.error);
        }
      }
      stores := Present(StoresFile(configs, data.value.distinctId, None));
      r := Success(updated);
    }
  }
}

=== FILE: discovery.dfy ===
/**
 * sessions/discovery.rs: where Claude Code keeps a project's session files,
 * and which files in that directory are sessions.
 */
module Discovery {
  import opened Wrappers
  import opened Text
  import opened Sorting

  /** `encode_project_path`: every '/' becomes '-'. */
  function EncodeProjectPath(path: string): (r: string)
    ensures |r| == |path|
    ensures !ContainsChar(r, '/')
    ensures forall i :: 0 <= i < |path| && path[i] != '/' ==> r[i] == path[i]
    ensures forall i :: 0 <= i < |path| && path[i] == '/' ==> r[i] == '-'
  {
    ReplaceChar(path, '/', '-')
  }

  /**
   * `decode_project_path` as written: a leading '-' is dropped and every
   * other '-' becomes '/'. The dropped '-' stood for the leading '/', which
   * is not restored.
   */
  function DecodeProjectPath(encoded: string): (r: string)
    ensures !StartsWith(encoded, "-") ==> r == encoded
    ensures StartsWith(encoded, "-") ==>
              |r| == |encoded| - 1 && !ContainsChar(r, '-') &&
              forall i :: 0 <= i < |r| ==> r[i] == (if encoded[i + 1] == '-' then '/' else encoded[i + 1])
  {
    if StartsWith(encoded, "-") then ReplaceChar(encoded[1..], '-', '/') else encoded
  }

  /** As written, decoding an encoded absolute path loses its leading '/'. */
  lemma {:induction false} DecodeEncodeAsWritten(path: string)
    requires StartsWith(path, "/") && !ContainsChar(path, '-')
    ensures DecodeProjectPath(EncodeProjectPath(path)) == path[1..]
    ensures DecodeProjectPath(EncodeProjectPath(path)) != path
  {
    var e := EncodeProjectPath(path);
    assert path[0] == path[..1][0] == '/';
    assert e[0] == '-';
    assert StartsWith(e, "-");
    var r := DecodeProjectPath(e);
    assert |r| == |path| - 1;
    forall i | 0 <= i < |r|
      ensures r[i] == path[i + 1]
    {
      assert path[i + 1] != '-';
      assert r[i] == (if e[i + 1] == '-' then '/' else e[i + 1]);
    }
    assert r == path[1..];
  }

  /**
   * As written, a directory name made of '-'-separated segments decodes to
   * the segments joined by '/', with no leading '/'.
   */
  lemma DecodeJoinedAsWritten(parts: seq<string>)
    requires forall i :: 0 <= i < |parts| ==> !ContainsChar(parts[i], '-')
    ensures DecodeProjectPath("-" + Join(parts, "-")) == Join(parts, "/")
  {
    var e := "-" + Join(parts, "-");
    assert StartsWith(e, "-") && e[1..] == Join(parts, "-");
    ReplaceCharJoin(parts, '-', '/');
  }

  /** The decoder's own test input decodes without its leading '/', so its test expectation is not met. */
  lemma DecodeExampleAsWritten(input: string)
    requires input == "-Users-huutri-code-ccmate"
    ensures DecodeProjectPath(input) == "Users/huutri/code/ccmate"
    ensures DecodeProjectPath(input) != "/Users/huutri/code/ccmate"
  {
    TestInputSegments(input);
    TestPathSegments();
    DecodeJoinedAsWritten(["Users", "huutri", "code", "ccmate"]);
  }

  /** The test's input is the segments of its expected path joined by '-', behind a leading '-'. */
  lemma TestInputSegments(input: string)
    requires input == "-Users-huutri-code-ccmate"
    ensures input == "-" + Join(["Users", "huutri", "code", "ccmate"], "-")
  {
    JoinFour("Users", "huutri", "code", "ccmate", "-");
  }

  lemma TestPathSegments()
    ensures Join(["Users", "huutri", "code", "ccmate"], "/") == "Users/huutri/code/ccmate"
    ensures "/" + Join(["Users", "huutri", "code", "ccmate"], "/") == "/Users/huutri/code/ccmate"
  {
    JoinFour("Users", "huutri", "code", "ccmate", "/");
  }

  /** The evidently intended decoder: the leading '-' stands for the leading '/'. */
  function DecodeProjectPathFixed(encoded: string): (r: string)
    ensures !StartsWith(encoded, "-") ==> r == encoded
    ensures StartsWith(encoded, "-") ==>
              |r| == |encoded| && !ContainsChar(r, '-') &&
              forall i :: 0 <= i < |r| ==> r[i] == (if encoded[i] == '-' then '/' else encoded[i])
  {
    if StartsWith(encoded, "-") then "/" + ReplaceChar(encoded[1..], '-', '/') else encoded
  }

  /** The corrected decoder restores the leading '/' of a segmented directory name. */
  lemma DecodeJoinedFixed(parts: seq<string>)
    requires forall i :: 0 <= i < |parts| ==> !ContainsChar(parts[i], '-')
    ensures DecodeProjectPathFixed("-" + Join(parts, "-")) == "/" + Join(parts, "/")
  {
    var e := "-" + Join(parts, "-");
    assert StartsWith(e, "-") && e[1..] == Join(parts, "-");
    ReplaceCharJoin(parts, '-', '/');
  }

  /** The corrected decoder meets the test's expectation on the test's input. */
  lemma DecodeExampleFixed(input: string)
    requires input == "-Users-huutri-code-ccmate"
    ensures DecodeProjectPathFixed(input) == "/Users/huutri/code/ccmate"
  {
    TestInputSegments(input);
    TestPathSegments();
    DecodeJoinedFixed(["Users", "huutri", "code", "ccmate"]);
  }

  /** Decoding undoes encoding for absolute paths without '-'. */
  lemma {:induction false} DecodeEncode(path: string)
    requires StartsWith(path, "/") && !ContainsChar(path, '-')
    ensures DecodeProjectPathFixed(EncodeProjectPath(path)) == path
  {
    var e := EncodeProjectPath(path);
    assert path[0] == path[..1][0] == '/';
    assert e[0] == '-';
    assert StartsWith(e, "-");
    var r := DecodeProjectPathFixed(e);
    forall i | 0 <= i < |r|
      ensures r[i] == path[i]
    {
      assert path[i] != '-';
      assert r[i] == (if e[i] == '-' then '/' else e[i]);
    }
  }

  /** Even the intended decoder cannot tell a '-' inside a directory name from a separator. */
  lemma HyphenLost()
    ensures DecodeProjectPathFixed(EncodeProjectPath("/a-b")) == "/a/b"
  {
    var e := EncodeProjectPath("/a-b");
    assert e[0] == '-' && e[1] == 'a' && e[2] == '-' && e[3] == 'b';
    assert StartsWith(e, "-");
    var d := DecodeProjectPathFixed(e);
    assert |d| == 4;
    assert d[0] == '/' && d[1] == 'a' && d[2] == '/' && d[3] == 'b';
  }

  /** The project's session directory: the whole encoded path is one directory name. */
  function ProjectSessionsDir(home: Option<string>, projectPath: string): (r: Result<string>)
    ensures home.None? ==> r == Failure("Could not find home directory")
    ensures home.Some? ==>
              r.Success? && r.value == home.value + "/.claude/projects/" + EncodeProjectPath(projectPath)
  {
    if home.None? then Failure("Could not find home directory")
    else Success(home.value + "/.claude/projects/" + EncodeProjectPath(projectPath))
  }

  /** The index of the last occurrence of `c`, if any. */
  function LastIndexOf(s: string, c: char): (r: Option<nat>)
    ensures r.Some? ==> r.value < |s| && s[r.value] == c &&
                        forall j :: r.value < j < |s| ==> s[j] != c
    ensures r.None? ==> !ContainsChar(s, c)
  {
    if s == [] then None
    else if s[|s| - 1] == c then Some(|s| - 1)
    else LastIndexOf(s[..|s| - 1], c)
  }

  /**
   * Rust's split of a file name at its last dot: ".." and names whose only
   * dot is the first character have no extension.
   */
  function FileStem(name: string): (r: string)
    ensures |r| <= |name|
  {
    var dot := LastIndexOf(name, '.');
    if name == ".." || dot.None? || dot.value == 0 then name else name[..dot.value]
  }

  function Extension(name: string): (r: Option<string>)
    ensures r.Some? ==> 0 < |FileStem(name)| && |FileStem(name)| + 1 + |r.value| == |name| &&
                        name == FileStem(name) + "." + r.value &&
                        !ContainsChar(r.value, '.')
    ensures r.None? ==> FileStem(name) == name
  {
    var dot := LastIndexOf(name, '.');
    if name == ".." || dot.None? || dot.value == 0 then None
    else
      var ext := name[dot.value + 1..];
      assert name == name[..dot.value] + "." + ext;
      assert forall j :: 0 <= j < |ext| ==> ext[j] == name[dot.value + 1 + j];
      Some(ext)
  }

  lemma {:induction false} LastIndexOfIs(s: string, c: char, k: nat)
    requires k < |s| && s[k] == c && forall j :: k < j < |s| ==> s[j] != c
    ensures LastIndexOf(s, c) == Some(k)
  {
    if k < |s| - 1 {
      LastIndexOfIs(s[..|s| - 1], c, k);
    }
  }

  /** A name built as stem + "." + ext, with a non-empty stem and no dot in ext, splits back into the two. */
  lemma SplitName(stem: string, ext: string)
    requires stem != [] && !ContainsChar(ext, '.') && stem + "." + ext != ".."
    ensures FileStem(stem + "." + ext) == stem && Extension(stem + "." + ext) == Some(ext)
  {
    var name := stem + "." + ext;
    LastIndexOfIs(name, '.', |stem|);
    assert name[..|stem|] == stem;
    assert name[|stem| + 1..] == ext;
  }

  /** A name has extension "jsonl" exactly when it ends in ".jsonl" after a non-empty stem. */
  lemma JsonlExtension(name: string)
    ensures Extension(name) == Some("jsonl") <==> EndsWith(name, ".jsonl") && |name| > 6
  {
    if EndsWith(name, ".jsonl") && |name| > 6 {
      var k := |name| - 6;
      assert name[k..] == ".jsonl";
      assert name[k] == '.';
      forall j | k < j < |name|
        ensures name[j] != '.'
      {
        assert name[j] == name[k..][j - k];
      }
      LastIndexOfIs(name, '.', k);
      assert name[k + 1..] == name[k..][1..];
    }
    if Extension(name) == Some("jsonl") {
      var stem := FileStem(name);
      assert name == stem + "." + "jsonl";
      assert name[|name| - 6..] == "." + "jsonl";
    }
  }

  /** A directory entry: its file name and its modification time, if the metadata could be read. */
  datatype Entry = Entry(name: string, modified: Option<nat>)

  /** What reading the project's session directory yields. */
  datatype Listing = Missing | Unreadable | Entries(entries: seq<Entry>)

  /** `.jsonl` files whose stem does not start with "agent-". */
  predicate IsSessionFile(name: string) {
    Extension(name) == Some("jsonl") && !StartsWith(FileStem(name), "agent-")
  }

  function SessionFiles(entries: seq<Entry>): (r: seq<Entry>)
    ensures |r| <= |entries|
    ensures forall e :: e in r <==> e in entries && IsSessionFile(e.name)
  {
    if entries == [] then []
    else
      var rest := SessionFiles(entries[1..]);
      assert forall e :: e in entries <==> e == entries[0] || e in entries[1..];
      if IsSessionFile(entries[0].name) then [entries[0]] + rest else rest
  }

  /** Unreadable metadata sorts after every readable time, as `None < Some(_)` does. */
  function ModifiedKey(e: Entry): int {
    if e.modified.Some? then e.modified.value else -1
  }

  lemma SessionFilesStep(entries: seq<Entry>, i: nat)
    requires i < |entries|
    ensures SessionFiles(entries[i..]) ==
              (if IsSessionFile(entries[i].name) then [entries[i]] else []) + SessionFiles(entries[i + 1..])
  {
    assert entries[i..][1..] == entries[i + 1..];
  }

  /** One turn of the filtering loop keeps what is found plus what remains. */
  lemma CollectStep(found: seq<Entry>, entries: seq<Entry>, i: nat)
    requires i < |entries|
    ensures found + SessionFiles(entries[i..]) ==
              (if IsSessionFile(entries[i].name) then found + [entries[i]] else found) + SessionFiles(entries[i + 1..])
  {
    SessionFilesStep(entries, i);
    if IsSessionFile(entries[i].name) {
      assert found + ([entries[i]] + SessionFiles(entries[i + 1..])) ==
             (found + [entries[i]]) + SessionFiles(entries[i + 1..]);
    } else {
      assert [] + SessionFiles(entries[i + 1..]) == SessionFiles(entries[i + 1..]);
    }
  }

  /** The filtering loop of `list_session_files`. */
  method CollectSessionFiles(entries: seq<Entry>) returns (found: seq<Entry>)
    ensures found == SessionFiles(entries)
  {
    found := [];
    var i := 0;
    while i < |entries|
      invariant 0 <= i <= |entries|
      invariant found + SessionFiles(entries[i..]) == SessionFiles(entries)
    {
      CollectStep(found, entries, i);
      if IsSessionFile(entries[i].name) {
        found := found + [entries[i]];
      }
      i := i + 1;
    }
  }

  /**
   * `list_session_files`: a missing directory gives no files; otherwise the
   * session files, newest first.
   */
  method ListSessionFiles(listing: Listing) returns (r: Result<seq<Entry>>)
    ensures listing.Missing? ==> r == Success([])
    ensures listing.Unreadable? ==> r == Failure("Failed to read sessions directory: ")
    ensures listing.Entries? ==> r == Success(SortDesc(SessionFiles(listing.entries), ModifiedKey))
  {
    match listing
    case Missing =>
      r := Success([]);
    case Unreadable =>
      r := Failure("Failed to read sessions directory: ");
    case Entries(entries) =>
      var found := CollectSessionFiles(entries);
      r := Success(SortDesc(found, ModifiedKey));
  }

  /** The listed files are exactly the session files, each as often as listed, newest first. */
  lemma ListedFilesAreSessions(entries: seq<Entry>)
    ensures var r := SortDesc(SessionFiles(entries), ModifiedKey);
            SortedDesc(r, ModifiedKey) &&
            (forall e :: e in r <==> e in entries && IsSessionFile(e.name)) &&
            multiset(r) == multiset(SessionFiles(entries))
  {
    SortDescCorrect(SessionFiles(entries), ModifiedKey);
    var r := SortDesc(SessionFiles(entries), ModifiedKey);
    forall e
      ensures e in r <==> e in SessionFiles(entries)
    {
      assert e in r <==> e in multiset(r);
      assert e in SessionFiles(entries) <==> e in multiset(SessionFiles(entries));
    }
  }

  /**
   * `extract_session_id`: the file stem. A path with no file name, one that
   * is empty or ends in "." or "..", has no stem and so no id.
   */
  function ExtractSessionId(name: string): (r: Option<string>)
    ensures r.None? <==> name == "" || name == "." || name == ".."
    ensures r.Some? ==> r.value != "" && StartsWith(name, r.value)
    ensures r.Some? && Extension(name) == Some("jsonl") ==> name == r.value + ".jsonl"
  {
    if name == "" || name == "." || name == ".." then None else Some(FileStem(name))
  }
}

=== FILE: hooks.dfy ===
/**
 * commands.rs, Claude Code hooks: the app installs a hook, tagged with the
 * key "__ccfoundation__", under the Notification, Stop and PreToolUse events
 * of `~/.claude/settings.json`, keeps its command current, and removes it.
 *
 * settings.json holds `hooks: { <event>: [ { hooks: [ <hook>, ... ], ... }, ... ] }`.
 * The loops over hooks and entries inside one event are stated as functions
 * over sequences; the loop over the events is a method.
 */
module Hooks {
  import opened Wrappers
  import opened Json
  import opened ConfigStores

  const Marker := "__ccfoundation__"

  const UnixCommand := "curl -s -X POST http://localhost:59948/claude_code/hooks -H 'Content-Type: application/json' --data-binary @- 2>/dev/null || echo"

  const WindowsCommand := "powershell -Command \"try { Invoke-RestMethod -Uri http://localhost:59948/claude_code/hooks -Method POST -ContentType 'application/json' -Body $input -ErrorAction Stop } catch { '' }\""

  const Events := ["Notification", "Stop", "PreToolUse"]

  /** `get_latest_hook_command`, for the platform the app was built for. */
  function LatestHook(windows: bool): (r: Json)
    ensures IsMarker(r)
    ensures GetStr(r, "command") == Some(if windows then WindowsCommand else UnixCommand)
    ensures GetStr(r, "type") == Some("command")
  {
    JObj(map[Marker := JBool(true), "type" := JStr("command"),
             "command" := JStr(if windows then WindowsCommand else UnixCommand)])
  }

  /** A hook is the app's when it has the marker key, whatever its value. */
  predicate IsMarker(hook: Json) {
    Get(hook, Marker).Some?
  }

  /** The `hooks` array of an entry, if it has one. */
  function EntryHooks(entry: Json): (r: Option<seq<Json>>)
    ensures r.Some? ==> entry.JObj? && "hooks" in entry.fields && entry.fields["hooks"] == JArr(r.value)
  {
    match Get(entry, "hooks")
    case Some(JArr(hs)) => Some(hs)
    case _ => None
  }

  function SetHooks(entry: Json, hooks: seq<Json>): (r: Json)
    requires entry.JObj?
    ensures EntryHooks(r) == Some(hooks)
  {
    JObj(entry.fields["hooks" := JArr(hooks)])
  }

  // ---------------------------------------------------------------------------
  // update_existing_hooks: only the command of the app's hooks is rewritten

  /** A hook of the app's whose string command is not the current one. */
  predicate Stale(hook: Json, command: string) {
    IsMarker(hook) && GetStr(hook, "command").Some? && GetStr(hook, "command").value != command
  }

  function RefreshHook(hook: Json, command: string): (r: Json)
    ensures !Stale(hook, command) ==> r == hook
    ensures Stale(hook, command) ==>
              r.JObj? && r.fields.Keys == hook.fields.Keys && GetStr(r, "command") == Some(command) &&
              forall k :: k in hook.fields && k != "command" ==> r.fields[k] == hook.fields[k]
  {
    if Stale(hook, command) then JObj(hook.fields["command" := JStr(command)]) else hook
  }

  predicate EntryStale(entry: Json, command: string) {
    EntryHooks(entry).Some? &&
    exists k :: 0 <= k < |EntryHooks(entry).value| && Stale(EntryHooks(entry).value[k], command)
  }

  function RefreshEntry(entry: Json, command: string): (r: Json)
    ensures EntryHooks(entry).None? ==> r == entry
    ensures EntryHooks(entry).Some? ==>
              EntryHooks(r).Some? && |EntryHooks(r).value| == |EntryHooks(entry).value| &&
              forall k :: 0 <= k < |EntryHooks(entry).value| ==>
                EntryHooks(r).value[k] == RefreshHook(EntryHooks(entry).value[k], command)
    ensures !EntryStale(entry, command) ==> r == entry
  {
    match EntryHooks(entry)
    case None => entry
    case Some(hs) =>
      var refreshed := seq(|hs|, k requires 0 <= k < |hs| => RefreshHook(hs[k], command));
      if !EntryStale(entry, command) then
        assert refreshed == hs;
        assert SetHooks(entry, hs) == entry by {
          assert entry.fields["hooks" := JArr(hs)] == entry.fields;
        }
        SetHooks(entry, refreshed)
      else SetHooks(entry, refreshed)
  }

  /** One event of `update_existing_hooks`: the new hooks object and whether a command changed. */
  function RefreshEvent(hooks: map<string, Json>, event: string, command: string): (r: (map<string, Json>, bool))
    ensures r.0.Keys == hooks.Keys
    ensures forall k :: k in hooks && k != event ==> r.0[k] == hooks[k]
    ensures !r.1 ==> r.0 == hooks
    ensures event in hooks && hooks[event].JArr? ==>
              r.0[event].JArr? && |r.0[event].items| == |hooks[event].items| &&
              forall i :: 0 <= i < |hooks[event].items| ==>
                r.0[event].items[i] == RefreshEntry(hooks[event].items[i], command)
    ensures !(event in hooks && hooks[event].JArr?) ==> r == (hooks, false)
  {
    if event in hooks && hooks[event].JArr? then
      var entries := hooks[event].items;
      var refreshed := seq(|entries|, i requires 0 <= i < |entries| => RefreshEntry(entries[i], command));
      var stale := exists i :: 0 <= i < |entries| && EntryStale(entries[i], command);
      if !stale then
        assert refreshed == entries;
        assert hooks[event := JArr(refreshed)] == hooks;
        (hooks[event := JArr(refreshed)], false)
      else (hooks[event := JArr(refreshed)], true)
    else (hooks, false)
  }

  /** `update_existing_hooks` over a list of events. */
  function UpdateExisting(hooks: map<string, Json>, events: seq<string>, command: string): (r: (map<string, Json>, bool))
  {
    if events == [] then (hooks, false)
    else
      var (before, changed) := UpdateExisting(hooks, events[..|events| - 1], command);
      var (after, changedNow) := RefreshEvent(before, events[|events| - 1], command);
      (after, changed || changedNow)
  }

  /**
   * Nothing is added or removed: the same events, and each event array keeps
   * its length; when no command was stale the hooks are untouched.
   */
  lemma {:induction false} UpdateExistingNeverAdds(hooks: map<string, Json>, events: seq<string>, command: string)
    ensures var (r, changed) := UpdateExisting(hooks, events, command);
            && r.Keys == hooks.Keys
            && (forall k :: k in hooks && hooks[k].JArr? ==> r[k].JArr? && |r[k].items| == |hooks[k].items|)
            && (forall k :: k in hooks && !hooks[k].JArr? ==> r[k] == hooks[k])
            && (!changed ==> r == hooks)
  {
    if events != [] {
      UpdateExistingNeverAdds(hooks, events[..|events| - 1], command);
    }
  }

  /** The event loop of `update_existing_hooks`. */
  method UpdateExistingHooks(hooks: map<string, Json>, events: seq<string>, command: string)
    returns (newHooks: map<string, Json>, updated: bool)
    ensures (newHooks, updated) == UpdateExisting(hooks, events, command)
  {
    newHooks := hooks;
    updated := false;
    for i := 0 to |events|
      invariant (newHooks, updated) == UpdateExisting(hooks, events[..i], command)
    {
      assert events[..i + 1][..i] == events[..i];
      var (next, changed) := RefreshEvent(newHooks, events[i], command);
      newHooks := next;
      updated := updated || changed;
    }
    assert events[..|events|] == events;
  }

  // ---------------------------------------------------------------------------
  // update_or_add_hooks: the app's hooks are replaced by the latest, and added where missing

  function ReplaceHook(hook: Json, latest: Json): (r: Json)
    ensures r == hook || r == latest
    ensures !IsMarker(hook) ==> r == hook
  {
    if IsMarker(hook) && Get(hook, "command") != Get(latest, "command") then latest else hook
  }

  /** After replacement, every hook of the app's carries the latest command. */
  lemma ReplacedIsCurrent(hook: Json, latest: Json)
    requires IsMarker(latest)
    ensures IsMarker(ReplaceHook(hook, latest)) ==> Get(ReplaceHook(hook, latest), "command") == Get(latest, "command")
  {
  }

  function ReplaceEntry(entry: Json, latest: Json): (r: Json)
    ensures EntryHooks(entry).None? ==> r == entry
    ensures EntryHooks(entry).Some? ==>
              EntryHooks(r).Some? && |EntryHooks(r).value| == |EntryHooks(entry).value| &&
              forall k :: 0 <= k < |EntryHooks(entry).value| ==>
                EntryHooks(r).value[k] == ReplaceHook(EntryHooks(entry).value[k], latest)
  {
    match EntryHooks(entry)
    case None => entry
    case Some(hs) => SetHooks(entry, seq(|hs|, k requires 0 <= k < |hs| => ReplaceHook(hs[k], latest)))
  }

  predicate EntryHasMarker(entry: Json) {
    EntryHooks(entry).Some? && exists k :: 0 <= k < |EntryHooks(entry).value| && IsMarker(EntryHooks(entry).value[k])
  }

  function NewEntry(latest: Json): (r: Json)
    ensures EntryHooks(r) == Some([latest])
  {
    JObj(map["hooks" := JArr([latest])])
  }

  /** Every entry of an event with the app's hooks in it brought up to date. */
  function ReplaceEntries(entries: seq<Json>, latest: Json): (r: seq<Json>)
    ensures |r| == |entries| && forall i :: 0 <= i < |entries| ==> r[i] == ReplaceEntry(entries[i], latest)
  {
    seq(|entries|, i requires 0 <= i < |entries| => ReplaceEntry(entries[i], latest))
  }

  /** One event of `update_or_add_hooks`. A value that is not an array is replaced by a new one. */
  function AddEvent(hooks: map<string, Json>, event: string, latest: Json): (r: map<string, Json>)
    ensures r.Keys == hooks.Keys + {event}
    ensures forall k :: k in hooks && k != event ==> r[k] == hooks[k]
    ensures r[event].JArr?
  {
    if event in hooks && hooks[event].JArr? then
      var replaced := ReplaceEntries(hooks[event].items, latest);
      if exists i :: 0 <= i < |replaced| && EntryHasMarker(replaced[i]) then hooks[event := JArr(replaced)]
      else hooks[event := JArr(replaced + [NewEntry(latest)])]
    else hooks[event := JArr([NewEntry(latest)])]
  }

  /** The event holds an entry with a hook of the app's that carries the latest command. */
  predicate Installed(hooks: map<string, Json>, event: string, latest: Json) {
    event in hooks && hooks[event].JArr? &&
    exists i :: 0 <= i < |hooks[event].items| && EntryHooks(hooks[event].items[i]).Some? &&
      exists k :: 0 <= k < |EntryHooks(hooks[event].items[i]).value| &&
        IsMarker(EntryHooks(hooks[event].items[i]).value[k]) &&
        Get(EntryHooks(hooks[event].items[i]).value[k], "command") == Get(latest, "command")
  }

  /** A witness entry and hook make the event installed. */
  lemma InstalledAt(hooks: map<string, Json>, event: string, latest: Json, i: nat, k: nat)
    requires event in hooks && hooks[event].JArr? && i < |hooks[event].items|
    requires EntryHooks(hooks[event].items[i]).Some? && k < |EntryHooks(hooks[event].items[i]).value|
    requires IsMarker(EntryHooks(hooks[event].items[i]).value[k])
    requires Get(EntryHooks(hooks[event].items[i]).value[k], "command") == Get(latest, "command")
    ensures Installed(hooks, event, latest)
  {
  }

  /** When some entry already holds a hook of the app's, that entry now carries the latest command. */
  lemma ReplacedInstalls(hooks: map<string, Json>, event: string, entries: seq<Json>, latest: Json)
    requires IsMarker(latest)
    requires exists i :: 0 <= i < |ReplaceEntries(entries, latest)| && EntryHasMarker(ReplaceEntries(entries, latest)[i])
    ensures Installed(hooks[event := JArr(ReplaceEntries(entries, latest))], event, latest)
  {
    var replaced := ReplaceEntries(entries, latest);
    var i :| 0 <= i < |replaced| && EntryHasMarker(replaced[i]);
    var hs := EntryHooks(replaced[i]).value;
    var k :| 0 <= k < |hs| && IsMarker(hs[k]);
    assert hs[k] == ReplaceHook(EntryHooks(entries[i]).value[k], latest);
    ReplacedIsCurrent(EntryHooks(entries[i]).value[k], latest);
    InstalledAt(hooks[event := JArr(replaced)], event, latest, i, k);
  }

  /** A new entry holding only the latest hook installs it. */
  lemma NewEntryInstalls(hooks: map<string, Json>, event: string, entries: seq<Json>, latest: Json)
    requires IsMarker(latest)
    ensures Installed(hooks[event := JArr(entries + [NewEntry(latest)])], event, latest)
  {
    var r := hooks[event := JArr(entries + [NewEntry(latest)])];
    assert r[event].items[|entries|] == NewEntry(latest);
    InstalledAt(r, event, latest, |entries|, 0);
  }

  lemma AddEventInstalls(hooks: map<string, Json>, event: string, latest: Json)
    requires IsMarker(latest)
    ensures Installed(AddEvent(hooks, event, latest), event, latest)
  {
    if event in hooks && hooks[event].JArr? {
      var replaced := ReplaceEntries(hooks[event].items, latest);
      if exists i :: 0 <= i < |replaced| && EntryHasMarker(replaced[i]) {
        ReplacedInstalls(hooks, event, hooks[event].items, latest);
      } else {
        NewEntryInstalls(hooks, event, replaced, latest);
      }
    } else {
      NewEntryInstalls(hooks, event, [], latest);
    }
  }

  /** `update_or_add_hooks` over a list of events. */
  function AddAll(hooks: map<string, Json>, events: seq<string>, latest: Json): map<string, Json> {
    if events == [] then hooks
    else AddEvent(AddAll(hooks, events[..|events| - 1], latest), events[|events| - 1], latest)
  }

  /** Afterwards every listed event holds a current hook of the app's. */
  lemma {:induction false} AddAllInstalls(hooks: map<string, Json>, events: seq<string>, latest: Json)
    requires IsMarker(latest)
    ensures forall e :: e in events ==> Installed(AddAll(hooks, events, latest), e, latest)
  {
    if events != [] {
      var init := events[..|events| - 1];
      var last := events[|events| - 1];
      var before := AddAll(hooks, init, latest);
      AddAllInstalls(hooks, init, latest);
      AddEventInstalls(before, last, latest);
      forall e | e in events
        ensures Installed(AddAll(hooks, events, latest), e, latest)
      {
        if e != last {
          assert e in init by {
            var j :| 0 <= j < |events| && events[j] == e;
            assert init[j] == e;
          }
          assert AddAll(hooks, events, latest)[e] == before[e];
        }
      }
    }
  }

  /** The event loop of `update_or_add_hooks`. */
  method UpdateOrAddHooks(hooks: map<string, Json>, events: seq<string>, latest: Json)
    returns (newHooks: map<string, Json>)
    ensures newHooks == AddAll(hooks, events, latest)
  {
    newHooks := hooks;
    for i := 0 to |events|
      invariant newHooks == AddAll(hooks, events[..i], latest)
    {
      assert events[..i + 1][..i] == events[..i];
      newHooks := AddEvent(newHooks, events[i], latest);
    }
    assert events[..|events|] == events;
  }

  // ---------------------------------------------------------------------------
  // remove_claude_code_hook

  function WithoutMarkers(hs: seq<Json>): (r: seq<Json>)
    ensures |r| <= |hs|
    ensures forall h :: h in r <==> h in hs && !IsMarker(h)
  {
    if hs == [] then []
    else
      assert forall h :: h in hs <==> h == hs[0] || h in hs[1..];
      (if IsMarker(hs[0]) then [] else [hs[0]]) + WithoutMarkers(hs[1..])
  }

  /**
   * The entries of one event with the app's hooks taken out: an entry left
   * with no hooks is dropped, an entry without a hooks array is kept.
   */
  function StripEntries(entries: seq<Json>): (r: seq<Json>)
    ensures forall e :: e in entries && EntryHooks(e).None? ==> e in r
    ensures forall e :: e in r && EntryHooks(e).Some? ==>
              EntryHooks(e).value != [] && forall h :: h in EntryHooks(e).value ==> !IsMarker(h)
    ensures forall e :: e in entries && EntryHooks(e).Some? && WithoutMarkers(EntryHooks(e).value) != [] ==>
              SetHooks(e, WithoutMarkers(EntryHooks(e).value)) in r
  {
    if entries == [] then []
    else
      var rest := StripEntries(entries[1..]);
      assert forall e :: e in entries <==> e == entries[0] || e in entries[1..];
      StripOne(entries[0]) + rest
  }

  /** What stripping leaves of one entry. */
  function StripOne(e: Json): seq<Json> {
    match EntryHooks(e)
    case None => [e]
    case Some(hs) =>
      var kept := WithoutMarkers(hs);
      if kept == [] then [] else [SetHooks(e, kept)]
  }

  /** Filtering distributes over concatenation, so the user's hooks keep their order. */
  lemma {:induction false} WithoutMarkersAppend(a: seq<Json>, b: seq<Json>)
    ensures WithoutMarkers(a + b) == WithoutMarkers(a) + WithoutMarkers(b)
  {
    if a == [] {
      assert a + b == b;
    } else {
      assert (a + b)[0] == a[0] && (a + b)[1..] == a[1..] + b;
      WithoutMarkersAppend(a[1..], b);
      var head := if IsMarker(a[0]) then [] else [a[0]];
      assert head + (WithoutMarkers(a[1..]) + WithoutMarkers(b)) == (head + WithoutMarkers(a[1..])) + WithoutMarkers(b);
    }
  }

  /** Stripping distributes over concatenation, so the surviving entries keep their order. */
  lemma {:induction false} StripEntriesAppend(a: seq<Json>, b: seq<Json>)
    ensures StripEntries(a + b) == StripEntries(a) + StripEntries(b)
  {
    if a == [] {
      assert a + b == b;
    } else {
      assert (a + b)[0] == a[0] && (a + b)[1..] == a[1..] + b;
      StripEntriesAppend(a[1..], b);
      var head := StripOne(a[0]);
      assert head + (StripEntries(a[1..]) + StripEntries(b)) == (head + StripEntries(a[1..])) + StripEntries(b);
    }
  }

  /** One event: strip it, and drop it when nothing is left. */
  function RemoveEvent(hooks: map<string, Json>, event: string): (r: map<string, Json>)
    ensures r.Keys <= hooks.Keys
    ensures forall k :: k in hooks && k != event ==> k in r && r[k] == hooks[k]
    ensures !(event in hooks && hooks[event].JArr?) ==> r == hooks
    ensures event in r && hooks[event].JArr? ==> r[event] == JArr(StripEntries(hooks[event].items)) && r[event].items != []
    ensures event in hooks && hooks[event].JArr? ==> (event in r <==> StripEntries(hooks[event].items) != [])
  {
    if event in hooks && hooks[event].JArr? then
      var stripped := StripEntries(hooks[event].items);
      if stripped == [] then hooks - {event} else hooks[event := JArr(stripped)]
    else hooks
  }

  function RemoveAll(hooks: map<string, Json>, events: seq<string>): map<string, Json> {
    if events == [] then hooks else RemoveEvent(RemoveAll(hooks, events[..|events| - 1]), events[|events| - 1])
  }

  /** No hook of the app's is left in an event array, and no event array is left empty. */
  predicate Clean(hooks: map<string, Json>, event: string) {
    event in hooks && hooks[event].JArr? ==>
      hooks[event].items != [] &&
      forall e :: e in hooks[event].items && EntryHooks(e).Some? ==>
        forall h :: h in EntryHooks(e).value ==> !IsMarker(h)
  }

  lemma {:induction false} RemoveAllCleans(hooks: map<string, Json>, events: seq<string>)
    ensures forall e :: e in events ==> Clean(RemoveAll(hooks, events), e)
    ensures RemoveAll(hooks, events).Keys <= hooks.Keys
  {
    if events != [] {
      var init := events[..|events| - 1];
      var last := events[|events| - 1];
      var before := RemoveAll(hooks, init);
      RemoveAllCleans(hooks, init);
      var after := RemoveEvent(before, last);
      forall e | e in events
        ensures Clean(after, e)
      {
        if e != last {
          assert e in init by {
            var j :| 0 <= j < |events| && events[j] == e;
            assert init[j] == e;
          }
          assert Clean(before, e);
        }
      }
    }
  }

  /** Removal over a list of distinct events leaves every other key alone. */
  lemma {:induction false} RemoveAllElsewhere(hooks: map<string, Json>, events: seq<string>, k: string)
    requires k !in events
    ensures k in RemoveAll(hooks, events) <==> k in hooks
    ensures k in hooks ==> RemoveAll(hooks, events)[k] == hooks[k]
  {
    if events != [] {
      var init := events[..|events| - 1];
      assert forall x :: x in init ==> x in events;
      RemoveAllElsewhere(hooks, init, k);
    }
  }

  /**
   * What stripping an event keeps is still there after removal over a list
   * of distinct events: the user's own hooks, and entries without a hooks
   * array, survive.
   */
  lemma {:induction false} RemoveAllKeeps(hooks: map<string, Json>, events: seq<string>, event: string, e: Json)
    requires forall i, j :: 0 <= i < j < |events| ==> events[i] != events[j]
    requires event in events && event in hooks && hooks[event].JArr?
    requires e in StripEntries(hooks[event].items)
    ensures var r := RemoveAll(hooks, events);
            event in r && r[event] == JArr(StripEntries(hooks[event].items)) && e in r[event].items
  {
    var init := events[..|events| - 1];
    var last := events[|events| - 1];
    var before := RemoveAll(hooks, init);
    if last == event {
      forall j | 0 <= j < |init|
        ensures init[j] != event
      {
        assert init[j] == events[j];
      }
      RemoveAllElsewhere(hooks, init, event);
    } else {
      assert event in init by {
        var j :| 0 <= j < |events| && events[j] == event;
        assert init[j] == event;
      }
      RemoveAllKeeps(hooks, init, event, e);
    }
  }

  /**
   * The settings after removal: when `hooks` is an object its three events
   * are stripped, and a `hooks` object left empty is removed.
   */
  function RemoveHooks(settings: Json): (r: Json)
    ensures !(Get(settings, "hooks").Some? && Get(settings, "hooks").value.JObj?) ==> r == settings
    ensures Get(settings, "hooks").Some? && Get(settings, "hooks").value.JObj? ==>
              var cleaned := RemoveAll(settings.fields["hooks"].fields, Events);
              r.JObj? &&
              (cleaned == map[] ==> r == JObj(settings.fields - {"hooks"})) &&
              (cleaned != map[] ==> r == JObj(settings.fields["hooks" := JObj(cleaned)]))
  {
    match Get(settings, "hooks")
    case Some(JObj(h)) =>
      var cleaned := RemoveAll(h, Events);
      if cleaned == map[] then JObj(settings.fields - {"hooks"}) else JObj(settings.fields["hooks" := JObj(cleaned)])
    case _ => settings
  }

  /** After removal, none of the three events holds a hook of the app's or an empty array. */
  lemma RemovedEverywhere(settings: Json)
    ensures var r := RemoveHooks(settings);
            Get(settings, "hooks").Some? && Get(settings, "hooks").value.JObj? ==>
              (Get(r, "hooks").None? || (Get(r, "hooks").value.JObj? && Get(r, "hooks").value.fields != map[])) &&
              (Get(r, "hooks").Some? ==> forall e :: e in Events ==> Clean(Get(r, "hooks").value.fields, e))
  {
    if Get(settings, "hooks").Some? && Get(settings, "hooks").value.JObj? {
      RemoveAllCleans(settings.fields["hooks"].fields, Events);
    }
  }

  /**
   * The other half of removal: in each of the three events, an entry that
   * still holds a hook of the user's survives with exactly those hooks, and
   * an entry without a hooks array survives as it was.
   */
  lemma UserHooksKept(settings: Json, event: string, e: Json)
    requires Get(settings, "hooks").Some? && Get(settings, "hooks").value.JObj?
    requires event in Events
    requires var hooks := settings.fields["hooks"].fields;
             event in hooks && hooks[event].JArr? && e in hooks[event].items
    requires EntryHooks(e).Some? ==> WithoutMarkers(EntryHooks(e).value) != []
    ensures var r := RemoveHooks(settings);
            var kept := if EntryHooks(e).Some? then SetHooks(e, WithoutMarkers(EntryHooks(e).value)) else e;
            Get(r, "hooks").Some? && Get(r, "hooks").value.JObj? && event in Get(r, "hooks").value.fields &&
            Get(r, "hooks").value.fields[event].JArr? && kept in Get(r, "hooks").value.fields[event].items
  {
    var hooks := settings.fields["hooks"].fields;
    assert e in hooks[event].items;
    var kept := if EntryHooks(e).Some? then SetHooks(e, WithoutMarkers(EntryHooks(e).value)) else e;
    assert kept in StripEntries(hooks[event].items);
    RemoveAllKeeps(hooks, Events, event, kept);
  }

  // ---------------------------------------------------------------------------
  // The three commands on settings.json

  /** What `unwrap` on a non-object settings value or `hooks` value would do: abort the command. */
  const Panic := "panic"

  /** The `hooks` object of the settings, created empty when absent. */
  function HooksOf(settings: Json): (r: Result<map<string, Json>>)
    ensures r.Success? <==> settings.JObj? && (Get(settings, "hooks").None? || Get(settings, "hooks").value.JObj?)
    ensures r.Success? && Get(settings, "hooks").None? ==> r.value == map[]
    ensures r.Success? && Get(settings, "hooks").Some? ==> r.value == settings.fields["hooks"].fields
  {
    if !settings.JObj? then Failure(Panic)
    else if "hooks" !in settings.fields then Success(map[])
    else if settings.fields["hooks"].JObj? then Success(settings.fields["hooks"].fields)
    else Failure(Panic)
  }

  function ReadSettings(doc: Doc<Json>): (r: Result<Json>)
    ensures doc.Missing? ==> r == Success(JObj(map[]))
    ensures doc.Present? ==> r == Success(doc.value)
    ensures r.Failure? <==> doc.Unreadable? || doc.Unparsable?
  {
    match doc
    case Missing => Success(JObj(map[]))
    case Unreadable => Failure("Failed to read settings.json: ")
    case Unparsable => Failure("Failed to parse settings.json: ")
    case Present(v) => Success(v)
  }

  /** `add_claude_code_hook`: always writes the file back, with the hooks installed. */
  method AddClaudeCodeHook(files: AppFiles, windows: bool) returns (r: Result<()>)
    modifies files
    ensures files.stores == old(files.stores)
    ensures ReadSettings(old(files.settings)).Failure? ==>
              r == Failure(ReadSettings(old(files.settings)).error) && files.settings == old(files.settings)
    ensures ReadSettings(old(files.settings)).Success? ==>
              var settings := ReadSettings(old(files.settings)).value;
              && (HooksOf(settings).Failure? ==> r == Failure(Panic) && files.settings == old(files.settings))
              && (HooksOf(settings).Success? ==>
                    r == Success(()) &&
                    files.settings == Present(JObj(settings.fields["hooks" := JObj(AddAll(HooksOf(settings).value, Events, LatestHook(windows)))])))
  {
    var settings := ReadSettings(files.settings);
    if settings.Failure? {
      return Failure(settings.error);
    }
    var hooks := HooksOf(settings.value);
    if hooks.Failure? {
      return Failure(hooks.error);
    }
    var newHooks := UpdateOrAddHooks(hooks.value, Events, LatestHook(windows));
    files.settings := Present(JObj(settings.value.fields["hooks" := JObj(newHooks)]));
    r := Success(());
  }

  /** Every event of a successful add holds the current hook. */
  lemma AddInstallsAll(settings: Json, windows: bool)
    requires HooksOf(settings).Success?
    ensures var added := AddAll(HooksOf(settings).value, Events, LatestHook(windows));
            forall e :: e in Events ==> Installed(added, e, LatestHook(windows))
  {
    AddAllInstalls(HooksOf(settings).value, Events, LatestHook(windows));
  }

  /**
   * `update_claude_code_hook`: without a settings file, add the hooks;
   * otherwise rewrite stale commands, and write the file only if one changed.
   */
  method UpdateClaudeCodeHook(files: AppFiles, windows: bool) returns (r: Result<()>)
    modifies files
    ensures files.stores == old(files.stores)
    ensures old(files.settings).Missing? ==>
              r == Success(()) &&
              files.settings == Present(JObj(map["hooks" := JObj(AddAll(map[], Events, LatestHook(windows)))]))
    ensures old(files.settings).Unreadable? || old(files.settings).Unparsable? ==>
              r == Failure(ReadSettings(old(files.settings)).error) && files.settings == old(files.settings)
    ensures old(files.settings).Present? ==>
              var settings := old(files.settings).value;
              var command := if windows then WindowsCommand else UnixCommand;
              && (HooksOf(settings).Failure? ==> r == Failure(Panic) && files.settings == old(files.settings))
              && (HooksOf(settings).Success? ==>
                    var (newHooks, updated) := UpdateExisting(HooksOf(settings).value, Events, command);
                    r == Success(()) &&
                    files.settings == if updated then Present(JObj(settings.fields["hooks" := JObj(newHooks)]))
                                      else old(files.settings))
  {
    if files.settings.Missing? {
      r := AddClaudeCodeHook(files, windows);
      return;
    }
    var settings := ReadSettings(files.settings);
    if settings.Failure? {
      return Failure(settings.error);
    }
    var hooks := HooksOf(settings.value);
    if hooks.Failure? {
      return Failure(hooks.error);
    }
    var command := GetStr(LatestHook(windows), "command").value;
    var newHooks, updated := UpdateExistingHooks(hooks.value, Events, command);
    if updated {
      files.settings := Present(JObj(settings.value.fields["hooks" := JObj(newHooks)]));
    }
    r := Success(());
  }

  /** `remove_claude_code_hook`: nothing to do without a settings file; otherwise strip and write back. */
  method RemoveClaudeCodeHook(files: AppFiles) returns (r: Result<()>)
    modifies files
    ensures files.stores == old(files.stores)
    ensures old(files.settings).Missing? ==> r == Success(()) && files.settings == old(files.settings)
    ensures old(files.settings).Unreadable? || old(files.settings).Unparsable? ==>
              r == Failure(ReadSettings(old(files.settings)).error) && files.settings == old(files.settings)
    ensures old(files.settings).Present? ==>
              r == Success(()) && files.settings == Present(RemoveHooks(old(files.settings).value))
  {
    if files.settings.Missing? {
      return Success(());
    }
    var settings := ReadSettings(files.settings);
    if settings.Failure? {
      return Failure(settings.error);
    }
    var hooks := Get(settings.value, "hooks");
    if hooks.Some? && hooks.value.JObj? {
      var cleaned := hooks.value.fields;
      for i := 0 to |Events|
        invariant cleaned == RemoveAll(hooks.value.fields, Events[..i])
      {
        assert Events[..i + 1][..i] == Events[..i];
        cleaned := RemoveEvent(cleaned, Events[i]);
      }
      assert Events[..|Events|] == Events;
      if cleaned == map[] {
        files.settings := Present(JObj(settings.value.fields - {"hooks"}));
      } else {
        files.settings := Present(JObj(settings.value.fields["hooks" := JObj(cleaned)]));
      }
    } else {
      files.settings := Present(settings.value);
    }
    r := Success(());
  }
}

=== FILE: json.dfy ===
/**
 * The JSON values that serde_json produces, and the lines of a JSONL file.
 * Parsing and printing are not modelled: a line carries its text together
 * with the value it parses to, or None when it does not parse.
 */
module Json {
  import opened Wrappers

  datatype Json =
    | JNull
    | JBool(b: bool)
    | JNum(n: int)
    | JStr(s: string)
    | JArr(items: seq<Json>)
    | JObj(fields: map<string, Json>)

  /** `value.get(key)`: a field of an object, None for any other value. */
  function Get(j: Json, key: string): (r: Option<Json>)
    ensures r.Some? <==> j.JObj? && key in j.fields
    ensures r.Some? ==> r.value == j.fields[key]
  {
    if j.JObj? && key in j.fields then Some(j.fields[key]) else None
  }

  /** `value.get(key).and_then(|v| v.as_str())`. */
  function GetStr(j: Json, key: string): (r: Option<string>)
    ensures r.Some? <==> (j.JObj? && key in j.fields && j.fields[key].JStr?)
    ensures r.Some? ==> j.fields[key] == JStr(r.value)
  {
    match Get(j, key)
    case Some(JStr(s)) => Some(s)
    case _ => None
  }

  /** `value.get(k1)?.get(k2)?.as_str()`: a string two objects deep. */
  function GetIn(j: Json, k1: string, k2: string): (r: Option<string>)
    ensures r.Some? ==> Get(j, k1).Some? && GetStr(Get(j, k1).value, k2) == r
    ensures Get(j, k1).Some? ==> r == GetStr(Get(j, k1).value, k2)
  {
    match Get(j, k1)
    case Some(inner) => GetStr(inner, k2)
    case None => None
  }

  /** One line of a JSONL stream or file: its text and what it parses to. */
  datatype Line = Line(text: string, json: Option<Json>)

  predicate IsSpace(c: char) {
    c == ' ' || c == '\t' || c == '\n' || c == '\r' || c == '\U{0B}' || c == '\U{0C}'
  }

  /** `line.trim().is_empty()`. */
  predicate IsBlank(text: string) {
    forall i :: 0 <= i < |text| ==> IsSpace(text[i])
  }
}

=== FILE: migrate.dfy ===
/**
 * sessions/migrate.rs: rewriting old model names in session JSONL files
 * to their full identifiers. JSON printing is a parameter (`serialize`);
 * the alias map is the one model-name normalisation uses.
 */
module Migrate {
  import opened Wrappers
  import opened Json
  import opened Text
  import opened ModelConfig
  import opened ModelNormalize
  import Discovery

  /**
   * The `model` entry of one object, normalised when normalisation changes it.
   * Returns the new fields and whether they changed.
   */
  function MigrateModelField(aliases: map<string, string>, fields: map<string, Json>): (r: (map<string, Json>, bool))
    ensures r.1 <==> "model" in fields && fields["model"].JStr? &&
                     NormalizeModelName(aliases, fields["model"].s) != fields["model"].s
    ensures r.1 ==> r.0 == fields["model" := JStr(NormalizeModelName(aliases, fields["model"].s))]
    ensures !r.1 ==> r.0 == fields
  {
    if "model" in fields && fields["model"].JStr? then
      var current := fields["model"].s;
      var normalized := NormalizeModelName(aliases, current);
      if normalized != current then (fields["model" := JStr(normalized)], true) else (fields, false)
    else (fields, false)
  }

  /** One JSON line: the top-level `model`, then `message.model`. Non-objects are left alone. */
  function MigrateValue(aliases: map<string, string>, j: Json): (r: (Json, bool))
    ensures !j.JObj? ==> r == (j, false)
    ensures j.JObj? ==> r.0.JObj? && r.0.fields.Keys == j.fields.Keys
    ensures j.JObj? ==> forall k :: k in j.fields && k != "model" && k != "message" ==> r.0.fields[k] == j.fields[k]
    ensures r.1 <==> j.JObj? &&
                     (MigrateModelField(aliases, j.fields).1 ||
                      ("message" in j.fields && j.fields["message"].JObj? &&
                       MigrateModelField(aliases, j.fields["message"].fields).1))
  {
    if !j.JObj? then (j, false)
    else
      var (top, changedTop) := MigrateModelField(aliases, j.fields);
      if "message" in top && top["message"].JObj? then
        var (inner, changedInner) := MigrateModelField(aliases, top["message"].fields);
        (JObj(top["message" := JObj(inner)]), changedTop || changedInner)
      else
        (JObj(top), changedTop)
  }

  /** The top-level `model` is replaced exactly when normalising changes it. */
  lemma TopLevelModel(aliases: map<string, string>, fields: map<string, Json>, name: string)
    requires "model" in fields && fields["model"] == JStr(name)
    ensures var r := MigrateValue(aliases, JObj(fields));
            r.0.fields["model"] == JStr(NormalizeModelName(aliases, name)) &&
            (NormalizeModelName(aliases, name) != name ==> r.1)
  {
  }

  /** The nested `message.model` is treated the same way. */
  lemma NestedModel(aliases: map<string, string>, fields: map<string, Json>, inner: map<string, Json>, name: string)
    requires "message" in fields && fields["message"] == JObj(inner)
    requires "model" in inner && inner["model"] == JStr(name)
    ensures var r := MigrateValue(aliases, JObj(fields));
            r.0.fields["message"].JObj? &&
            r.0.fields["message"].fields["model"] == JStr(NormalizeModelName(aliases, name)) &&
            (NormalizeModelName(aliases, name) != name ==> r.1)
  {
  }

  /** A line without string model fields is reported unchanged. */
  lemma NoModelNoChange(aliases: map<string, string>, j: Json)
    requires !(j.JObj? && "model" in j.fields && j.fields["model"].JStr?)
    requires !(j.JObj? && "message" in j.fields && j.fields["message"].JObj? &&
               "model" in j.fields["message"].fields && j.fields["message"].fields["model"].JStr?)
    ensures MigrateValue(aliases, j) == (j, false)
  {
    if j.JObj? {
      assert JObj(j.fields) == j;
      if "message" in j.fields && j.fields["message"].JObj? {
        assert JObj(j.fields["message"].fields) == j.fields["message"];
        assert j.fields["message" := j.fields["message"]] == j.fields;
      }
    }
  }

  /** A field already migrated is not migrated again, when normalising is idempotent. */
  lemma FieldIdempotent(models: seq<ModelInfo>, fields: map<string, Json>)
    requires KeysDisjoint(models)
    ensures var aliases := AliasMap(models);
            !MigrateModelField(aliases, MigrateModelField(aliases, fields).0).1
  {
    if "model" in fields && fields["model"].JStr? {
      Idempotent(models, fields["model"].s);
    }
  }

  /** With no key claimed by two models, migrating an already migrated line changes nothing. */
  lemma MigrationIdempotent(models: seq<ModelInfo>, j: Json)
    requires KeysDisjoint(models)
    ensures var aliases := AliasMap(models);
            !MigrateValue(aliases, MigrateValue(aliases, j).0).1
  {
    var aliases := AliasMap(models);
    if j.JObj? {
      FieldIdempotent(models, j.fields);
      var top := MigrateModelField(aliases, j.fields).0;
      if "message" in top && top["message"].JObj? {
        var inner := MigrateModelField(aliases, top["message"].fields).0;
        FieldIdempotent(models, top["message"].fields);
        var once := top["message" := JObj(inner)];
        assert MigrateValue(aliases, j).0 == JObj(once);
        assert MigrateModelField(aliases, once) == (once, false) by {
          if "model" in top {
            assert once["model"] == top["model"];
          }
        }
        assert once["message"] == JObj(inner);
      }
    }
  }

  /** The output line for one input line, and whether it changed a model name. */
  function MigrateLine(aliases: map<string, string>, serialize: Json -> string, line: Line): (r: (string, bool))
    ensures IsBlank(line.text) || line.json.None? ==> r == (line.text, false)
  {
    if IsBlank(line.text) || line.json.None? then (line.text, false)
    else
      var (j, changed) := MigrateValue(aliases, line.json.value);
      (serialize(j), changed)
  }

  function NewLines(aliases: map<string, string>, serialize: Json -> string, lines: seq<Line>): (r: seq<string>)
    ensures |r| == |lines|
    ensures forall i :: 0 <= i < |lines| ==> r[i] == MigrateLine(aliases, serialize, lines[i]).0
  {
    if lines == [] then []
    else [MigrateLine(aliases, serialize, lines[0]).0] + NewLines(aliases, serialize, lines[1..])
  }

  /** Whether some line of the file had a model name rewritten. */
  function AnyChanged(aliases: map<string, string>, serialize: Json -> string, lines: seq<Line>): bool {
    if lines == [] then false
    else MigrateLine(aliases, serialize, lines[0]).1 || AnyChanged(aliases, serialize, lines[1..])
  }

  lemma {:induction false} AnyChangedMeans(aliases: map<string, string>, serialize: Json -> string, lines: seq<Line>)
    ensures AnyChanged(aliases, serialize, lines) <==>
              exists i :: 0 <= i < |lines| && MigrateLine(aliases, serialize, lines[i]).1
  {
    if lines != [] {
      AnyChangedMeans(aliases, serialize, lines[1..]);
      assert forall i :: 1 <= i < |lines| ==> lines[1..][i - 1] == lines[i];
    }
  }

  /** Migrating one more line appends its output and ors in its flag. */
  lemma LinesSnoc(aliases: map<string, string>, serialize: Json -> string, lines: seq<Line>, i: nat)
    requires i < |lines|
    ensures NewLines(aliases, serialize, lines[..i + 1]) ==
              NewLines(aliases, serialize, lines[..i]) + [MigrateLine(aliases, serialize, lines[i]).0]
    ensures AnyChanged(aliases, serialize, lines[..i + 1]) ==
              (AnyChanged(aliases, serialize, lines[..i]) || MigrateLine(aliases, serialize, lines[i]).1)
  {
    assert lines[..i + 1] == lines[..i] + [lines[i]];
    NewLinesAppend(aliases, serialize, lines[..i], [lines[i]]);
    AnyChangedAppend(aliases, serialize, lines[..i], [lines[i]]);
    assert [lines[i]][1..] == [];
  }

  /** What migrating one file does: whether it reports a change, and what it writes. */
  datatype FileOutcome = FileOutcome(migrated: bool, written: Option<string>)

  /**
   * `migrate_session_file`: every line is kept (blank and non-JSON lines
   * verbatim, JSON lines re-serialised); the file is rewritten, joined
   * with "\n", only when some model name changed.
   */
  method MigrateSessionFile(aliases: map<string, string>, serialize: Json -> string, file: Option<seq<Line>>)
    returns (r: Result<FileOutcome>)
    ensures file.None? ==> r == Failure("Failed to read file: ")
    ensures file.Some? ==> r.Success?
    ensures file.Some? ==> (r.value.migrated <==> AnyChanged(aliases, serialize, file.value))
    ensures file.Some? && r.value.migrated ==> r.value.written == Some(Join(NewLines(aliases, serialize, file.value), "\n"))
    ensures file.Some? && !r.value.migrated ==> r.value.written.None?
  {
    if file.None? {
      return Failure("Failed to read file: ");
    }
    var lines := file.value;
    var modified := false;
    var newLines: seq<string> := [];
    var i := 0;
    while i < |lines|
      invariant 0 <= i <= |lines|
      invariant newLines == NewLines(aliases, serialize, lines[..i])
      invariant modified == AnyChanged(aliases, serialize, lines[..i])
    {
      var line := lines[i];
      LinesSnoc(aliases, serialize, lines, i);
      if IsBlank(line.text) {
        newLines := newLines + [line.text];
      } else if line.json.Some? {
        var (j, changed) := MigrateValue(aliases, line.json.value);
        if changed {
          modified := true;
        }
        newLines := newLines + [serialize(j)];
      } else {
        newLines := newLines + [line.text];
      }
      i := i + 1;
    }
    assert lines[..i] == lines;
    if modified {
      r := Success(FileOutcome(true, Some(Join(newLines, "\n"))));
    } else {
      r := Success(FileOutcome(false, None));
    }
  }

  lemma {:induction false} NewLinesAppend(aliases: map<string, string>, serialize: Json -> string, a: seq<Line>, b: seq<Line>)
    ensures NewLines(aliases, serialize, a + b) == NewLines(aliases, serialize, a) + NewLines(aliases, serialize, b)
  {
    if a == [] {
      assert a + b == b;
    } else {
      assert (a + b)[1..] == a[1..] + b;
      NewLinesAppend(aliases, serialize, a[1..], b);
    }
  }

  lemma {:induction false} AnyChangedAppend(aliases: map<string, string>, serialize: Json -> string, a: seq<Line>, b: seq<Line>)
    ensures AnyChanged(aliases, serialize, a + b) == (AnyChanged(aliases, serialize, a) || AnyChanged(aliases, serialize, b))
  {
    if a == [] {
      assert a + b == b;
    } else {
      assert (a + b)[1..] == a[1..] + b;
      AnyChangedAppend(aliases, serialize, a[1..], b);
    }
  }

  /** Output has one line per input line; blank and unparsable lines are kept verbatim. */
  lemma LinesKept(aliases: map<string, string>, serialize: Json -> string, lines: seq<Line>, i: nat)
    requires i < |lines| && (IsBlank(lines[i].text) || lines[i].json.None?)
    ensures |NewLines(aliases, serialize, lines)| == |lines|
    ensures NewLines(aliases, serialize, lines)[i] == lines[i].text
  {
  }

  /** One directory entry: its file name and the file's lines, None when it cannot be read. */
  datatype DirEntry = DirEntry(name: string, content: Option<seq<Line>>)

  datatype Directory = Absent | Unreadable | Present(entries: seq<DirEntry>)

  /**
   * The files `migrate_session_models` looks at: extension `jsonl` (the
   * name ends in ".jsonl" after a non-empty stem), name not starting with "agent-".
   */
  predicate Candidate(name: string) {
    EndsWith(name, ".jsonl") && |name| > 6 && !StartsWith(name, "agent-")
  }

  /** For `.jsonl` files, testing the file name and testing the stem agree. */
  lemma CandidateIsSessionFile(name: string)
    requires Discovery.Extension(name) == Some("jsonl")
    ensures Candidate(name) <==> Discovery.IsSessionFile(name)
  {
    Discovery.JsonlExtension(name);
    var stem := Discovery.FileStem(name);
    assert name == stem + "." + "jsonl";
    if StartsWith(name, "agent-") {
      // "agent-" holds no dot, so the stem reaches past it
      assert name[..6] == "agent-";
      assert stem[..6] == name[..6];
    }
  }

  /** What the directory loop has produced so far: the count or the error, and the files written. */
  datatype Progress = Progress(result: Result<nat>, writes: seq<(string, string)>)

  /** One entry of the directory loop. A file error stops the loop; earlier rewrites stay written. */
  function Visit(aliases: map<string, string>, serialize: Json -> string, p: Progress, e: DirEntry): (r: Progress)
    ensures p.result.Failure? || !Candidate(e.name) ==> r == p
    ensures p.result.Success? && Candidate(e.name) && e.content.None? ==>
              r == Progress(Failure("Failed to read file: "), p.writes)
  {
    if p.result.Failure? || !Candidate(e.name) then p
    else if e.content.None? then Progress(Failure("Failed to read file: "), p.writes)
    else if AnyChanged(aliases, serialize, e.content.value) then
      Progress(Success(p.result.value + 1),
               p.writes + [(e.name, Join(NewLines(aliases, serialize, e.content.value), "\n"))])
    else p
  }

  function Run(aliases: map<string, string>, serialize: Json -> string, entries: seq<DirEntry>): Progress {
    if entries == [] then Progress(Success(0), [])
    else Visit(aliases, serialize, Run(aliases, serialize, entries[..|entries| - 1]), entries[|entries| - 1])
  }

  /** The entries that get rewritten: changed candidates. */
  predicate Rewritten(aliases: map<string, string>, serialize: Json -> string, e: DirEntry) {
    Candidate(e.name) && e.content.Some? && AnyChanged(aliases, serialize, e.content.value)
  }

  function CountRewritten(aliases: map<string, string>, serialize: Json -> string, entries: seq<DirEntry>): (r: nat)
    ensures r <= |entries|
  {
    if entries == [] then 0
    else CountRewritten(aliases, serialize, entries[..|entries| - 1]) +
         (if Rewritten(aliases, serialize, entries[|entries| - 1]) then 1 else 0)
  }

  /**
   * With every candidate readable, the migration succeeds, its count is the
   * number of changed candidates, and it writes exactly that many files.
   */
  lemma {:induction false} CountsRewrittenFiles(aliases: map<string, string>, serialize: Json -> string,
                                                entries: seq<DirEntry>)
    requires forall i :: 0 <= i < |entries| && Candidate(entries[i].name) ==> entries[i].content.Some?
    ensures Run(aliases, serialize, entries).result == Success(CountRewritten(aliases, serialize, entries))
    ensures |Run(aliases, serialize, entries).writes| == CountRewritten(aliases, serialize, entries)
  {
    if entries != [] {
      var init := entries[..|entries| - 1];
      assert forall i :: 0 <= i < |init| ==> init[i] == entries[i];
      CountsRewrittenFiles(aliases, serialize, init);
      VisitCounts(aliases, serialize, Run(aliases, serialize, init), entries[|entries| - 1]);
    }
  }

  /** A successful visit of a readable (or skipped) entry counts and writes it iff it is rewritten. */
  lemma VisitCounts(aliases: map<string, string>, serialize: Json -> string, p: Progress, e: DirEntry)
    requires p.result.Success? && (Candidate(e.name) ==> e.content.Some?)
    ensures var n := if Rewritten(aliases, serialize, e) then 1 else 0;
            Visit(aliases, serialize, p, e).result == Success(p.result.value + n) &&
            |Visit(aliases, serialize, p, e).writes| == |p.writes| + n
  {
  }

  /** Every file written is a changed candidate, written with its migrated lines. */
  lemma {:induction false} WritesAreRewrites(aliases: map<string, string>, serialize: Json -> string,
                                             entries: seq<DirEntry>)
    ensures forall w :: w in Run(aliases, serialize, entries).writes ==>
              exists i :: 0 <= i < |entries| && entries[i].name == w.0 && Rewritten(aliases, serialize, entries[i]) &&
                          w.1 == Join(NewLines(aliases, serialize, entries[i].content.value), "\n")
  {
    if entries != [] {
      var init := entries[..|entries| - 1];
      WritesAreRewrites(aliases, serialize, init);
      forall w | w in Run(aliases, serialize, entries).writes
        ensures exists i :: 0 <= i < |entries| && entries[i].name == w.0 && Rewritten(aliases, serialize, entries[i]) &&
                            w.1 == Join(NewLines(aliases, serialize, entries[i].content.value), "\n")
      {
        if w in Run(aliases, serialize, init).writes {
          var i :| 0 <= i < |init| && init[i].name == w.0 && Rewritten(aliases, serialize, init[i]) &&
                   w.1 == Join(NewLines(aliases, serialize, init[i].content.value), "\n");
          assert entries[i] == init[i];
        } else {
          assert Rewritten(aliases, serialize, entries[|entries| - 1]);
        }
      }
    }
  }

  /** What visiting a readable candidate does, given the outcome of migrating its file. */
  lemma VisitStep(aliases: map<string, string>, serialize: Json -> string, count: nat, writes: seq<(string, string)>,
                  e: DirEntry, o: FileOutcome)
    requires Candidate(e.name) && e.content.Some?
    requires o.migrated <==> AnyChanged(aliases, serialize, e.content.value)
    requires o.migrated ==> o.written == Some(Join(NewLines(aliases, serialize, e.content.value), "\n"))
    ensures o.migrated ==>
              Visit(aliases, serialize, Progress(Success(count), writes), e) ==
              Progress(Success(count + 1), writes + [(e.name, o.written.value)])
    ensures !o.migrated ==> Visit(aliases, serialize, Progress(Success(count), writes), e) == Progress(Success(count), writes)
  {
  }

  /** Running over one more entry visits that entry last. */
  lemma RunSnoc(aliases: map<string, string>, serialize: Json -> string, entries: seq<DirEntry>, i: nat)
    requires i < |entries|
    ensures Run(aliases, serialize, entries[..i + 1]) ==
              Visit(aliases, serialize, Run(aliases, serialize, entries[..i]), entries[i])
  {
    assert entries[..i + 1][..i] == entries[..i];
  }

  /** An unreadable candidate fails the whole migration, whatever follows it. */
  lemma {:induction false} RunStaysFailed(aliases: map<string, string>, serialize: Json -> string,
                                          entries: seq<DirEntry>, n: nat)
    requires n <= |entries| && Run(aliases, serialize, entries[..n]).result.Failure?
    ensures Run(aliases, serialize, entries) == Run(aliases, serialize, entries[..n])
    decreases |entries| - n
  {
    if n < |entries| {
      assert entries[..n + 1][..n] == entries[..n];
      RunStaysFailed(aliases, serialize, entries, n + 1);
    } else {
      assert entries[..n] == entries;
    }
  }

  /**
   * `migrate_session_models`: a missing directory counts 0; otherwise every
   * candidate file is migrated in order, and the first file error aborts.
   */
  method MigrateSessionModels(aliases: map<string, string>, serialize: Json -> string, dir: Directory)
    returns (r: Result<nat>, writes: seq<(string, string)>)
    ensures dir.Absent? ==> r == Success(0) && writes == []
    ensures dir.Unreadable? ==> r == Failure("Failed to read session directory: ") && writes == []
    ensures dir.Present? ==> Progress(r, writes) == Run(aliases, serialize, dir.entries)
  {
    writes := [];
    match dir
    case Absent =>
      r := Success(0);
    case Unreadable =>
      r := Failure("Failed to read session directory: ");
    case Present(entries) =>
      var count := 0;
      var i := 0;
      while i < |entries|
        invariant 0 <= i <= |entries|
        invariant Run(aliases, serialize, entries[..i]) == Progress(Success(count), writes)
      {
        var e := entries[i];
        ghost var next := Visit(aliases, serialize, Progress(Success(count), writes), e);
        RunSnoc(aliases, serialize, entries, i);
        if Candidate(e.name) {
          var outcome := MigrateSessionFile(aliases, serialize, e.content);
          if outcome.Failure? {
            RunStaysFailed(aliases, serialize, entries, i + 1);
            return Failure(outcome.error), writes;
          }
          VisitStep(aliases, serialize, count, writes, e, outcome.value);
          if outcome.value.migrated {
            writes := writes + [(e.name, outcome.value.written.value)];
            count := count + 1;
            assert Progress(Success(count), writes) == next;
          }
        }
        i := i + 1;
      }
      assert entries[..i] == entries;
      r := Success(count);
  }
}

=== FILE: model_config.dfy ===
/**
 * models/config.rs: the model table and the alias -> model-id map built from it.
 * The embedded table itself is not part of this model; its parse result is an input.
 */
module ModelConfig {
  import opened Wrappers
  import opened Text

  datatype ModelInfo = ModelInfo(id: string, displayName: string, family: string,
                                 releaseDate: string, aliases: seq<string>)

  datatype Config = Config(version: string, defaultModel: string, models: seq<ModelInfo>)

  /** The minimal configuration used when the embedded table does not parse. */
  const Fallback := Config("1.0", "claude-sonnet-4-5-20250929", [])

  /** `load_config`: the parsed table, or the fallback when parsing failed. */
  function LoadConfig(parsed: Option<Config>): (r: Config)
    ensures parsed.Some? ==> r == parsed.value
    ensures parsed.None? ==> r.version == "1.0" && r.defaultModel == "claude-sonnet-4-5-20250929" && r.models == []
  {
    if parsed.Some? then parsed.value else Fallback
  }

  /** The lowercased aliases of a model. */
  function AliasKeys(aliases: seq<string>): (r: set<string>)
    ensures forall a :: a in aliases ==> Lower(a) in r
    ensures forall k :: k in r ==> exists a :: a in aliases && Lower(a) == k
  {
    if aliases == [] then {} else AliasKeys(aliases[..|aliases| - 1]) + {Lower(aliases[|aliases| - 1])}
  }

  /** The lookup keys one model contributes: its lowercased id and its lowercased aliases. */
  function ModelKeys(m: ModelInfo): set<string> {
    {Lower(m.id)} + AliasKeys(m.aliases)
  }

  /** Insert (lowercase(alias) -> v) for each alias in turn. */
  function InsertAliases(m: map<string, string>, aliases: seq<string>, v: string): map<string, string> {
    if aliases == [] then m
    else InsertAliases(m, aliases[..|aliases| - 1], v)[Lower(aliases[|aliases| - 1]) := v]
  }

  /** One model's insertions: its id first, then its aliases. */
  function AddModel(m: map<string, string>, model: ModelInfo): map<string, string> {
    InsertAliases(m[Lower(model.id) := model.id], model.aliases, model.id)
  }

  /**
   * The alias map of a model list: the insertions of every model in order,
   * so that on a shared key the later insertion wins, as with `HashMap::insert`.
   */
  function AliasMap(models: seq<ModelInfo>): map<string, string> {
    if models == [] then map[] else AddModel(AliasMap(models[..|models| - 1]), models[|models| - 1])
  }

  lemma {:induction false} InsertAliasesEffect(m: map<string, string>, aliases: seq<string>, v: string, k: string)
    ensures k in InsertAliases(m, aliases, v) <==> k in m || k in AliasKeys(aliases)
    ensures k in AliasKeys(aliases) ==> InsertAliases(m, aliases, v)[k] == v
    ensures k !in AliasKeys(aliases) && k in m ==> InsertAliases(m, aliases, v)[k] == m[k]
  {
    if aliases != [] {
      InsertAliasesEffect(m, aliases[..|aliases| - 1], v, k);
    }
  }

  /** What one model's insertions do to a key. */
  lemma AddModelEffect(m: map<string, string>, model: ModelInfo, k: string)
    ensures k in AddModel(m, model) <==> k in m || k in ModelKeys(model)
    ensures k in ModelKeys(model) ==> AddModel(m, model)[k] == model.id
    ensures k !in ModelKeys(model) && k in m ==> AddModel(m, model)[k] == m[k]
  {
    InsertAliasesEffect(m[Lower(model.id) := model.id], model.aliases, model.id, k);
  }

  /** The body of the outer loop: insert one model's id, then each of its aliases. */
  method InsertModel(m0: map<string, string>, model: ModelInfo) returns (m: map<string, string>)
    ensures m == AddModel(m0, model)
  {
    m := m0[Lower(model.id) := model.id];
    var j := 0;
    while j < |model.aliases|
      invariant 0 <= j <= |model.aliases|
      invariant m == InsertAliases(m0[Lower(model.id) := model.id], model.aliases[..j], model.id)
    {
      assert model.aliases[..j + 1][..j] == model.aliases[..j];
      m := m[Lower(model.aliases[j]) := model.id];
      j := j + 1;
    }
    assert model.aliases[..j] == model.aliases;
  }

  /**
   * `get_alias_map`: for every model, insert (lowercase(id) -> id), then
   * (lowercase(alias) -> id) for each alias.
   */
  method BuildAliasMap(config: Config) returns (m: map<string, string>)
    ensures m == AliasMap(config.models)
  {
    m := map[];
    var i := 0;
    while i < |config.models|
      invariant 0 <= i <= |config.models|
      invariant m == AliasMap(config.models[..i])
    {
      assert config.models[..i + 1][..i] == config.models[..i];
      m := InsertModel(m, config.models[i]);
      i := i + 1;
    }
    assert config.models[..i] == config.models;
  }

  /** Some model of the list contributes `k`. */
  predicate Claimed(models: seq<ModelInfo>, k: string) {
    exists i :: 0 <= i < |models| && k in ModelKeys(models[i])
  }

  /** A key is claimed by a list with one more model iff the prefix or that model claims it. */
  lemma ClaimedSnoc(models: seq<ModelInfo>, k: string)
    requires models != []
    ensures Claimed(models, k) <==> Claimed(models[..|models| - 1], k) || k in ModelKeys(models[|models| - 1])
  {
    var init := models[..|models| - 1];
    if Claimed(init, k) {
      var i :| 0 <= i < |init| && k in ModelKeys(init[i]);
      assert models[i] == init[i];
    }
    if Claimed(models, k) {
      var i :| 0 <= i < |models| && k in ModelKeys(models[i]);
      if i < |init| {
        assert init[i] == models[i];
      }
    }
  }

  /** The alias map has exactly the lowercased ids and aliases as keys. */
  lemma {:induction false} AliasMapDomain(models: seq<ModelInfo>, k: string)
    ensures k in AliasMap(models) <==> Claimed(models, k)
  {
    if models != [] {
      var init := models[..|models| - 1];
      AliasMapDomain(init, k);
      AddModelEffect(AliasMap(init), models[|models| - 1], k);
      ClaimedSnoc(models, k);
    }
  }

  /** On a shared key the model listed last wins. */
  lemma {:induction false} AliasMapLastWins(models: seq<ModelInfo>, i: nat, k: string)
    requires i < |models| && k in ModelKeys(models[i])
    requires forall j :: i < j < |models| ==> k !in ModelKeys(models[j])
    ensures k in AliasMap(models) && AliasMap(models)[k] == models[i].id
  {
    var init := models[..|models| - 1];
    AddModelEffect(AliasMap(init), models[|models| - 1], k);
    if i < |models| - 1 {
      assert init[i] == models[i];
      forall j | i < j < |init|
        ensures k !in ModelKeys(init[j])
      {
        assert init[j] == models[j];
      }
      AliasMapLastWins(init, i, k);
    }
  }

  /** For every model, lowercase(id) maps to id unless a later model claims the same key. */
  lemma IdMapsToItself(models: seq<ModelInfo>, i: nat)
    requires i < |models|
    requires forall j :: i < j < |models| ==> Lower(models[i].id) !in ModelKeys(models[j])
    ensures Lower(models[i].id) in AliasMap(models) && AliasMap(models)[Lower(models[i].id)] == models[i].id
  {
    AliasMapLastWins(models, i, Lower(models[i].id));
  }

  /** Every lowercased alias maps to its model's id unless a later model claims the same key. */
  lemma AliasMapsToModel(models: seq<ModelInfo>, i: nat, alias: string)
    requires i < |models| && alias in models[i].aliases
    requires forall j :: i < j < |models| ==> Lower(alias) !in ModelKeys(models[j])
    ensures Lower(alias) in AliasMap(models) && AliasMap(models)[Lower(alias)] == models[i].id
  {
    AliasMapLastWins(models, i, Lower(alias));
  }

  /** Every value of the alias map is the id of a model that claims the key. */
  lemma {:induction false} AliasMapValues(models: seq<ModelInfo>, k: string)
    requires k in AliasMap(models)
    ensures exists i :: 0 <= i < |models| && k in ModelKeys(models[i]) && AliasMap(models)[k] == models[i].id
  {
    var init := models[..|models| - 1];
    var last := models[|models| - 1];
    AddModelEffect(AliasMap(init), last, k);
    if k !in ModelKeys(last) {
      AliasMapValues(init, k);
      var i :| 0 <= i < |init| && k in ModelKeys(init[i]) && AliasMap(init)[k] == init[i].id;
      assert models[i] == init[i];
    }
  }

  /** The fallback configuration has no models, hence no aliases. */
  lemma FallbackHasNoAliases()
    ensures LoadConfig(None).models == [] && AliasMap(LoadConfig(None).models) == map[]
  {
  }

  /** `get_all_models`: the models of the loaded table; none when the table did not parse. */
  function GetAllModels(parsed: Option<Config>): (r: seq<ModelInfo>)
    ensures parsed.Some? ==> r == parsed.value.models
    ensures parsed.None? ==> r == []
  {
    LoadConfig(parsed).models
  }

  /** Every model offered to the frontend is known, by its id in any case, to the alias map. */
  lemma ListedModelsKnown(parsed: Option<Config>, i: nat)
    requires i < |GetAllModels(parsed)|
    ensures Lower(GetAllModels(parsed)[i].id) in AliasMap(LoadConfig(parsed).models)
  {
    var models := LoadConfig(parsed).models;
    assert Lower(models[i].id) in ModelKeys(models[i]);
    AliasMapDomain(models, Lower(models[i].id));
  }

  /** `get_default_model`: the default of the loaded table, or the fallback's. */
  function GetDefaultModel(parsed: Option<Config>): (r: string)
    ensures parsed.Some? ==> r == parsed.value.defaultModel
    ensures parsed.None? ==> r == "claude-sonnet-4-5-20250929"
  {
    LoadConfig(parsed).defaultModel
  }
}

=== FILE: model_normalize.dfy ===
/**
 * models/normalize.rs: mapping a user-facing model name (alias, short name
 * or full id, in any case) to the full API identifier. The alias map is the
 * one `get_alias_map` builds; it is passed in rather than read from a global.
 */
module ModelNormalize {
  import opened Wrappers
  import opened Text
  import opened ModelConfig

  /** `normalize_model_name`: case-insensitive lookup, unknown names pass through unchanged. */
  function NormalizeModelName(aliases: map<string, string>, name: string): (r: string)
    ensures Lower(name) in aliases ==> r == aliases[Lower(name)]
    ensures Lower(name) !in aliases ==> r == name
  {
    if Lower(name) in aliases then aliases[Lower(name)] else name
  }

  /** `normalize_model_option`. */
  function NormalizeModelOption(aliases: map<string, string>, model: Option<string>): (r: Option<string>)
    ensures model.None? ==> r.None?
    ensures model.Some? ==> r == Some(NormalizeModelName(aliases, model.value))
  {
    match model
    case None => None
    case Some(m) => Some(NormalizeModelName(aliases, m))
  }

  /** Names that differ only in (ASCII) case normalise alike when they are known. */
  lemma CaseInsensitive(aliases: map<string, string>, a: string, b: string)
    requires Lower(a) == Lower(b) && Lower(a) in aliases
    ensures NormalizeModelName(aliases, a) == NormalizeModelName(aliases, b)
  {
  }

  /** An unknown name is returned with its original case. */
  lemma UnknownPassesThrough(models: seq<ModelInfo>, name: string)
    requires forall i :: 0 <= i < |models| ==> Lower(name) !in ModelKeys(models[i])
    ensures NormalizeModelName(AliasMap(models), name) == name
  {
    AliasMapDomain(models, Lower(name));
  }

  /** A known name normalises to the id of the last model that claims it. */
  lemma KnownNameToId(models: seq<ModelInfo>, i: nat, name: string)
    requires i < |models| && Lower(name) in ModelKeys(models[i])
    requires forall j :: i < j < |models| ==> Lower(name) !in ModelKeys(models[j])
    ensures NormalizeModelName(AliasMap(models), name) == models[i].id
  {
    AliasMapLastWins(models, i, Lower(name));
  }

  /** A full model id, written exactly as configured, normalises to itself. */
  lemma FullIdToItself(models: seq<ModelInfo>, i: nat)
    requires i < |models|
    requires forall j :: i < j < |models| ==> Lower(models[i].id) !in ModelKeys(models[j])
    ensures NormalizeModelName(AliasMap(models), models[i].id) == models[i].id
  {
    IdMapsToItself(models, i);
  }

  /** A full model id written in any case normalises to the id as configured. */
  lemma FullIdAnyCase(models: seq<ModelInfo>, i: nat, name: string)
    requires i < |models| && Lower(name) == Lower(models[i].id)
    requires forall j :: i < j < |models| ==> Lower(models[i].id) !in ModelKeys(models[j])
    ensures NormalizeModelName(AliasMap(models), name) == models[i].id
  {
    IdMapsToItself(models, i);
    CaseInsensitive(AliasMap(models), name, models[i].id);
  }

  /** No key is claimed by two different models. */
  predicate KeysDisjoint(models: seq<ModelInfo>) {
    forall i, j, k :: 0 <= i < j < |models| && k in ModelKeys(models[i]) ==> k !in ModelKeys(models[j])
  }

  /** With disjoint keys, normalising twice is normalising once. */
  lemma Idempotent(models: seq<ModelInfo>, name: string)
    requires KeysDisjoint(models)
    ensures var n := NormalizeModelName(AliasMap(models), name);
            NormalizeModelName(AliasMap(models), n) == n
  {
    var m := AliasMap(models);
    if Lower(name) in m {
      AliasMapValues(models, Lower(name));
      var i :| 0 <= i < |models| && Lower(name) in ModelKeys(models[i]) && m[Lower(name)] == models[i].id;
      assert Lower(models[i].id) in ModelKeys(models[i]);
      FullIdToItself(models, i);
    }
  }
}

=== FILE: project_cleanup.dfy ===
/**
 * commands.rs, project-based storage: the project registry the app keeps in
 * `~/.ccconfig/project-registry.json`, and the clean-up `delete_project_config`
 * does in Claude Code's own files when a project is forgotten.
 */
module ProjectCleanup {
  import opened Wrappers
  import opened Json
  import opened Text
  import opened ConfigStores
  import Discovery

  // ---------------------------------------------------------------------------
  // Path and id helpers

  /** `sanitize_project_path_for_dir`: the directory name Claude Code uses for a project. */
  function SanitizeProjectPath(path: string): (r: string)
    ensures |r| == |path| && !ContainsChar(r, '/')
    ensures forall i :: 0 <= i < |path| ==> r[i] == (if path[i] == '/' then '-' else path[i])
    ensures r == Discovery.EncodeProjectPath(path)
  {
    ReplaceChar(path, '/', '-')
  }

  /** A file of a project's session directory that holds a session, not an agent transcript. */
  predicate SessionFileName(name: string) {
    EndsWith(name, ".jsonl") && !StartsWith(name, "agent-")
  }

  /** The session ids named by a directory listing, in listing order. */
  function IdsOf(names: seq<string>): (r: seq<string>)
    ensures |r| <= |names|
  {
    if names == [] then []
    else
      var last := names[|names| - 1];
      IdsOf(names[..|names| - 1]) + if SessionFileName(last) then [last[..|last| - 6]] else []
  }

  /** An id is listed exactly when its `.jsonl` file is a session file of the directory. */
  lemma {:induction false} IdsOfMeans(names: seq<string>, id: string)
    ensures id in IdsOf(names) <==> id + ".jsonl" in names && !StartsWith(id + ".jsonl", "agent-")
  {
    if names != [] {
      var init := names[..|names| - 1];
      var last := names[|names| - 1];
      IdsOfMeans(init, id);
      assert names == init + [last];
      var file := id + ".jsonl";
      assert file[..|file| - 6] == id;
      if SessionFileName(last) && id == last[..|last| - 6] {
        assert last == last[..|last| - 6] + last[|last| - 6..];
        assert last == file;
      }
      if last == file {
        assert EndsWith(file, ".jsonl") by {
          assert file[|file| - 6..] == ".jsonl";
        }
      }
    }
  }

  /**
   * `get_project_session_ids`: an unreadable or missing directory gives no
   * ids; otherwise the stems of the session files, in listing order.
   */
  method ProjectSessionIds(listing: Option<seq<string>>) returns (ids: seq<string>)
    ensures listing.None? ==> ids == []
    ensures listing.Some? ==> ids == IdsOf(listing.value)
  {
    ids := [];
    if listing.None? {
      return;
    }
    var names := listing.value;
    for i := 0 to |names|
      invariant ids == IdsOf(names[..i])
    {
      assert names[..i + 1][..i] == names[..i];
      var name := names[i];
      if EndsWith(name, ".jsonl") && !StartsWith(name, "agent-") {
        ids := ids + [name[..|name| - 6]];
      }
    }
    assert names[..|names|] == names;
  }

  // ---------------------------------------------------------------------------
  // filter_history_file

  /** A history line is dropped when it parses and its `project` is the given path. */
  predicate ForProject(line: Line, projectPath: string) {
    line.json.Some? && GetStr(line.json.value, "project") == Some(projectPath)
  }

  /** The lines kept, in their order. */
  function Kept(lines: seq<Line>, projectPath: string): (r: seq<Line>)
    ensures |r| <= |lines|
    ensures forall l :: l in r <==> l in lines && !ForProject(l, projectPath)
  {
    if lines == [] then []
    else
      var init := lines[..|lines| - 1];
      var last := lines[|lines| - 1];
      assert forall l :: l in lines <==> l in init || l == last by {
        assert lines == init + [last];
      }
      Kept(init, projectPath) + if ForProject(last, projectPath) then [] else [last]
  }

  /** Filtering distributes over concatenation, so the kept lines keep their order. */
  lemma {:induction false} KeptAppend(a: seq<Line>, b: seq<Line>, projectPath: string)
    ensures Kept(a + b, projectPath) == Kept(a, projectPath) + Kept(b, projectPath)
  {
    if b != [] {
      var init := b[..|b| - 1];
      assert (a + b)[..|a + b| - 1] == a + init;
      KeptAppend(a, init, projectPath);
    } else {
      assert a + b == a;
    }
  }

  /** The number of lines `filter_history_file` reports as removed. */
  function RemovedCount(lines: seq<Line>, projectPath: string): (r: nat)
    ensures r <= |lines|
  {
    if lines == [] then 0
    else RemovedCount(lines[..|lines| - 1], projectPath) + if ForProject(lines[|lines| - 1], projectPath) then 1 else 0
  }

  /** Every line is either kept or counted as removed. */
  lemma {:induction false} KeptPlusRemoved(lines: seq<Line>, projectPath: string)
    ensures |Kept(lines, projectPath)| + RemovedCount(lines, projectPath) == |lines|
  {
    if lines != [] {
      KeptPlusRemoved(lines[..|lines| - 1], projectPath);
    }
  }

  /** A file in which no line is the project's is kept whole. */
  lemma {:induction false} NothingToRemove(lines: seq<Line>, projectPath: string)
    requires forall l :: l in lines ==> !ForProject(l, projectPath)
    ensures Kept(lines, projectPath) == lines
  {
    if lines != [] {
      var init := lines[..|lines| - 1];
      var last := lines[|lines| - 1];
      assert lines == init + [last];
      NothingToRemove(init, projectPath);
    }
  }

  /** The new file: the kept lines, each ended by a newline; empty when none is kept. */
  function HistoryContent(kept: seq<Line>): (r: string)
    ensures kept == [] <==> r == []
    ensures kept != [] ==> EndsWith(r, "\n")
  {
    if kept == [] then "" else Join(seq(|kept|, i requires 0 <= i < |kept| => kept[i].text), "\n") + "\n"
  }

  /** The history file, as the lines `str::lines` splits its text into. */
  datatype History = NoHistory | HistoryUnreadable | History(lines: seq<Line>)

  /**
   * `filter_history_file` on the history file: the outcome and the lines
   * written back, None when the file is left alone. The text written is
   * `HistoryContent` of those lines; reading it back gives them again.
   */
  function FilterHistoryFile(history: History, projectPath: string): (r: (Result<()>, Option<seq<Line>>))
    ensures history.NoHistory? ==> r == (Success(()), None)
    ensures history.HistoryUnreadable? ==> r == (Failure("Failed to read history.jsonl: "), None)
    ensures history.History? ==>
              r.0 == Success(()) && r.1.Some? &&
              (forall l :: l in r.1.value <==> l in history.lines && !ForProject(l, projectPath)) &&
              (HistoryContent(r.1.value) == "" <==>
                 forall i :: 0 <= i < |history.lines| ==> ForProject(history.lines[i], projectPath))
  {
    match history
    case NoHistory => (Success(()), None)
    case HistoryUnreadable => (Failure("Failed to read history.jsonl: "), None)
    case History(lines) =>
      AllDroppedMeans(lines, projectPath);
      (Success(()), Some(Kept(lines, projectPath)))
  }

  lemma AllDroppedMeans(lines: seq<Line>, projectPath: string)
    ensures Kept(lines, projectPath) == [] <==> forall i :: 0 <= i < |lines| ==> ForProject(lines[i], projectPath)
  {
    var kept := Kept(lines, projectPath);
    if kept != [] {
      assert kept[0] in kept;
    }
    if kept == [] {
      forall i | 0 <= i < |lines|
        ensures ForProject(lines[i], projectPath)
      {
        assert lines[i] in lines;
      }
    }
  }

  // ---------------------------------------------------------------------------
  // The project registry

  datatype RegistryEntry = RegistryEntry(
    projectPath: string,
    title: string,
    lastUsedAt: nat,
    inheritFromGlobal: bool,
    parentGlobalConfigId: Option<string>)

  /**
   * The registry file: missing, unreadable, in neither format, an array
   * (the current format), or an object keyed by path (the old format),
   * held as its values in the order the map yields them.
   */
  datatype RegistryFile =
    | NoRegistry
    | RegistryUnreadable
    | RegistryUnparsable
    | Entries(entries: seq<RegistryEntry>)
    | Legacy(values: seq<RegistryEntry>)

  /** `read_project_registry`. */
  function ReadRegistry(file: RegistryFile): (r: Result<seq<RegistryEntry>>)
    ensures file.NoRegistry? ==> r == Success([])
    ensures file.Entries? ==> r == Success(file.entries)
    ensures file.Legacy? ==> r == Success(file.values)
    ensures file.RegistryUnreadable? ==> r == Failure("Failed to read project registry: ")
    ensures file.RegistryUnparsable? ==> r == Failure("Failed to parse project registry: ")
  {
    match file
    case NoRegistry => Success([])
    case RegistryUnreadable => Failure("Failed to read project registry: ")
    case RegistryUnparsable => Failure("Failed to parse project registry: ")
    case Entries(entries) => Success(entries)
    case Legacy(values) => Success(values)
  }

  /** The first entry for a path, as `iter_mut().find` returns it. */
  function FindProject(registry: seq<RegistryEntry>, projectPath: string): (r: Option<nat>)
    ensures r.Some? ==> r.value < |registry| && registry[r.value].projectPath == projectPath &&
                        forall j :: 0 <= j < r.value ==> registry[j].projectPath != projectPath
    ensures r.None? ==> forall j :: 0 <= j < |registry| ==> registry[j].projectPath != projectPath
  {
    if registry == [] then None
    else if registry[0].projectPath == projectPath then Some(0)
    else match FindProject(registry[1..], projectPath)
         case None => None
         case Some(i) => Some(i + 1)
  }

  /** The upsert of `write_project_registry_entry`: replace the first entry for the path, or append. */
  function Upsert(registry: seq<RegistryEntry>, projectPath: string, entry: RegistryEntry): (r: seq<RegistryEntry>)
    ensures FindProject(registry, projectPath).Some? ==>
              var i := FindProject(registry, projectPath).value;
              |r| == |registry| && r[i] == entry && forall j :: 0 <= j < |r| && j != i ==> r[j] == registry[j]
    ensures FindProject(registry, projectPath).None? ==> r == registry + [entry]
  {
    match FindProject(registry, projectPath)
    case Some(i) => registry[i := entry]
    case None => registry + [entry]
  }

  /** At most one entry per project path. */
  predicate DistinctPaths(registry: seq<RegistryEntry>) {
    forall i, j :: 0 <= i < j < |registry| ==> registry[i].projectPath != registry[j].projectPath
  }

  /**
   * Writing an entry under its own path makes it the entry found for that
   * path, adds no second entry for it, and writing it again changes nothing.
   */
  lemma UpsertFinds(registry: seq<RegistryEntry>, entry: RegistryEntry)
    ensures var r := Upsert(registry, entry.projectPath, entry);
            && FindProject(r, entry.projectPath).Some?
            && r[FindProject(r, entry.projectPath).value] == entry
            && Upsert(r, entry.projectPath, entry) == r
            && (DistinctPaths(registry) ==> DistinctPaths(r))
  {
    var p := entry.projectPath;
    var r := Upsert(registry, p, entry);
    match FindProject(registry, p)
    case Some(i) =>
      assert r[i].projectPath == p;
      assert forall j :: 0 <= j < i ==> r[j] == registry[j];
      assert FindProject(r, p) == Some(i);
      assert r[i := entry] == r;
    case None =>
      var n := |registry|;
      assert r[n].projectPath == p;
      assert forall j :: 0 <= j < n ==> r[j] == registry[j];
      assert FindProject(r, p) == Some(n);
      assert r[n := entry] == r;
  }

  /** `retain(|e| e.project_path != project_path)` on the registry. */
  function Forget(registry: seq<RegistryEntry>, projectPath: string): (r: seq<RegistryEntry>)
    ensures forall e :: e in r <==> e in registry && e.projectPath != projectPath
    ensures |r| <= |registry|
  {
    if registry == [] then []
    else
      assert forall e :: e in registry <==> e == registry[0] || e in registry[1..];
      (if registry[0].projectPath == projectPath then [] else [registry[0]]) + Forget(registry[1..], projectPath)
  }

  /** Forgetting a path no entry has changes nothing. */
  lemma {:induction false} ForgetAbsent(registry: seq<RegistryEntry>, projectPath: string)
    requires forall e :: e in registry ==> e.projectPath != projectPath
    ensures Forget(registry, projectPath) == registry
  {
    if registry != [] {
      assert registry[0] in registry;
      assert forall e :: e in registry[1..] ==> e in registry;
      ForgetAbsent(registry[1..], projectPath);
      assert registry == [registry[0]] + registry[1..];
    }
  }

  /** After forgetting, no entry is found for the path; forgetting twice is forgetting once. */
  lemma ForgetRemovesAll(registry: seq<RegistryEntry>, projectPath: string)
    ensures FindProject(Forget(registry, projectPath), projectPath).None?
    ensures Forget(Forget(registry, projectPath), projectPath) == Forget(registry, projectPath)
  {
    ForgetAbsent(Forget(registry, projectPath), projectPath);
  }

  // ---------------------------------------------------------------------------
  // ~/.claude.json

  /** `remove_project_from_claude_json`: the value written back, None when there is no file. */
  function RemoveFromClaudeJson(doc: Doc<Json>, projectPath: string): (r: Result<Option<Json>>)
    ensures doc.Missing? ==> r == Success(None)
    ensures doc.Unreadable? ==> r == Failure("Failed to read .claude.json: ")
    ensures doc.Unparsable? ==> r == Failure("Failed to parse .claude.json: ")
    ensures doc.Present? ==>
              r.Success? && r.value.Some? &&
              (Get(doc.value, "projects").Some? && Get(doc.value, "projects").value.JObj? ==>
                 var projects := doc.value.fields["projects"].fields;
                 r.value.value == JObj(doc.value.fields["projects" := JObj(projects - {projectPath})]) &&
                 projectPath !in r.value.value.fields["projects"].fields) &&
              (!(Get(doc.value, "projects").Some? && Get(doc.value, "projects").value.JObj?) ==>
                 r.value.value == doc.value)
  {
    match doc
    case Missing => Success(None)
    case Unreadable => Failure("Failed to read .claude.json: ")
    case Unparsable => Failure("Failed to parse .claude.json: ")
    case Present(json) =>
      match Get(json, "projects")
      case Some(JObj(projects)) => Success(Some(JObj(json.fields["projects" := JObj(projects - {projectPath})])))
      case _ => Success(Some(json))
  }

  // ---------------------------------------------------------------------------
  // The files the two commands touch

  class ProjectFiles {
    /** `~/.ccconfig/project-registry.json`. */
    var registry: RegistryFile
    /** `~/.claude.json`. */
    var claudeJson: Doc<Json>
    /** `~/.claude/projects/<sanitized path>/`: the file names of each directory. */
    var sessionDirs: map<string, Option<seq<string>>>
    /** `~/.claude/history.jsonl`. */
    var history: History

    constructor(registry: RegistryFile, claudeJson: Doc<Json>,
                sessionDirs: map<string, Option<seq<string>>>, history: History)
      ensures this.registry == registry && this.claudeJson == claudeJson
      ensures this.sessionDirs == sessionDirs && this.history == history
    {
      this.registry := registry;
      this.claudeJson := claudeJson;
      this.sessionDirs := sessionDirs;
      this.history := history;
    }

    /** `write_project_registry_entry`: read the registry, upsert, write it in the current format. */
    method WriteRegistryEntry(projectPath: string, entry: RegistryEntry) returns (r: Result<()>)
      modifies this
      ensures claudeJson == old(claudeJson) && sessionDirs == old(sessionDirs) && history == old(history)
      ensures ReadRegistry(old(registry)).Failure? ==>
                r == Failure(ReadRegistry(old(registry)).error) && registry == old(registry)
      ensures ReadRegistry(old(registry)).Success? ==>
                r == Success(()) && registry == Entries(Upsert(ReadRegistry(old(registry)).value, projectPath, entry))
    {
      var current := ReadRegistry(registry);
      if current.Failure? {
        return Failure(current.error);
      }
      registry := Entries(Upsert(current.value, projectPath, entry));
      r := Success(());
    }

    /**
     * `delete_project_config`: forget the project in the registry, then,
     * ignoring their failures, drop it from `~/.claude.json`, delete its
     * session directory and filter the history. Returns the session ids
     * found in that directory, whose data `cleanup_session_data` removes.
     */
    method DeleteProjectConfig(projectPath: string) returns (r: Result<()>, sessionIds: seq<string>)
      modifies this
      ensures ReadRegistry(old(registry)).Failure? ==>
                r == Failure(ReadRegistry(old(registry)).error) && sessionIds == [] &&
                registry == old(registry) && claudeJson == old(claudeJson) &&
                sessionDirs == old(sessionDirs) && history == old(history)
      ensures ReadRegistry(old(registry)).Success? ==>
                var dir := SanitizeProjectPath(projectPath);
                && r == Success(())
                && registry == Entries(Forget(ReadRegistry(old(registry)).value, projectPath))
                && (RemoveFromClaudeJson(old(claudeJson), projectPath).Success? &&
                    RemoveFromClaudeJson(old(claudeJson), projectPath).value.Some? ==>
                      claudeJson == Present(RemoveFromClaudeJson(old(claudeJson), projectPath).value.value))
                && (RemoveFromClaudeJson(old(claudeJson), projectPath).Failure? ||
                    RemoveFromClaudeJson(old(claudeJson), projectPath).value.None? ==>
                      claudeJson == old(claudeJson))
                && sessionDirs == old(sessionDirs) - {dir}
                && sessionIds == (if dir in old(sessionDirs) && old(sessionDirs)[dir].Some?
                                  then IdsOf(old(sessionDirs)[dir].value) else [])
                && (FilterHistoryFile(old(history), projectPath).1.Some? ==>
                      history == History(FilterHistoryFile(old(history), projectPath).1.value))
                && (FilterHistoryFile(old(history), projectPath).1.None? ==> history == old(history))
    {
      sessionIds := [];
      var current := ReadRegistry(registry);
      if current.Failure? {
        r := Failure(current.error);
        return;
      }
      registry := Entries(Forget(current.value, projectPath));

      var claude := RemoveFromClaudeJson(claudeJson, projectPath);
      if claude.Success? && claude.value.Some? {
        claudeJson := Present(claude.value.value);
      }

      var dir := SanitizeProjectPath(projectPath);
      var listing := if dir in sessionDirs then sessionDirs[dir] else None;
      sessionIds := ProjectSessionIds(listing);
      sessionDirs := sessionDirs - {dir};

      var (_, written) := FilterHistoryFile(history, projectPath);
      if written.Some? {
        history := History(written.value);
      }
      r := Success(());
    }
  }
}

=== FILE: registry.dfy ===
/**
 * The shared pieces of process orchestration: the key -> child-process map
 * that both streaming subsystems keep behind a mutex, the event channel the
 * UI listens on, and the host operating system that spawns and kills
 * children. The map is modelled single-threaded: each method below is one
 * critical section of the source.
 */
module Registry {
  import opened Wrappers

  /** A spawned child process, identified by its process id. */
  datatype Handle = Handle(pid: nat)

  /** A command line handed to the operating system. */
  datatype Command = Command(program: string, args: seq<string>, cwd: string)

  /** What the operating system does with a spawn request. */
  datatype SpawnOutcome =
    | SpawnError                    // `cmd.spawn()` fails
    | NoStdout(child: Handle)       // spawned, but `child.stdout.take()` is None
    | Spawned(child: Handle)        // spawned with a readable stdout

  /** The answers the file system and the OS give to one create/resume/spawn call. */
  datatype Environment = Environment(
    cliInstalled: bool,             // `check_claude_installed()`
    pathExists: bool,               // `PathBuf::exists()`
    canonical: Option<string>,      // `canonicalize()`, None when it fails
    spawn: SpawnOutcome)

  /** The `HashMap<String, Child>` of running processes. */
  class ProcessMap {
    var procs: map<string, Handle>

    constructor ()
      ensures procs == map[]
    {
      procs := map[];
    }

    /** `procs.insert(key, child)`: a present key is overwritten. */
    method Insert(key: string, h: Handle)
      modifies this
      ensures procs == old(procs)[key := h]
    {
      procs := procs[key := h];
    }

    /** `procs.remove(key)`: returns the handle that was there, if any. */
    method Remove(key: string) returns (r: Option<Handle>)
      modifies this
      ensures r == (if key in old(procs) then Some(old(procs)[key]) else None)
      ensures procs == old(procs) - {key}
    {
      r := if key in procs then Some(procs[key]) else None;
      procs := procs - {key};
    }
  }

  /** The host: what it was asked to run and which children it was asked to kill. */
  class Host {
    var launched: seq<Command>
    var killed: seq<Handle>

    constructor ()
      ensures launched == [] && killed == []
    {
      launched, killed := [], [];
    }

    /** `cmd.spawn()`: the request is recorded, the outcome is the environment's. */
    method Spawn(cmd: Command, outcome: SpawnOutcome) returns (r: SpawnOutcome)
      modifies this
      ensures r == outcome
      ensures launched == old(launched) + [cmd] && killed == old(killed)
    {
      launched := launched + [cmd];
      r := outcome;
    }

    /** `child.kill()`: `ok` is whether the OS reports success. */
    method Kill(h: Handle, ok: bool) returns (r: bool)
      modifies this
      ensures r == ok
      ensures killed == old(killed) + [h] && launched == old(launched)
    {
      killed := killed + [h];
      r := ok;
    }
  }

  /** The UI's named event channels (`app.emit(channel, event)`), as one log. */
  class EventSink<E> {
    var log: seq<(string, E)>

    constructor ()
      ensures log == []
    {
      log := [];
    }

    method Emit(channel: string, e: E)
      modifies this
      ensures log == old(log) + [(channel, e)]
    {
      log := log + [(channel, e)];
    }
  }
}

=== FILE: resume.dfy ===
/**
 * sessions/resume.rs: resuming and creating Claude Code sessions.
 *
 * The normaliser `ParseStreamEvent` turns one JSON line of the CLI's
 * output into at most one UI event, threading a two-string parse state.
 * Around it sit the orchestration steps that touch the shared process map:
 * the synchronous part of create/resume (validate, spawn, insert), the
 * background stream task (read lines, re-key on the `system` line, publish,
 * remove at end of stream) and cancel.
 */
module Resume {
  import opened Wrappers
  import opened Json
  import opened Text
  import opened Registry
  import opened Streams

  datatype StreamEvent =
    | SessionIdUpdated(tempId: string, realId: string)
    | MessageStart(messageId: string)
    | ContentDelta(messageId: string, delta: string)
    | MessageComplete(messageId: string, content: string)
    | Error(error: string)

  /** `current_message_id` and `accumulated_content` of one stream. */
  datatype ParseState = ParseState(currentMessageId: string, accumulatedContent: string)

  const Initial := ParseState("", "")

  function TopType(json: Json): Option<string> {
    GetStr(json, "type")
  }

  /** The first content block that holds a string `text`. */
  function FirstText(blocks: seq<Json>): (r: Option<string>)
    ensures r.None? <==> forall i :: 0 <= i < |blocks| ==> GetStr(blocks[i], "text").None?
    ensures r.Some? ==> exists i :: 0 <= i < |blocks| && GetStr(blocks[i], "text") == r &&
                                    forall j :: 0 <= j < i ==> GetStr(blocks[j], "text").None?
  {
    if blocks == [] then None
    else if GetStr(blocks[0], "text").Some? then GetStr(blocks[0], "text")
    else
      var r := FirstText(blocks[1..]);
      assert forall i :: 1 <= i < |blocks| ==> blocks[i] == blocks[1..][i - 1];
      r
  }

  /** The text an `assistant` line contributes: the first text block of `message.content`. */
  function AssistantText(json: Json): Option<string> {
    match Get(json, "message")
    case Some(m) =>
      (match Get(m, "content")
       case Some(JArr(blocks)) => FirstText(blocks)
       case _ => None)
    case None => None
  }

  /** `parse_stream_event`: one JSON line, both wire schemas. */
  function ParseStreamEvent(json: Json, st: ParseState): (r: Step<ParseState, StreamEvent>)
    // A line that yields nothing leaves the state alone, except that an
    // `assistant` line still starts a message when none is current.
    ensures r.event.None? && r.state != st ==>
              TopType(json) == Some("assistant") && st.currentMessageId == "" &&
              r.state.accumulatedContent == ""
    ensures r.event.Some? && r.event.value.MessageStart? ==>
              r.state == ParseState(r.event.value.messageId, "")
    // A delta either extends the accumulated text (wrapped schema) or replaces it (verbose schema).
    ensures r.event.Some? && r.event.value.ContentDelta? ==>
              r.state.accumulatedContent == st.accumulatedContent + r.event.value.delta ||
              r.state.accumulatedContent == r.event.value.delta
    // A completion reports exactly the state accumulated before the line.
    ensures r.event.Some? && r.event.value.MessageComplete? ==>
              r.event.value == MessageComplete(st.currentMessageId, st.accumulatedContent)
    ensures r.event.Some? ==> !r.event.value.SessionIdUpdated?
  {
    var top := TopType(json);
    if top == Some("stream_event") then
      match Get(json, "event")
      case None => Step(None, st)
      case Some(event) =>
        var kind := GetStr(event, "type");
        if kind == Some("message_start") then
          match GetIn(event, "message", "id")
          case Some(id) => Step(Some(MessageStart(id)), ParseState(id, ""))
          case None => Step(None, st)
        else if kind == Some("content_block_delta") then
          match GetIn(event, "delta", "text")
          case Some(delta) =>
            Step(Some(ContentDelta(st.currentMessageId, delta)),
                 st.(accumulatedContent := st.accumulatedContent + delta))
          case None => Step(None, st)
        else if kind == Some("message_stop") then
          Step(Some(MessageComplete(st.currentMessageId, st.accumulatedContent)), st)
        else
          Step(None, st)
    else if top == Some("assistant") then
      match Get(json, "message")
      case None => Step(None, st)
      case Some(message) =>
        match GetStr(message, "id")
        case None => Step(None, st)
        case Some(id) =>
          var started := if st.currentMessageId == "" then ParseState(id, "") else st;
          match AssistantText(json)
          case Some(text) => Step(Some(ContentDelta(id, text)), started.(accumulatedContent := text))
          case None => Step(None, started)
    else if top == Some("result") then
      if st.currentMessageId != "" then
        Step(Some(MessageComplete(st.currentMessageId, st.accumulatedContent)), Initial)
      else
        Step(None, st)
    else if top == Some("error") then
      match GetStr(json, "error")
      case Some(e) => Step(Some(Error(e)), st)
      case None => Step(Some(Error("Unknown error")), st)
    else
      // "system", a missing or non-string "type", and every other type
      Step(None, st)
  }

  // ---------------------------------------------------------------------
  // Line shapes of the two wire schemas
  // ---------------------------------------------------------------------

  predicate WrappedKind(json: Json, kind: string) {
    TopType(json) == Some("stream_event") && Get(json, "event").Some? &&
    GetStr(Get(json, "event").value, "type") == Some(kind)
  }

  predicate WrappedStart(json: Json, id: string) {
    WrappedKind(json, "message_start") && GetIn(Get(json, "event").value, "message", "id") == Some(id)
  }

  predicate WrappedDelta(json: Json, text: string) {
    WrappedKind(json, "content_block_delta") && GetIn(Get(json, "event").value, "delta", "text") == Some(text)
  }

  predicate WrappedStop(json: Json) {
    WrappedKind(json, "message_stop")
  }

  predicate AssistantLine(json: Json, id: string) {
    TopType(json) == Some("assistant") && GetIn(json, "message", "id") == Some(id)
  }

  // ---------------------------------------------------------------------
  // Single-line properties of the normaliser
  // ---------------------------------------------------------------------

  /** Lines the normaliser ignores: nothing is emitted and the state is untouched. */
  lemma IgnoredLines(json: Json, st: ParseState)
    requires || TopType(json).None?
             || TopType(json) == Some("system")
             || (TopType(json) == Some("result") && st.currentMessageId == "")
             || (TopType(json).Some? &&
                 TopType(json).value !in {"stream_event", "assistant", "result", "error"})
             || (TopType(json) == Some("stream_event") &&
                 (Get(json, "event").None? ||
                  GetStr(Get(json, "event").value, "type").None? ||
                  GetStr(Get(json, "event").value, "type").value !in
                    {"message_start", "content_block_delta", "message_stop"}))
             || (WrappedKind(json, "message_start") && GetIn(Get(json, "event").value, "message", "id").None?)
             || (WrappedKind(json, "content_block_delta") && GetIn(Get(json, "event").value, "delta", "text").None?)
             || (TopType(json) == Some("assistant") && GetIn(json, "message", "id").None?)
    ensures ParseStreamEvent(json, st) == Step(None, st)
  {
  }

  /** `message_start` with id m: state (m, "") and `MessageStart{m}`. */
  lemma MessageStartResets(json: Json, st: ParseState, id: string)
    requires WrappedStart(json, id)
    ensures ParseStreamEvent(json, st) == Step(Some(MessageStart(id)), ParseState(id, ""))
  {
  }

  /**
   * A verbose `assistant` line: it starts a message when none is current,
   * and its first text block REPLACES the accumulated content and is
   * emitted under the line's own id.
   */
  lemma AssistantOverwrites(json: Json, st: ParseState, id: string)
    requires AssistantLine(json, id)
    ensures var started := if st.currentMessageId == "" then ParseState(id, "") else st;
            ParseStreamEvent(json, st) ==
              if AssistantText(json).Some? then
                Step(Some(ContentDelta(id, AssistantText(json).value)),
                     started.(accumulatedContent := AssistantText(json).value))
              else Step(None, started)
  {
  }

  /** `result` completes the current message and clears the state; `error` reports the error field. */
  lemma ResultAndError(json: Json, st: ParseState)
    ensures TopType(json) == Some("result") && st.currentMessageId != "" ==>
              ParseStreamEvent(json, st) ==
                Step(Some(MessageComplete(st.currentMessageId, st.accumulatedContent)), ParseState("", ""))
    ensures TopType(json) == Some("error") ==>
              ParseStreamEvent(json, st) ==
                Step(Some(Error(if GetStr(json, "error").Some? then GetStr(json, "error").value
                                else "Unknown error")), st)
  {
  }

  // ---------------------------------------------------------------------
  // The normaliser folded over a stream of lines
  // ---------------------------------------------------------------------

  /** Blank lines are skipped before parsing; lines that are not JSON are logged and skipped. */
  predicate Skipped(line: Line) {
    IsBlank(line.text) || line.json.None?
  }

  /** What the reading loop does with one line. */
  function StepLine(line: Line, st: ParseState): Step<ParseState, StreamEvent> {
    if Skipped(line) then Step(None, st) else ParseStreamEvent(line.json.value, st)
  }

  /** The reading loop of the session stream tasks over all lines. */
  function Fold(lines: seq<Line>, st: ParseState): (r: Trace<ParseState, StreamEvent>)
    ensures |r.events| <= |lines|
  {
    FoldWith(StepLine, lines, st)
  }

  /** Reading a concatenation is reading the second part from where the first ended. */
  lemma {:induction false} FoldAppend(a: seq<Line>, b: seq<Line>, st: ParseState)
    ensures Fold(a + b, st) ==
              Trace(Fold(a, st).events + Fold(b, Fold(a, st).state).events, Fold(b, Fold(a, st).state).state)
  {
    FoldWithAppend(StepLine, a, b, st);
  }

  /** Reading a non-empty stream is stepping its first line, then reading the rest. */
  lemma FoldCons(lines: seq<Line>, st: ParseState)
    requires lines != []
    ensures var s := StepLine(lines[0], st);
            Fold(lines, st) == Trace(Events(s.event) + Fold(lines[1..], s.state).events, Fold(lines[1..], s.state).state)
  {
  }

  /** A stream of one line yields that line's event and state. */
  lemma FoldOne(line: Line, st: ParseState)
    ensures Fold([line], st) == Trace(Events(StepLine(line, st).event), StepLine(line, st).state)
  {
    assert [line][1..] == [];
    assert FoldWith(StepLine, [line][1..], StepLine(line, st).state) == Trace([], StepLine(line, st).state);
  }

  /** Skipped lines are invisible to the fold: a garbage line disturbs nothing. */
  lemma {:induction false} SkippedLinesInvisible(a: seq<Line>, junk: Line, b: seq<Line>, st: ParseState)
    requires Skipped(junk)
    ensures Fold(a + [junk] + b, st) == Fold(a + b, st)
  {
    FoldAppend(a + [junk], b, st);
    FoldAppend(a, [junk], st);
    FoldAppend(a, b, st);
    FoldOne(junk, Fold(a, st).state);
  }

  function Concat(parts: seq<string>): string {
    if parts == [] then "" else parts[0] + Concat(parts[1..])
  }

  function DeltaEvents(id: string, parts: seq<string>): seq<StreamEvent> {
    if parts == [] then [] else [ContentDelta(id, parts[0])] + DeltaEvents(id, parts[1..])
  }

  /** The three line shapes of a wrapped message, as the reading loop sees them. */
  predicate StartLine(line: Line, id: string) {
    !Skipped(line) && WrappedStart(line.json.value, id)
  }

  predicate DeltaLine(line: Line, part: string) {
    !Skipped(line) && WrappedDelta(line.json.value, part)
  }

  predicate StopLine(line: Line) {
    !Skipped(line) && WrappedStop(line.json.value)
  }

  /** A whole wrapped message: a start with id `id`, one delta line per part, a stop. */
  predicate WrappedMessage(lines: seq<Line>, id: string, parts: seq<string>) {
    && |lines| == |parts| + 2
    && StartLine(lines[0], id)
    && (forall i :: 0 <= i < |parts| ==> DeltaLine(lines[i + 1], parts[i]))
    && StopLine(lines[|parts| + 1])
  }

  lemma StartStep(line: Line, id: string, st: ParseState)
    requires StartLine(line, id)
    ensures StepLine(line, st) == Step(Some(MessageStart(id)), ParseState(id, ""))
  {
  }

  lemma DeltaStep(line: Line, part: string, id: string, acc: string)
    requires DeltaLine(line, part)
    ensures StepLine(line, ParseState(id, acc)) == Step(Some(ContentDelta(id, part)), ParseState(id, acc + part))
  {
  }

  lemma StopStep(line: Line, id: string, acc: string)
    requires StopLine(line)
    ensures StepLine(line, ParseState(id, acc)) == Step(Some(MessageComplete(id, acc)), ParseState(id, acc))
  {
  }

  /** Dropping the first delta line leaves delta lines for the remaining parts. */
  lemma DeltaLinesTail(lines: seq<Line>, parts: seq<string>)
    requires parts != [] && |lines| == |parts| + 1
    requires forall i :: 0 <= i < |parts| ==> DeltaLine(lines[i], parts[i])
    ensures forall i :: 0 <= i < |parts[1..]| ==> DeltaLine(lines[1..][i], parts[1..][i])
    ensures lines[1..][|parts[1..]|] == lines[|parts|]
  {
    forall i | 0 <= i < |parts[1..]|
      ensures DeltaLine(lines[1..][i], parts[1..][i])
    {
      assert lines[1..][i] == lines[i + 1];
    }
  }

  lemma ConcatCons(acc: string, parts: seq<string>)
    requires parts != []
    ensures (acc + parts[0]) + Concat(parts[1..]) == acc + Concat(parts)
  {
  }

  lemma {:induction false} DeltasThenStop(lines: seq<Line>, id: string, acc: string, parts: seq<string>)
    requires |lines| == |parts| + 1
    requires forall i :: 0 <= i < |parts| ==> DeltaLine(lines[i], parts[i])
    requires StopLine(lines[|parts|])
    ensures Fold(lines, ParseState(id, acc)) ==
              Trace(DeltaEvents(id, parts) + [MessageComplete(id, acc + Concat(parts))],
                    ParseState(id, acc + Concat(parts)))
  {
    var st := ParseState(id, acc);
    FoldCons(lines, st);
    if parts == [] {
      StopStep(lines[0], id, acc);
      assert Fold(lines[1..], st) == Trace([], st);
      assert acc + Concat(parts) == acc;
    } else {
      DeltaStep(lines[0], parts[0], id, acc);
      DeltaLinesTail(lines, parts);
      DeltasThenStop(lines[1..], id, acc + parts[0], parts[1..]);
      ConcatCons(acc, parts);
    }
  }

  /**
   * The central stream property: start, deltas, stop yields MessageStart,
   * one ContentDelta per delta in order, and a MessageComplete whose content
   * is the concatenation of the deltas; the state is left at (m, content).
   */
  lemma WrappedMessageCompletes(lines: seq<Line>, id: string, parts: seq<string>, st: ParseState)
    requires WrappedMessage(lines, id, parts)
    ensures Fold(lines, st).events ==
              [MessageStart(id)] + DeltaEvents(id, parts) + [MessageComplete(id, Concat(parts))]
    ensures Fold(lines, st).state == ParseState(id, Concat(parts))
  {
    StartStep(lines[0], id, st);
    forall i | 0 <= i < |parts|
      ensures DeltaLine(lines[1..][i], parts[i])
    {
      assert lines[1..][i] == lines[i + 1];
    }
    assert lines[1..][|parts|] == lines[|parts| + 1];
    DeltasThenStop(lines[1..], id, "", parts);
    assert "" + Concat(parts) == Concat(parts);
  }

  // ---------------------------------------------------------------------
  // Orchestration: create, the create stream task, resume, cancel
  // ---------------------------------------------------------------------

  function Channel(key: string): string {
    "session-stream:" + key
  }

  const NotInstalled := "Claude CLI is not installed. Please install it first."

  /** The arguments of `claude` for a new session (no model override). */
  function CreateArgs(message: string): seq<string> {
    ["-p", message, "--output-format", "stream-json", "--include-partial-messages", "--verbose"]
  }

  function ResumeArgs(sessionId: string, message: string): seq<string> {
    ["--resume", sessionId] + CreateArgs(message)
  }

  /** The checks that precede the spawn, in source order. */
  function Preflight(env: Environment, projectPath: string): (r: Result<string>)
    ensures r.Success? <==> env.cliInstalled && env.pathExists && env.canonical.Some?
    ensures r.Success? ==> r.value == env.canonical.value
    ensures !env.cliInstalled ==> r == Failure(NotInstalled)
  {
    if !env.cliInstalled then Failure(NotInstalled)
    else if !env.pathExists then Failure("Project path does not exist: " + projectPath)
    else if env.canonical.None? then Failure("Failed to canonicalize path: ")
    else Success(env.canonical.value)
  }

  /**
   * The synchronous part of `create_session`: check, spawn, and register
   * the child under `temp-<uuid>` before any output is read.
   */
  method CreateSession(registry: ProcessMap, host: Host, env: Environment,
                       message: string, projectPath: string, uuid: string)
    returns (r: Result<string>)
    modifies registry, host
    ensures r.Success? <==> Preflight(env, projectPath).Success? && env.spawn.Spawned?
    ensures r.Success? ==> r.value == "temp-" + uuid && StartsWith(r.value, "temp-")
    ensures r.Success? ==> registry.procs == old(registry.procs)[r.value := env.spawn.child]
    ensures r.Failure? ==> registry.procs == old(registry.procs)
    ensures Preflight(env, projectPath).Failure? ==>
              r == Failure(Preflight(env, projectPath).error) && host.launched == old(host.launched)
    ensures Preflight(env, projectPath).Success? ==>
              host.launched == old(host.launched) +
                [Command("claude", CreateArgs(message), Preflight(env, projectPath).value)]
    ensures host.killed == old(host.killed) +
              (if Preflight(env, projectPath).Success? && env.spawn.NoStdout? then [env.spawn.child] else [])
  {
    var checked := Preflight(env, projectPath);
    if checked.Failure? {
      return Failure(checked.error);
    }
    var child := host.Spawn(Command("claude", CreateArgs(message), checked.value), env.spawn);
    match child
    case SpawnError =>
      r := Failure("Failed to spawn Claude CLI: ");
    case NoStdout(h) =>
      var _ := host.Kill(h, true);
      r := Failure("Failed to get stdout");
    case Spawned(h) =>
      var temp := "temp-" + uuid;
      registry.Insert(temp, h);
      r := Success(temp);
  }

  /** `if let Some("system") = type { if let Some(id) = session_id {...} }`. */
  function SystemSessionId(json: Json): Option<string> {
    if TopType(json) == Some("system") then GetStr(json, "session_id") else None
  }

  /** Move the child registered under `temp` to `realId`; no-op when `temp` is gone. */
  function Rekey(procs: map<string, Handle>, temp: string, realId: string): (r: map<string, Handle>)
    ensures temp in procs ==> realId in r && r[realId] == procs[temp]
    ensures temp in procs && temp != realId ==> temp !in r
    ensures temp !in procs ==> r == procs
    ensures forall k :: k != temp && k != realId ==> (k in r <==> k in procs)
    ensures forall k :: k != temp && k != realId && k in r ==> r[k] == procs[k]
  {
    if temp in procs then (procs - {temp})[realId := procs[temp]] else procs
  }

  /** The local state of the create stream task together with the shared state it touches. */
  datatype Pump = Pump(procs: map<string, Handle>, log: seq<(string, StreamEvent)>,
                       parse: ParseState, realId: Option<string>)

  function ActiveKey(temp: string, realId: Option<string>): string {
    if realId.Some? then realId.value else temp
  }

  /** One line of the create stream task. */
  function FeedCreated(temp: string, p: Pump, line: Line): Pump {
    if Skipped(line) then p
    else
      var json := line.json.value;
      var sid := SystemSessionId(json);
      var procs := if sid.Some? then Rekey(p.procs, temp, sid.value) else p.procs;
      var realId := if sid.Some? then sid else p.realId;
      var notices := if sid.Some? then
                       [(Channel(temp), SessionIdUpdated(temp, sid.value)),
                        (Channel(sid.value), SessionIdUpdated(temp, sid.value))]
                     else [];
      var s := ParseStreamEvent(json, p.parse);
      Pump(procs, p.log + notices + Tagged(Channel(ActiveKey(temp, realId)), Events(s.event)), s.state, realId)
  }

  function FeedAllCreated(temp: string, p: Pump, lines: seq<Line>): Pump
    decreases |lines|
  {
    if lines == [] then p else FeedAllCreated(temp, FeedCreated(temp, p, lines[0]), lines[1..])
  }

  /** One line of the create stream task, as the loop body performs it. */
  method FeedLine(registry: ProcessMap, sink: EventSink<StreamEvent>, temp: string, line: Line,
                  st: ParseState, realId: Option<string>)
    returns (st': ParseState, realId': Option<string>)
    modifies registry, sink
    ensures Pump(registry.procs, sink.log, st', realId') ==
              FeedCreated(temp, Pump(old(registry.procs), old(sink.log), st, realId), line)
  {
    st', realId' := st, realId;
    if !IsBlank(line.text) && line.json.Some? {
      var json := line.json.value;
      var sid := SystemSessionId(json);
      ghost var notices: seq<(string, StreamEvent)> := [];
      if sid.Some? {
        var moved := registry.Remove(temp);
        if moved.Some? {
          registry.Insert(sid.value, moved.value);
        }
        assert registry.procs == Rekey(old(registry.procs), temp, sid.value);
        realId' := sid;
        sink.Emit(Channel(temp), SessionIdUpdated(temp, sid.value));
        sink.Emit(Channel(sid.value), SessionIdUpdated(temp, sid.value));
        notices := [(Channel(temp), SessionIdUpdated(temp, sid.value)),
                    (Channel(sid.value), SessionIdUpdated(temp, sid.value))];
      }
      assert sink.log == old(sink.log) + notices;
      var active := ActiveKey(temp, realId');
      var s := ParseStreamEvent(json, st);
      st' := s.state;
      if s.event.Some? {
        sink.Emit(Channel(active), s.event.value);
      }
      assert sink.log == old(sink.log) + notices + Tagged(Channel(active), Events(s.event));
    }
  }

  /**
   * The background task of `create_session`: read every line, re-key and
   * announce on a `system` line, publish under the active key, and remove
   * the active key at end of stream. There is no end-of-stream flush.
   */
  method CreateStreamTask(registry: ProcessMap, sink: EventSink<StreamEvent>, temp: string, lines: seq<Line>)
    modifies registry, sink
    ensures var p := FeedAllCreated(temp, Pump(old(registry.procs), old(sink.log), Initial, None), lines);
            registry.procs == p.procs - {ActiveKey(temp, p.realId)} && sink.log == p.log
  {
    ghost var start := Pump(registry.procs, sink.log, Initial, None);
    var st := Initial;
    var realId: Option<string> := None;
    var i := 0;
    while i < |lines|
      invariant 0 <= i <= |lines|
      invariant FeedAllCreated(temp, Pump(registry.procs, sink.log, st, realId), lines[i..]) ==
                FeedAllCreated(temp, start, lines)
    {
      assert lines[i..][1..] == lines[i + 1..];
      st, realId := FeedLine(registry, sink, temp, lines[i], st, realId);
      i := i + 1;
    }
    var _ := registry.Remove(ActiveKey(temp, realId));
  }

  /**
   * Reconciliation: a `system` line carrying X moves the temp entry to X
   * (same handle), announces SessionIdUpdated{temp, X} on both channels, and
   * makes X the channel of everything that follows.
   */
  lemma Reconciliation(temp: string, p: Pump, line: Line, x: string)
    requires !Skipped(line) && SystemSessionId(line.json.value) == Some(x)
    requires temp in p.procs && temp != x
    ensures var q := FeedCreated(temp, p, line);
            && temp !in q.procs && x in q.procs && q.procs[x] == p.procs[temp]
            && q.realId == Some(x)
            && q.log == p.log + [(Channel(temp), SessionIdUpdated(temp, x)),
                                 (Channel(x), SessionIdUpdated(temp, x))]
            && q.parse == p.parse
  {
    assert ParseStreamEvent(line.json.value, p.parse) == Step(None, p.parse);
  }

  /** A line without a session id leaves the real id alone and publishes on its channel. */
  lemma FeedAfterReal(temp: string, p: Pump, line: Line, x: string)
    requires p.realId == Some(x)
    requires Skipped(line) || SystemSessionId(line.json.value).None?
    ensures var q := FeedCreated(temp, p, line);
            q.realId == Some(x) && q.log == p.log + Tagged(Channel(x), Events(StepLine(line, p.parse).event))
  {
  }

  /** Once the real id is known, every event of a later line is published on the real channel. */
  lemma {:induction false} LaterEventsOnRealChannel(temp: string, p: Pump, lines: seq<Line>, x: string)
    requires p.realId == Some(x)
    requires forall i :: 0 <= i < |lines| ==> Skipped(lines[i]) || SystemSessionId(lines[i].json.value).None?
    ensures var q := FeedAllCreated(temp, p, lines);
            q.realId == Some(x) && |q.log| >= |p.log| && q.log[..|p.log|] == p.log &&
            forall i :: |p.log| <= i < |q.log| ==> q.log[i].0 == Channel(x)
    decreases |lines|
  {
    if lines != [] {
      var p1 := FeedCreated(temp, p, lines[0]);
      FeedAfterReal(temp, p, lines[0], x);
      var tail := Tagged(Channel(x), Events(StepLine(lines[0], p.parse).event));
      assert p1.log == p.log + tail;
      assert forall i :: |p.log| <= i < |p1.log| ==> p1.log[i] == tail[i - |p.log|];
      forall i | 0 <= i < |lines[1..]|
        ensures Skipped(lines[1..][i]) || SystemSessionId(lines[1..][i].json.value).None?
      {
        assert lines[1..][i] == lines[i + 1];
      }
      LaterEventsOnRealChannel(temp, p1, lines[1..], x);
      var q := FeedAllCreated(temp, p1, lines[1..]);
      assert q == FeedAllCreated(temp, p, lines);
      assert q.log[..|p1.log|] == p1.log;
      forall i | |p.log| <= i < |q.log|
        ensures q.log[i].0 == Channel(x)
      {
        if i < |p1.log| {
          assert q.log[i] == q.log[..|p1.log|][i];
        }
      }
      assert q.log[..|p.log|] == p1.log[..|p.log|];
    }
  }

  /** The synchronous part of `resume_session`: the session id itself is the key. */
  method ResumeSession(registry: ProcessMap, host: Host, env: Environment,
                       sessionId: string, message: string, projectPath: string)
    returns (r: Result<()>)
    modifies registry, host
    ensures r.Success? <==> Preflight(env, projectPath).Success? && env.spawn.Spawned?
    ensures r.Success? ==> registry.procs == old(registry.procs)[sessionId := env.spawn.child]
    ensures r.Failure? ==> registry.procs == old(registry.procs)
    ensures Preflight(env, projectPath).Failure? ==> r == Failure(Preflight(env, projectPath).error)
    ensures Preflight(env, projectPath).Success? ==>
              host.launched == old(host.launched) +
                [Command("claude", ResumeArgs(sessionId, message), Preflight(env, projectPath).value)]
    ensures Preflight(env, projectPath).Failure? ==> host.launched == old(host.launched)
    ensures host.killed == old(host.killed) +
              (if Preflight(env, projectPath).Success? && env.spawn.NoStdout? then [env.spawn.child] else [])
  {
    var checked := Preflight(env, projectPath);
    if checked.Failure? {
      return Failure(checked.error);
    }
    var child := host.Spawn(Command("claude", ResumeArgs(sessionId, message), checked.value), env.spawn);
    match child
    case SpawnError =>
      r := Failure("Failed to spawn Claude CLI: ");
    case NoStdout(h) =>
      var _ := host.Kill(h, true);
      r := Failure("Failed to get stdout");
    case Spawned(h) =>
      registry.Insert(sessionId, h);
      r := Success(());
  }

  /** Folding one more line onto a prefix. */
  lemma FoldSnoc(a: seq<Line>, line: Line, st: ParseState)
    ensures var s := StepLine(line, Fold(a, st).state);
            Fold(a + [line], st) == Trace(Fold(a, st).events + Events(s.event), s.state)
  {
    FoldAppend(a, [line], st);
    FoldOne(line, Fold(a, st).state);
  }

  /** The background task of `resume_session`: publish every event, then deregister. */
  method ResumeStreamTask(registry: ProcessMap, sink: EventSink<StreamEvent>, sessionId: string, lines: seq<Line>)
    modifies registry, sink
    ensures sink.log == old(sink.log) + Tagged(Channel(sessionId), Fold(lines, Initial).events)
    ensures registry.procs == old(registry.procs) - {sessionId}
  {
    var st := Initial;
    var i := 0;
    while i < |lines|
      invariant 0 <= i <= |lines|
      invariant registry.procs == old(registry.procs)
      invariant st == Fold(lines[..i], Initial).state
      invariant sink.log == old(sink.log) + Tagged(Channel(sessionId), Fold(lines[..i], Initial).events)
    {
      var line := lines[i];
      var s := StepLine(line, st);
      if !IsBlank(line.text) && line.json.Some? {
        if s.event.Some? {
          sink.Emit(Channel(sessionId), s.event.value);
        }
      }
      FoldSnoc(lines[..i], line, Initial);
      TaggedAppend(Channel(sessionId), Fold(lines[..i], Initial).events, Events(s.event));
      assert lines[..i + 1] == lines[..i] + [line];
      st := s.state;
      i := i + 1;
    }
    assert lines[..i] == lines;
    var _ := registry.Remove(sessionId);
  }

  /** `cancel_session`: kill and deregister a running session, or report that none is running. */
  method CancelSession(registry: ProcessMap, host: Host, sessionId: string, killOk: bool)
    returns (r: Result<()>)
    modifies registry, host
    ensures sessionId !in old(registry.procs) ==>
              r == Failure("Session is not running") && registry.procs == old(registry.procs) &&
              host.killed == old(host.killed)
    ensures sessionId in old(registry.procs) ==>
              registry.procs == old(registry.procs) - {sessionId} &&
              host.killed == old(host.killed) + [old(registry.procs)[sessionId]] &&
              r == (if killOk then Success(()) else Failure("Failed to kill process: "))
    ensures sessionId !in registry.procs
    ensures host.launched == old(host.launched)
  {
    var child := registry.Remove(sessionId);
    if child.Some? {
      var ok := host.Kill(child.value, killOk);
      r := if ok then Success(()) else Failure("Failed to kill process: ");
    } else {
      r := Failure("Session is not running");
    }
  }
}

=== FILE: session_parser.dfy ===
/**
 * sessions/parser.rs: reading a session file line by line, tolerating
 * bad lines, and summarising the messages into a `Session` record.
 */
module SessionParser {
  import opened Wrappers
  import opened Json
  import opened Text
  import opened SessionTypes
  import opened ModelNormalize

  /** What one line of the file decodes to: nothing for blank, non-JSON or ill-typed lines. */
  function LineMessage(line: Line): Option<SessionMessage> {
    if IsBlank(line.text) || line.json.None? then None else DecodeSessionMessage(line.json.value)
  }

  /** The values `f` yields over `xs`, in order, skipping the elements it yields nothing for. */
  function Somes<A, B>(f: A -> Option<B>, xs: seq<A>): (r: seq<B>)
    ensures |r| <= |xs|
  {
    if xs == [] then []
    else
      var m := f(xs[0]);
      (if m.Some? then [m.value] else []) + Somes(f, xs[1..])
  }

  lemma {:induction false} SomesAppend<A, B>(f: A -> Option<B>, a: seq<A>, b: seq<A>)
    ensures Somes(f, a + b) == Somes(f, a) + Somes(f, b)
  {
    if a == [] {
      assert a + b == b;
    } else {
      var m := f(a[0]);
      var head := if m.Some? then [m.value] else [];
      assert (a + b)[0] == a[0] && (a + b)[1..] == a[1..] + b;
      assert Somes(f, a + b) == head + Somes(f, a[1..] + b);
      SomesAppend(f, a[1..], b);
      assert head + (Somes(f, a[1..]) + Somes(f, b)) == (head + Somes(f, a[1..])) + Somes(f, b);
    }
  }

  lemma {:induction false} SomesFrom<A, B>(f: A -> Option<B>, xs: seq<A>)
    ensures forall m :: m in Somes(f, xs) ==> exists i :: 0 <= i < |xs| && f(xs[i]) == Some(m)
    ensures forall i :: 0 <= i < |xs| && f(xs[i]).Some? ==> f(xs[i]).value in Somes(f, xs)
  {
    if xs != [] {
      SomesFrom(f, xs[1..]);
      forall m | m in Somes(f, xs)
        ensures exists i :: 0 <= i < |xs| && f(xs[i]) == Some(m)
      {
        if m !in Somes(f, xs[1..]) {
          assert f(xs[0]) == Some(m);
        } else {
          var i :| 0 <= i < |xs[1..]| && f(xs[1..][i]) == Some(m);
          assert xs[i + 1] == xs[1..][i];
        }
      }
      forall i | 0 <= i < |xs| && f(xs[i]).Some?
        ensures f(xs[i]).value in Somes(f, xs)
      {
        if i > 0 {
          assert xs[1..][i - 1] == xs[i];
        }
      }
    }
  }

  lemma {:induction false} SomesOfNothing<A, B>(f: A -> Option<B>, xs: seq<A>)
    requires forall i :: 0 <= i < |xs| ==> f(xs[i]).None?
    ensures Somes(f, xs) == []
  {
    if xs != [] {
      assert forall i :: 0 <= i < |xs[1..]| ==> xs[1..][i] == xs[i + 1];
      SomesOfNothing(f, xs[1..]);
    }
  }

  /** The messages of a file, in line order. */
  function Messages(lines: seq<Line>): (r: seq<SessionMessage>)
    ensures |r| <= |lines|
  {
    Somes(LineMessage, lines)
  }

  /** Every parsed message comes from a line, and every line that decodes contributes its message. */
  lemma {:induction false} MessagesFromLines(lines: seq<Line>)
    ensures forall m :: m in Messages(lines) ==> exists i :: 0 <= i < |lines| && LineMessage(lines[i]) == Some(m)
    ensures forall i :: 0 <= i < |lines| && LineMessage(lines[i]).Some? ==> LineMessage(lines[i]).value in Messages(lines)
  {
    SomesFrom(LineMessage, lines);
  }

  /** A file of lines none of which decodes gives no messages, and never an error. */
  lemma {:induction false} GarbageGivesNothing(lines: seq<Line>)
    requires forall i :: 0 <= i < |lines| ==> LineMessage(lines[i]).None?
    ensures Messages(lines) == []
  {
    SomesOfNothing(LineMessage, lines);
  }

  /** The messages of one more line: that line's own message is appended. */
  lemma MessagesSnoc(lines: seq<Line>, i: nat)
    requires i < |lines|
    ensures var m := LineMessage(lines[i]);
            Messages(lines[..i + 1]) == Messages(lines[..i]) + (if m.Some? then [m.value] else [])
  {
    assert lines[..i + 1] == lines[..i] + [lines[i]];
    SomesAppend(LineMessage, lines[..i], [lines[i]]);
    assert [lines[i]][1..] == [];
  }

  /**
   * `parse_session_file`: a file that cannot be read is an error; otherwise
   * the decodable non-blank lines, in order.
   */
  method ParseSessionFile(file: Option<seq<Line>>) returns (r: Result<seq<SessionMessage>>)
    ensures file.None? ==> r == Failure("Failed to read session file: ")
    ensures file.Some? ==> r == Success(Messages(file.value))
  {
    if file.None? {
      return Failure("Failed to read session file: ");
    }
    var lines := file.value;
    var messages: seq<SessionMessage> := [];
    var i := 0;
    while i < |lines|
      invariant 0 <= i <= |lines|
      invariant messages == Messages(lines[..i])
    {
      var line := lines[i];
      MessagesSnoc(lines, i);
      if !IsBlank(line.text) && line.json.Some? {
        var decoded := DecodeSessionMessage(line.json.value);
        if decoded.Some? {
          messages := messages + [decoded.value];
        }
      }
      i := i + 1;
    }
    assert lines[..i] == lines;
    r := Success(messages);
  }

  datatype Session = Session(id: string, projectPath: string, title: string, createdAt: string,
                             updatedAt: string, messageCount: nat, model: Option<string>, filePath: string)

  /** The messages that count: every type but `Other`. */
  function Valid(ms: seq<SessionMessage>): (r: seq<SessionMessage>)
    ensures |r| <= |ms|
    ensures forall m :: m in r <==> m in ms && m.msgType != Other
  {
    if ms == [] then []
    else
      assert forall m :: m in ms <==> m == ms[0] || m in ms[1..];
      (if ms[0].msgType != Other then [ms[0]] else []) + Valid(ms[1..])
  }

  /**
   * Filtering distributes over concatenation, so the valid messages keep
   * their order and multiplicity: the count, the first and the last of the
   * metadata are those of the non-`Other` messages.
   */
  lemma {:induction false} ValidAppend(a: seq<SessionMessage>, b: seq<SessionMessage>)
    ensures Valid(a + b) == Valid(a) + Valid(b)
  {
    if a == [] {
      assert a + b == b;
    } else {
      assert (a + b)[0] == a[0] && (a + b)[1..] == a[1..] + b;
      ValidAppend(a[1..], b);
      var head := if a[0].msgType != Other then [a[0]] else [];
      assert head + (Valid(a[1..]) + Valid(b)) == (head + Valid(a[1..])) + Valid(b);
    }
  }

  /** The first message of a given type. */
  function FirstOf(ms: seq<SessionMessage>, t: MessageType): (r: Option<SessionMessage>)
    ensures r.Some? ==> exists i :: 0 <= i < |ms| && ms[i] == r.value && r.value.msgType == t &&
                                    forall j :: 0 <= j < i ==> ms[j].msgType != t
    ensures r.None? <==> forall i :: 0 <= i < |ms| ==> ms[i].msgType != t
  {
    if ms == [] then None
    else if ms[0].msgType == t then Some(ms[0])
    else
      var r := FirstOf(ms[1..], t);
      assert forall i :: 1 <= i < |ms| ==> ms[i] == ms[1..][i - 1];
      r
  }

  /** The last message of a given type. */
  function LastOf(ms: seq<SessionMessage>, t: MessageType): (r: Option<SessionMessage>)
    ensures r.Some? ==> exists i :: 0 <= i < |ms| && ms[i] == r.value && r.value.msgType == t &&
                                    forall j :: i < j < |ms| ==> ms[j].msgType != t
    ensures r.None? <==> forall i :: 0 <= i < |ms| ==> ms[i].msgType != t
  {
    if ms == [] then None
    else if ms[|ms| - 1].msgType == t then Some(ms[|ms| - 1])
    else
      var r := LastOf(ms[..|ms| - 1], t);
      assert forall i :: 0 <= i < |ms| - 1 ==> ms[i] == ms[..|ms| - 1][i];
      r
  }

  /** Titles longer than 100 characters keep their first 97 and gain "...". */
  function TruncateTitle(title: string): (r: string)
    ensures |r| <= 100
    ensures |title| <= 100 ==> r == title
    ensures |title| > 100 ==> |r| == 100 && r[..97] == title[..97] && r[97..] == "..."
  {
    if |title| > 100 then title[..97] + "..." else title
  }

  const Untitled := "Untitled Session"

  /** `extract_session_metadata`. The alias map is the one used by model-name normalisation. */
  function ExtractSessionMetadata(aliases: map<string, string>, ms: seq<SessionMessage>, filePath: string)
    : (r: Result<Session>)
    ensures r.Failure? <==> forall i :: 0 <= i < |ms| ==> ms[i].msgType == Other
    ensures r.Failure? ==> r.error == "Session has no valid messages"
    ensures r.Success? ==>
              var valid := Valid(ms);
              && r.value.messageCount == |valid| > 0
              && r.value.id == valid[0].sessionId
              && r.value.createdAt == valid[0].timestamp
              && r.value.updatedAt == valid[|valid| - 1].timestamp
              && r.value.projectPath == (if valid[0].cwd.Some? then valid[0].cwd.value else "Unknown")
              && |r.value.title| <= 100
              && r.value.filePath == filePath
  {
    var valid := Valid(ms);
    if valid == [] then
      assert forall i :: 0 <= i < |ms| ==> ms[i] in ms;
      Failure("Session has no valid messages")
    else
      assert valid[0] in valid;
      var first := valid[0];
      var last := valid[|valid| - 1];
      var user := FirstOf(valid, User);
      var text := if user.Some? then TextContent(user.value) else None;
      var title := TruncateTitle(if text.Some? then text.value else Untitled);
      var assistant := LastOf(valid, Assistant);
      var model := if assistant.Some? && assistant.value.model.Some?
                   then Some(NormalizeModelName(aliases, assistant.value.model.value)) else None;
      Success(Session(first.sessionId, if first.cwd.Some? then first.cwd.value else "Unknown",
                      title, first.timestamp, last.timestamp, |valid|, model, filePath))
  }

  /**
   * The title is the (truncated) text of the FIRST user message, or
   * "Untitled Session" when there is no user message or it has no text.
   */
  lemma TitleFromFirstUser(aliases: map<string, string>, ms: seq<SessionMessage>, filePath: string, i: nat)
    requires i < |Valid(ms)| && Valid(ms)[i].msgType == User
    requires forall j :: 0 <= j < i ==> Valid(ms)[j].msgType != User
    ensures var r := ExtractSessionMetadata(aliases, ms, filePath);
            r.Success? &&
            r.value.title == TruncateTitle(if TextContent(Valid(ms)[i]).Some? then TextContent(Valid(ms)[i]).value
                                           else Untitled)
  {
    var valid := Valid(ms);
    assert valid[i] in valid;
    var u := FirstOf(valid, User);
    var k :| 0 <= k < |valid| && valid[k] == u.value && u.value.msgType == User &&
             forall j :: 0 <= j < k ==> valid[j].msgType != User;
    assert k == i;
  }

  lemma NoUserUntitled(aliases: map<string, string>, ms: seq<SessionMessage>, filePath: string)
    requires Valid(ms) != []
    requires forall j :: 0 <= j < |Valid(ms)| ==> Valid(ms)[j].msgType != User
    ensures ExtractSessionMetadata(aliases, ms, filePath) == Success(ExtractSessionMetadata(aliases, ms, filePath).value)
    ensures ExtractSessionMetadata(aliases, ms, filePath).value.title == Untitled
  {
    assert Valid(ms)[0] in Valid(ms);
  }

  /** The model is the normalised model field of the LAST assistant message, if it has one. */
  lemma ModelFromLastAssistant(aliases: map<string, string>, ms: seq<SessionMessage>, filePath: string, i: nat)
    requires i < |Valid(ms)| && Valid(ms)[i].msgType == Assistant
    requires forall j :: i < j < |Valid(ms)| ==> Valid(ms)[j].msgType != Assistant
    ensures var r := ExtractSessionMetadata(aliases, ms, filePath);
            r.Success? &&
            r.value.model == NormalizeModelOption(aliases, Valid(ms)[i].model)
  {
    var valid := Valid(ms);
    assert valid[i] in valid;
    var a := LastOf(valid, Assistant);
    var k :| 0 <= k < |valid| && valid[k] == a.value && a.value.msgType == Assistant &&
             forall j :: k < j < |valid| ==> valid[j].msgType != Assistant;
    assert k == i;
  }

  lemma NoAssistantNoModel(aliases: map<string, string>, ms: seq<SessionMessage>, filePath: string)
    requires Valid(ms) != []
    requires forall j :: 0 <= j < |Valid(ms)| ==> Valid(ms)[j].msgType != Assistant
    ensures ExtractSessionMetadata(aliases, ms, filePath).Success?
    ensures ExtractSessionMetadata(aliases, ms, filePath).value.model.None?
  {
    assert Valid(ms)[0] in Valid(ms);
  }
}

=== FILE: session_types.dfy ===
/**
 * sessions/types.rs: one line of a Claude Code session file, as serde
 * decodes it, and the text a message carries.
 */
module SessionTypes {
  import opened Wrappers
  import opened Json
  import opened Text

  /** `MessageType`, kebab-case on the wire; every other string is `Other`. */
  datatype MessageType = User | Assistant | Summary | Other

  function ParseMessageType(s: string): (r: MessageType)
    ensures r == User <==> s == "user"
    ensures r == Assistant <==> s == "assistant"
    ensures r == Summary <==> s == "summary"
  {
    if s == "user" then User
    else if s == "assistant" then Assistant
    else if s == "summary" then Summary
    else Other
  }

  datatype MessageContent = MessageContent(role: string, content: Option<Json>)

  datatype SessionMessage = SessionMessage(
    parentUuid: Option<string>,
    uuid: Option<string>,
    sessionId: string,
    timestamp: string,
    msgType: MessageType,
    message: Option<MessageContent>,
    cwd: Option<string>,
    version: Option<string>,
    isSidechain: Option<bool>,
    id: Option<string>,
    model: Option<string>)

  /**
   * An optional string field: absent or null is `None`, a string is
   * `Some`, anything else is a decoding error (the outer `None`).
   */
  function OptStr(j: Json, key: string): (r: Option<Option<string>>)
    ensures r == Some(None) <==> Get(j, key).None? || Get(j, key) == Some(JNull)
    ensures (exists s :: r == Some(Some(s))) <==> GetStr(j, key).Some?
    ensures GetStr(j, key).Some? ==> r == Some(GetStr(j, key))
  {
    match Get(j, key)
    case None => Some(None)
    case Some(JNull) => Some(None)
    case Some(JStr(s)) => Some(Some(s))
    case Some(_) => None
  }

  function OptBool(j: Json, key: string): Option<Option<bool>> {
    match Get(j, key)
    case None => Some(None)
    case Some(JNull) => Some(None)
    case Some(JBool(b)) => Some(Some(b))
    case Some(_) => None
  }

  /** `MessageContent`: `role` is required, `content` is any value (null counts as absent). */
  function DecodeContent(j: Json): (r: Option<MessageContent>)
    ensures r.Some? ==> GetStr(j, "role") == Some(r.value.role)
  {
    match GetStr(j, "role")
    case None => None
    case Some(role) =>
      var content := Get(j, "content");
      Some(MessageContent(role, if content == Some(JNull) then None else content))
  }

  function OptContent(j: Json, key: string): Option<Option<MessageContent>> {
    match Get(j, key)
    case None => Some(None)
    case Some(JNull) => Some(None)
    case Some(v) => if DecodeContent(v).Some? then Some(DecodeContent(v)) else None
  }

  /** Decoding one line as a `SessionMessage`: required fields present, optional ones well typed. */
  function DecodeSessionMessage(j: Json): (r: Option<SessionMessage>)
    ensures r.Some? ==> j.JObj?
    ensures r.Some? ==> GetStr(j, "sessionId") == Some(r.value.sessionId) &&
                        GetStr(j, "timestamp") == Some(r.value.timestamp) &&
                        GetStr(j, "type").Some? &&
                        r.value.msgType == ParseMessageType(GetStr(j, "type").value)
    ensures GetStr(j, "sessionId").None? || GetStr(j, "timestamp").None? || GetStr(j, "type").None? ==> r.None?
    ensures r.Some? ==> Some(r.value.cwd) == OptStr(j, "cwd") && Some(r.value.model) == OptStr(j, "model")
  {
    if !j.JObj? then None
    else
      var sid := GetStr(j, "sessionId");
      var ts := GetStr(j, "timestamp");
      var ty := GetStr(j, "type");
      var parent := OptStr(j, "parentUuid");
      var uuid := OptStr(j, "uuid");
      var message := OptContent(j, "message");
      var cwd := OptStr(j, "cwd");
      var version := OptStr(j, "version");
      var side := OptBool(j, "isSidechain");
      var id := OptStr(j, "id");
      var model := OptStr(j, "model");
      if sid.None? || ts.None? || ty.None? || parent.None? || uuid.None? || message.None? ||
         cwd.None? || version.None? || side.None? || id.None? || model.None? then None
      else
        Some(SessionMessage(parent.value, uuid.value, sid.value, ts.value, ParseMessageType(ty.value),
                            message.value, cwd.value, version.value, side.value, id.value, model.value))
  }

  /** The `text` of each object block that has a string one, in order. */
  function BlockTexts(blocks: seq<Json>): (r: seq<string>)
    ensures |r| <= |blocks|
    ensures r == [] <==> forall i :: 0 <= i < |blocks| ==> GetStr(blocks[i], "text").None?
  {
    if blocks == [] then []
    else
      var rest := BlockTexts(blocks[1..]);
      assert forall i :: 1 <= i < |blocks| ==> blocks[i] == blocks[1..][i - 1];
      match GetStr(blocks[0], "text")
      case Some(t) => [t] + rest
      case None => rest
  }

  /** What `get_text_content` returns. */
  function TextContent(m: SessionMessage): (r: Option<string>)
    ensures m.message.None? || m.message.value.content.None? ==> r.None?
    ensures m.message.Some? && m.message.value.content.Some? && m.message.value.content.value.JStr? ==>
              r == Some(m.message.value.content.value.s)
    ensures m.message.Some? && m.message.value.content.Some? && m.message.value.content.value.JArr? ==>
              var texts := BlockTexts(m.message.value.content.value.items);
              r == if texts == [] then None else Some(Join(texts, "\n"))
    ensures r.Some? ==> m.message.Some? && m.message.value.content.Some? &&
                        (m.message.value.content.value.JStr? || m.message.value.content.value.JArr?)
  {
    match m.message
    case None => None
    case Some(mc) =>
      match mc.content
      case None => None
      case Some(JStr(s)) => Some(s)
      case Some(JArr(blocks)) =>
        var texts := BlockTexts(blocks);
        if texts == [] then None else Some(Join(texts, "\n"))
      case Some(_) => None
  }

  lemma BlockTextsStep(blocks: seq<Json>, i: nat)
    requires i < |blocks|
    ensures BlockTexts(blocks[i..]) ==
              (if GetStr(blocks[i], "text").Some? then [GetStr(blocks[i], "text").value] else []) + BlockTexts(blocks[i + 1..])
  {
    assert blocks[i..][1..] == blocks[i + 1..];
  }

  /** One turn of the text-collecting loop keeps what is collected plus what remains. */
  lemma CollectTextStep(texts: seq<string>, blocks: seq<Json>, i: nat)
    requires i < |blocks|
    ensures var text := GetStr(blocks[i], "text");
            texts + BlockTexts(blocks[i..]) ==
              (if text.Some? then texts + [text.value] else texts) + BlockTexts(blocks[i + 1..])
  {
    BlockTextsStep(blocks, i);
    var text := GetStr(blocks[i], "text");
    if text.Some? {
      assert texts + ([text.value] + BlockTexts(blocks[i + 1..])) ==
             (texts + [text.value]) + BlockTexts(blocks[i + 1..]);
    } else {
      assert [] + BlockTexts(blocks[i + 1..]) == BlockTexts(blocks[i + 1..]);
    }
  }

  /** `SessionMessage::get_text_content`: collect the block texts in a loop, then join them. */
  method GetTextContent(m: SessionMessage) returns (r: Option<string>)
    ensures r == TextContent(m)
  {
    if m.message.None? {
      return None;
    }
    var content := m.message.value.content;
    if content.None? {
      return None;
    }
    if content.value.JStr? {
      return Some(content.value.s);
    }
    if content.value.JArr? {
      var blocks := content.value.items;
      var texts: seq<string> := [];
      var i := 0;
      while i < |blocks|
        invariant 0 <= i <= |blocks|
        invariant texts + BlockTexts(blocks[i..]) == BlockTexts(blocks)
      {
        CollectTextStep(texts, blocks, i);
        var text := GetStr(blocks[i], "text");
        if text.Some? {
          texts := texts + [text.value];
        }
        i := i + 1;
      }
      assert texts + BlockTexts([]) == texts;
      if texts != [] {
        return Some(Join(texts, "\n"));
      }
    }
    return None;
  }
}

=== FILE: sorting.dfy ===
/**
 * A stable sort, newest (largest key) first: what `sort_by(|a, b| key(b).cmp(&key(a)))`
 * computes. Stated as insertion of each element, left to right, after every
 * element whose key is at least as large.
 */
module Sorting {

  predicate SortedDesc<T>(s: seq<T>, key: T -> int) {
    forall i, j :: 0 <= i < j < |s| ==> key(s[i]) >= key(s[j])
  }

  /** Insert `x` after every leading element whose key is at least `key(x)`. */
  function Insert<T>(x: T, s: seq<T>, key: T -> int): (r: seq<T>)
    ensures |r| == |s| + 1
    ensures multiset(r) == multiset(s) + multiset{x}
  {
    if s == [] then [x]
    else if key(s[0]) >= key(x) then
      assert s == [s[0]] + s[1..];
      [s[0]] + Insert(x, s[1..], key)
    else [x] + s
  }

  function SortDesc<T>(s: seq<T>, key: T -> int): (r: seq<T>)
    ensures |r| == |s|
    ensures multiset(r) == multiset(s)
  {
    if s == [] then []
    else
      assert s == s[..|s| - 1] + [s[|s| - 1]];
      Insert(s[|s| - 1], SortDesc(s[..|s| - 1], key), key)
  }

  lemma {:induction false} InsertSorted<T>(x: T, s: seq<T>, key: T -> int)
    requires SortedDesc(s, key)
    ensures SortedDesc(Insert(x, s, key), key)
  {
    if s != [] && key(s[0]) >= key(x) {
      InsertSorted(x, s[1..], key);
      var r := Insert(x, s[1..], key);
      // every element of r is an element of s[1..] or x, all with key <= key(s[0])
      forall i | 0 <= i < |r|
        ensures key(r[i]) <= key(s[0])
      {
        assert r[i] in multiset(r);
        assert r[i] in multiset(s[1..]) || r[i] == x;
        if r[i] != x {
          var k :| 0 <= k < |s[1..]| && s[1..][k] == r[i];
          assert s[k + 1] == r[i];
        }
      }
    }
  }

  /** The result is ordered by key, largest first, and is a permutation of the input. */
  lemma {:induction false} SortDescCorrect<T>(s: seq<T>, key: T -> int)
    ensures SortedDesc(SortDesc(s, key), key)
    ensures multiset(SortDesc(s, key)) == multiset(s)
  {
    if s != [] {
      SortDescCorrect(s[..|s| - 1], key);
      InsertSorted(s[|s| - 1], SortDesc(s[..|s| - 1], key), key);
    }
  }
}

=== FILE: streams.dfy ===
/**
 * The shape both stream readers share: a per-line step that may yield an
 * event and moves a parse state along, the reading loop folded over all
 * lines, and the channel tag every emitted event carries.
 */
module Streams {
  import opened Wrappers
  import opened Json

  /** The outcome of one line: the event it yields, if any, and the state it leaves. */
  datatype Step<S, E> = Step(event: Option<E>, state: S)

  /** The events a stream yields and the state it ends in. */
  datatype Trace<S, E> = Trace(events: seq<E>, state: S)

  function Events<E>(e: Option<E>): seq<E> {
    if e.Some? then [e.value] else []
  }

  /** The reading loop over a stream, with the per-line step as a parameter. */
  function FoldWith<S, E>(step: (Line, S) -> Step<S, E>, lines: seq<Line>, st: S): (r: Trace<S, E>)
    ensures |r.events| <= |lines|
  {
    if lines == [] then Trace([], st)
    else
      var s := step(lines[0], st);
      var rest := FoldWith(step, lines[1..], s.state);
      Trace(Events(s.event) + rest.events, rest.state)
  }

  /** Folding a concatenation is folding the second part from where the first ended. */
  lemma {:induction false} FoldWithAppend<S, E>(step: (Line, S) -> Step<S, E>, a: seq<Line>, b: seq<Line>, st: S)
    ensures var t := FoldWith(step, a, st);
            FoldWith(step, a + b, st) ==
              Trace(t.events + FoldWith(step, b, t.state).events, FoldWith(step, b, t.state).state)
  {
    if a == [] {
      assert a + b == b;
    } else {
      assert (a + b)[0] == a[0] && (a + b)[1..] == a[1..] + b;
      FoldWithAppend(step, a[1..], b, step(a[0], st).state);
    }
  }

  /** The events as the UI receives them, each on the stream's channel. */
  function Tagged<E>(channel: string, events: seq<E>): (r: seq<(string, E)>)
    ensures |r| == |events|
    ensures forall i :: 0 <= i < |events| ==> r[i] == (channel, events[i])
  {
    seq(|events|, i requires 0 <= i < |events| => (channel, events[i]))
  }

  lemma TaggedAppend<E>(channel: string, a: seq<E>, b: seq<E>)
    ensures Tagged(channel, a + b) == Tagged(channel, a) + Tagged(channel, b)
  {
  }
}

=== FILE: text.dfy ===
/** String helpers matching the Rust `str` methods the source relies on. */
module Text {

  /** `s.replace(from, to)` for single characters. */
  function ReplaceChar(s: string, from: char, to: char): (r: string)
    ensures |r| == |s|
    ensures forall i :: 0 <= i < |s| ==> r[i] == (if s[i] == from then to else s[i])
  {
    if s == [] then [] else [if s[0] == from then to else s[0]] + ReplaceChar(s[1..], from, to)
  }

  predicate StartsWith(s: string, prefix: string) {
    |prefix| <= |s| && s[..|prefix|] == prefix
  }

  predicate EndsWith(s: string, suffix: string) {
    |suffix| <= |s| && s[|s| - |suffix|..] == suffix
  }

  /** `s.contains(sub)`. */
  predicate Contains(s: string, sub: string) {
    exists i :: 0 <= i <= |s| && StartsWith(s[i..], sub)
  }

  /** `s.contains(c)` for a single character. */
  predicate ContainsChar(s: string, c: char) {
    exists i :: 0 <= i < |s| && s[i] == c
  }

  /** `parts.join(sep)`. */
  function Join(parts: seq<string>, sep: string): string {
    if |parts| == 0 then ""
    else if |parts| == 1 then parts[0]
    else parts[0] + sep + Join(parts[1..], sep)
  }

  /**
   * Replacing a separator that no part contains, in a joined string, is
   * joining with the replacement.
   */
  lemma {:induction false} ReplaceCharJoin(parts: seq<string>, from: char, to: char)
    requires forall i :: 0 <= i < |parts| ==> !ContainsChar(parts[i], from)
    ensures ReplaceChar(Join(parts, [from]), from, to) == Join(parts, [to])
  {
    if |parts| == 0 {
    } else if |parts| == 1 {
      ReplaceCharAbsent(parts[0], from, to);
    } else {
      var rest := Join(parts[1..], [from]);
      ReplaceCharAbsent(parts[0], from, to);
      ReplaceCharJoin(parts[1..], from, to);
      calc {
        ReplaceChar(Join(parts, [from]), from, to);
        ReplaceChar(parts[0] + [from] + rest, from, to);
        { ReplaceCharAppend(parts[0] + [from], rest, from, to);
          ReplaceCharAppend(parts[0], [from], from, to); }
        ReplaceChar(parts[0], from, to) + ReplaceChar([from], from, to) + ReplaceChar(rest, from, to);
        parts[0] + [to] + Join(parts[1..], [to]);
      }
    }
  }

  lemma ReplaceCharAppend(a: string, b: string, from: char, to: char)
    ensures ReplaceChar(a + b, from, to) == ReplaceChar(a, from, to) + ReplaceChar(b, from, to)
  {
  }

  lemma ReplaceCharAbsent(s: string, from: char, to: char)
    requires !ContainsChar(s, from)
    ensures ReplaceChar(s, from, to) == s
  {
  }

  /** `join` of four parts, unfolded. */
  lemma JoinFour(a: string, b: string, c: string, d: string, sep: string)
    ensures Join([a, b, c, d], sep) == a + sep + b + sep + c + sep + d
  {
    var p := [a, b, c, d];
    assert p[1..] == [b, c, d] && p[1..][1..] == [c, d] && p[1..][1..][1..] == [d];
    assert Join([d], sep) == d;
    assert Join([c, d], sep) == c + sep + d;
    assert Join([b, c, d], sep) == b + sep + (c + sep + d);
  }

  function LowerChar(c: char): char {
    if 'A' <= c <= 'Z' then (c as int + 32) as char else c
  }

  /** `s.to_lowercase()`, restricted to ASCII letters. */
  function Lower(s: string): (r: string)
    ensures |r| == |s|
    ensures forall i :: 0 <= i < |s| ==> r[i] == LowerChar(s[i])
  {
    seq(|s|, i requires 0 <= i < |s| => LowerChar(s[i]))
  }
}

=== FILE: wrappers.dfy ===
/** Option and Result, the two failure-carrying shapes used throughout the model. */
module Wrappers {

  datatype Option<+T> = None | Some(value: T)

  /** A Rust `Result<R, String>`: a value or an error message. */
  datatype Result<+R> = Success(value: R) | Failure(error: string)
}
